=== FILE: README.md ===
# Admin CMS core in Dafny

This project models the logic core of a Next.js admin content-management system backed by a hosted
Postgres/storage service. The system has four parts:

- the server actions behind the admin screens, which create, update, delete, duplicate and toggle
  rows of the `pages`, `services`, `case_studies`, `blog_posts`, `leads`, `redirects`, `media`,
  `profiles` and `site_settings` tables, and record an audit entry after each write;
- the best-effort audit recorder;
- the access decisions: the route guard and the role check;
- the pure helpers of the admin and public screens: the SEO score and dashboard figures, the
  slugifier, the tag parser, the navigation editor and its JSON encoding, the lead filter, CSV
  export and time-ago text, and the folder, redirect, user and media figures.

The hosted backend becomes in-memory state. The class `Store.Backend` has one map from id to row
per table, an ordered list of `site_settings` rows (settings rows and keyed SEO records), a set of
storage blob keys and an append-only audit sequence.
Every backend call is an explicit `Outcome` parameter (`Ok` or `Fail(message)`), so each error path
is modelled. Timestamps, new row ids and random file-name parts are parameters as well.

Each server action has two members:

- a pure function `XxxSpec(t, …)` that returns the tables afterwards and the action's response;
- a method `Xxx(db, …)` that changes `db` step by step, as the action does.

The method is proved to produce exactly what the spec function describes. Lemmas about the spec
functions state what the actions promise: which columns are copied or overwritten, when
`published_at` is set, that `hit_count` is untouched, that the storage and the `media` table stay
consistent, and that nothing else changes.

Files that only compute are written as functions and lemmas. Loops and in-place updates are written
as methods:

- the folder-count reduce;
- the settings form encoding;
- `updateNavItem`'s array copy;
- the cookie writes of the route guard.

## Model

| member | source | states |
|---|---|---|
| AuditLogger.AuditActionsDeclared | lib/audit-logger.ts:5-14 | The `AuditAction` union has exactly nine actions, and "toggle" is not one of them. |
| AuditLogger.StoredEntityId | lib/audit-logger.ts:34 | The stored id falls back to null: it is stored exactly when it is given and non-empty. |
| AuditLogger.StoredChanges | lib/audit-logger.ts:35 | The stored changes fall back to `{}`: a missing change record, or an empty label, is stored as the empty object; otherwise the record is stored as given. |
| AuditLogger.Recorded | lib/audit-logger.ts:22-42 | At most one entry is written. One is written exactly when a user is signed in and the insert succeeds; every error is swallowed. The entry carries the user, action, entity type, stored id and changes, and null ip and agent. |
| AuditLogger.Logged | lib/audit-logger.ts:16-43 | Recording only appends to the audit log: the old log is a prefix of the new one, at most one entry longer, and no other table changes. |
| AuditLogger.LogAuditAction | lib/audit-logger.ts:16-43 | The in-place recorder changes only the audit log, exactly as `Logged` says. |
| Access.GetUser | lib/auth/get-user.ts:4-22 | Admits exactly when a user is signed in and the profile read succeeds with one of the four known roles, and returns that user and profile; every other case redirects to "/admin". |
| Access.RequireRole | lib/auth/get-user.ts:24-32 | Admits exactly when `getUser` admits and the role is among the allowed ones. `getUser`'s redirect is kept. A known role that is not allowed goes to "/admin/dashboard". |
| Access.RequireRoleAdmits | lib/auth/get-user.ts:17-31 | An admitted profile has a known role that is among the allowed ones. |
| Access.UnknownRoleNeverAdmitted | lib/auth/get-user.ts:17-19 | A profile with a role outside the four is sent to "/admin", whatever roles are allowed. |
| Access.SuperAdminTextRejected | lib/auth/get-user.ts:17 | The role test is an exact text match: "Super Admin" is not "super_admin", so such a profile is sent to "/admin". |
| Proxy.Decide | proxy.ts:4-62 | Without the backend URL and key, or when the user lookup throws, the request passes. A guarded path (prefix "/admin", except "/admin" and "/admin/signup") without a user goes to "/admin". "/admin" with a user goes to "/admin/dashboard". There is no other redirect. |
| Proxy.RedirectTargetPasses | proxy.ts:37-54 | Redirects never loop: the target of a redirect passes, for the same user. |
| Proxy.UnguardedPathsPass | proxy.ts:37-41 | "/admin/signup" and every path outside the "/admin" prefix pass. |
| Proxy.PrefixAlsoGuardsAdministrator | proxy.ts:38 | The guard is a text prefix test, so "/administrator" is guarded too. |
| Proxy.Applied | proxy.ts:22-28 | Writing a list of cookies into a jar leaves exactly the old names plus the written ones. |
| Proxy.LastEntryWins | proxy.ts:22-28 | A cookie written by the last entry with that name keeps that entry's value. |
| Proxy.CookieJar.constructor | proxy.ts:24-26 | A fresh response starts with no cookies. |
| Proxy.CookieJar.Set | proxy.ts:22-28 | `cookies.set(name, value, options)` stores or replaces one cookie and changes nothing else. |
| Proxy.SetEach | proxy.ts:22-28 | Setting the entries one at a time leaves the jar as writing the whole list in order does. |
| Proxy.SetAll | proxy.ts:22-28 | `setAll` writes every cookie into the request, without options, and into a fresh response, with options. |
| PageActions.NewPage | app/admin/pages/actions.ts:18-26 | A created page keeps the submitted title, slug, status, meta title and meta description, and has SEO score 0, empty content and no publish date. |
| PageActions.CreatePageSpec | app/admin/pages/actions.ts:7-38 | A failed insert returns its error and changes nothing. A successful one adds exactly the new page, with the form's title, slug, status and meta fields, score 0 and empty content, then records a "create" entry labelled with the title. No other table changes. |
| PageActions.CreatePage | app/admin/pages/actions.ts:7-38 | The in-place action has exactly the effect `CreatePageSpec` describes. |
| PageActions.EditedPage | app/admin/pages/actions.ts:51-58 | An update overwrites the title, slug, status, meta fields and `updated_at`, and keeps the content, score, image and publish date. |
| PageActions.UpdatePageSpec | app/admin/pages/actions.ts:40-69 | A failed update returns its error. Otherwise only the page with that id changes, and as `EditedPage` says; a missing id changes no row. An "update" entry is then recorded. |
| PageActions.UpdatePage | app/admin/pages/actions.ts:40-69 | The in-place action has exactly the effect `UpdatePageSpec` describes. |
| PageActions.DeleteLabel | app/admin/pages/actions.ts:82 | The label falls back to "Page": a row that was not read, or has an empty title, is labelled "Page". |
| PageActions.DeletePageSpec | app/admin/pages/actions.ts:71-86 | A failed delete returns its error. Otherwise the page is removed, whether or not the title read succeeded, and a "delete" entry labelled as `DeleteLabel` says is recorded. |
| PageActions.DeletePage | app/admin/pages/actions.ts:71-86 | The in-place action has exactly the effect `DeletePageSpec` describes. |
| PageActions.PageCopy | app/admin/pages/actions.ts:99-107 | A copy has the title plus " (Copy)", the slug plus "-copy", status "draft", and the same meta fields, content and score. |
| PageActions.DuplicatePageSpec | app/admin/pages/actions.ts:88-119 | A failed or empty read returns "Page not found". A failed insert returns its error. Otherwise exactly the copy is added, and a "create" entry labelled "Duplicated: " plus the copy's title is recorded. |
| PageActions.DuplicatePage | app/admin/pages/actions.ts:88-119 | The in-place action has exactly the effect `DuplicatePageSpec` describes. |
| PageActions.DuplicateTwiceSameSlug | app/admin/pages/actions.ts:101 | Duplicating a page twice gives two rows with the same slug, the original's plus "-copy": nothing makes copy slugs unique. The original is unchanged. |
| ServiceActions.DeleteLabel | app/admin/services/actions.ts:19 | The label falls back to "Service": a row that was not read, or has an empty title, is labelled "Service". |
| ServiceActions.DeleteServiceSpec | app/admin/services/actions.ts:7-22 | A failed delete returns "Failed to delete service" and changes nothing. Otherwise the service is removed and a "delete" entry labelled as `DeleteLabel` says is recorded. No other table changes. |
| ServiceActions.DeleteService | app/admin/services/actions.ts:7-22 | The in-place action has exactly the effect `DeleteServiceSpec` describes. |
| ServiceActions.ServiceCopy | app/admin/services/actions.ts:34-43 | A copy keeps every modelled column of the original except the id and timestamps (the modelled columns are listed under "## Left out"), with the title plus " (Copy)", the slug plus "-copy" and status "draft". |
| ServiceActions.DuplicateServiceSpec | app/admin/services/actions.ts:24-55 | A failed or empty read returns "Failed to fetch service". A failed insert returns "Failed to duplicate service". Otherwise exactly the copy is added, and a "create" entry labelled "Duplicated: " plus the copy's title is recorded. |
| ServiceActions.DuplicateService | app/admin/services/actions.ts:24-55 | The in-place action has exactly the effect `DuplicateServiceSpec` describes. |
| ServiceActions.CreateServiceSpec | app/admin/services/actions.ts:57-88 | A failed insert returns "Failed to create service". Otherwise exactly one row is added, holding the form as given and SEO score 0, the other rows are kept, and a "create" entry labelled with the title is recorded. |
| ServiceActions.CreateService | app/admin/services/actions.ts:57-88 | The in-place action has exactly the effect `CreateServiceSpec` describes. |
| ServiceActions.EditedService | app/admin/services/actions.ts:105-110 | The spread overwrites the required fields; an optional field left out of the form keeps the stored value. The score and creation time are kept and `updated_at` is set. |
| ServiceActions.UpdateServiceSpec | app/admin/services/actions.ts:90-122 | A failed update returns "Failed to update service". Otherwise only the service with that id changes, as `EditedService` says, and an "update" entry is recorded. |
| ServiceActions.UpdateService | app/admin/services/actions.ts:90-122 | The in-place action has exactly the effect `UpdateServiceSpec` describes. |
| CaseStudyActions.DeleteLabel | app/admin/case-studies/actions.ts:19 | The label falls back to "Case study" for a row not read or with an empty title. |
| CaseStudyActions.DeleteCaseStudySpec | app/admin/case-studies/actions.ts:7-22 | A failed delete returns "Failed to delete case study". Otherwise the row is removed and a "delete" entry is recorded. No other table changes. |
| CaseStudyActions.DeleteCaseStudy | app/admin/case-studies/actions.ts:7-22 | The in-place action has exactly the effect `DeleteCaseStudySpec` describes. |
| CaseStudyActions.StudyBlocks | app/admin/case-studies/actions.ts:48-51 | The content is two blocks, "challenge" then "solution", holding the form's texts. |
| CaseStudyActions.NewCaseStudy | app/admin/case-studies/actions.ts:43-60 | A new case study keeps the submitted title, slug, status, industry and featured image, and has a publish date exactly when its status is "published". The client name, SEO fields, blocks and results are mapped to their columns, with score 0, not featured and 0 views. |
| CaseStudyActions.CreateCaseStudySpec | app/admin/case-studies/actions.ts:24-74 | A failed insert returns "Failed to create case study". Otherwise exactly `NewCaseStudy` is added and a "create" entry labelled with the title is recorded. |
| CaseStudyActions.CreateCaseStudy | app/admin/case-studies/actions.ts:24-74 | The in-place action has exactly the effect `CreateCaseStudySpec` describes. |
| CaseStudyActions.EditedCaseStudy | app/admin/case-studies/actions.ts:97-112 | An update rewrites the mapped columns and `updated_at`. A missing image or SEO field leaves the stored value. The publish date, views, featured flag and score are kept. |
| CaseStudyActions.UpdateCaseStudySpec | app/admin/case-studies/actions.ts:76-124 | A failed update returns "Failed to update case study". Otherwise only that row changes, as `EditedCaseStudy` says, and an "update" entry is recorded. |
| CaseStudyActions.UpdateCaseStudy | app/admin/case-studies/actions.ts:76-124 | The in-place action has exactly the effect `UpdateCaseStudySpec` describes. |
| CaseStudyActions.PublishedLaterHasNoPublishDate | app/admin/case-studies/actions.ts:60 | A case study created as a draft and later updated to "published" is published with no publish date, because only creation sets it. |
| BlogActions.ReadTime | app/admin/blog/actions.ts:57 | `Math.ceil(words / 200)`, where words is the number of space-separated pieces: the result is at least 1, and is the least m with words ≤ 200·m. Empty content reads in 1 minute. |
| BlogActions.PostBlocks | app/admin/blog/actions.ts:46 | The content is stored as a single "text" block. |
| BlogActions.DeleteLabel | app/admin/blog/actions.ts:19 | The label falls back to "Blog post" for a row not read or with an empty title. |
| BlogActions.DeleteBlogPostSpec | app/admin/blog/actions.ts:7-22 | A failed delete returns "Failed to delete blog post". Otherwise the post is removed and a "delete" entry of entity type "blog" is recorded. No other table changes. |
| BlogActions.DeleteBlogPost | app/admin/blog/actions.ts:7-22 | The in-place action has exactly the effect `DeleteBlogPostSpec` describes. |
| BlogActions.NewBlogPost | app/admin/blog/actions.ts:42-58 | A new post keeps the submitted title, slug, status, excerpt, author, category and featured image, and has a publish date exactly when its status is "published", one text block, the read time of its content, the form's tags and SEO fields, score 0, not featured and 0 views. |
| BlogActions.CreateBlogPostSpec | app/admin/blog/actions.ts:24-72 | A failed insert returns "Failed to create blog post". Otherwise exactly `NewBlogPost` is added and a "create" entry is recorded. |
| BlogActions.CreateBlogPost | app/admin/blog/actions.ts:24-72 | The in-place action has exactly the effect `CreateBlogPostSpec` describes. |
| BlogActions.EditedBlogPost | app/admin/blog/actions.ts:94-108 | An update rewrites the mapped columns, the block and the read time. A missing image or SEO field leaves the stored value. The publish date, views, featured flag and score are kept. |
| BlogActions.UpdateBlogPostSpec | app/admin/blog/actions.ts:74-120 | A failed update returns "Failed to update blog post". Otherwise only that post changes, as `EditedBlogPost` says, and an "update" entry is recorded. |
| BlogActions.UpdateBlogPost | app/admin/blog/actions.ts:74-120 | The in-place action has exactly the effect `UpdateBlogPostSpec` describes. |
| BlogActions.PublishedLaterHasNoPublishDate | app/admin/blog/actions.ts:58 | A post created as a draft and later updated to "published" has no publish date. |
| LeadActions.UpdateLeadStatusSpec | app/admin/leads/actions.ts:7-26 | A failed update rethrows the backend's message. Otherwise only that lead's status and `updated_at` change, and an "update" entry labelled "Status changed to " plus the status is recorded. |
| LeadActions.UpdateLeadStatus | app/admin/leads/actions.ts:7-26 | The in-place action has exactly the effect `UpdateLeadStatusSpec` describes. |
| LeadActions.NotesAfter | app/admin/leads/actions.ts:33-35 | The new note is always last. With notes read, they come first, unchanged. With no row read, or null notes, the new note is the only one. |
| LeadActions.AddLeadNoteSpec | app/admin/leads/actions.ts:28-53 | A failed update rethrows its message. Otherwise that lead's notes become `NotesAfter` and `updated_at` is set, nothing else changes, and an "Added note" entry is recorded. The read's own error is not checked. |
| LeadActions.AddLeadNote | app/admin/leads/actions.ts:28-53 | The in-place action has exactly the effect `AddLeadNoteSpec` describes. |
| LeadActions.AddNoteAppends | app/admin/leads/actions.ts:31-43 | When both calls succeed, the note is appended to the lead's existing notes (none for null). |
| LeadActions.AddNoteAfterFailedReadLosesNotes | app/admin/leads/actions.ts:31-35 | When the read fails and the update succeeds, a lead with notes is left with only the new note: the old ones are lost. |
| LeadActions.AddLeadNoteCheckedSpec | app/admin/leads/actions.ts:28-53 | The corrected action stops with an error, changing nothing, when the lead cannot be read; otherwise it behaves as `AddLeadNoteSpec`. |
| LeadActions.CheckedAddNoteKeepsNotes | app/admin/leads/actions.ts:33-35 | With the corrected action, a successful note addition always keeps the old notes and appends the new one. |
| LeadActions.DeleteLabel | app/admin/leads/actions.ts:66 | The label is the name, else the e-mail, else "Lead" (empty text counts as missing); it is never empty. |
| LeadActions.DeleteLeadSpec | app/admin/leads/actions.ts:55-70 | A failed delete rethrows its message. Otherwise the lead is removed and a "delete" entry labelled as `DeleteLabel` says is recorded. No other table changes. |
| LeadActions.DeleteLead | app/admin/leads/actions.ts:55-70 | The in-place action has exactly the effect `DeleteLeadSpec` describes. |
| RedirectActions.NewRedirect | app/admin/redirects/actions.ts:15-21 | A new redirect has the form's source, destination, type and active flag, and hit count 0. |
| RedirectActions.CreateRedirectSpec | app/admin/redirects/actions.ts:7-29 | A failed insert rethrows the error. Otherwise exactly the new redirect is added, and a "create" entry with no entity id and the form as its changes is recorded. |
| RedirectActions.CreateRedirect | app/admin/redirects/actions.ts:7-29 | The in-place action has exactly the effect `CreateRedirectSpec` describes. |
| RedirectActions.SelfRedirectAccepted | app/admin/redirects/actions.ts:15-23 | Nothing rejects a redirect whose source and destination are the same path. |
| RedirectActions.EditedRedirect | app/admin/redirects/actions.ts:44-49 | An update rewrites the four form columns and keeps the hit count. |
| RedirectActions.UpdateRedirectSpec | app/admin/redirects/actions.ts:31-58 | A failed update rethrows the error. Otherwise only that redirect changes, as `EditedRedirect` says, and an "update" entry with the form is recorded. |
| RedirectActions.UpdateRedirect | app/admin/redirects/actions.ts:31-58 | The in-place action has exactly the effect `UpdateRedirectSpec` describes. |
| RedirectActions.UpdateKeepsHitCounts | app/admin/redirects/actions.ts:44-49 | No update, failed or not, changes any redirect's hit count or removes a redirect. |
| RedirectActions.DeleteRedirectSpec | app/admin/redirects/actions.ts:60-71 | A failed delete rethrows the error. Otherwise the redirect is removed and a "delete" entry with no changes is recorded. |
| RedirectActions.DeleteRedirect | app/admin/redirects/actions.ts:60-71 | The in-place action has exactly the effect `DeleteRedirectSpec` describes. |
| RedirectActions.ToggledFlag | app/admin/redirects/actions.ts:78 | `!redirect?.is_active`: the read flag negated, or true when nothing was read. |
| RedirectActions.ToggleRedirectSpec | app/admin/redirects/actions.ts:73-86 | A failed update rethrows the error. Otherwise only that redirect's active flag changes, to `ToggledFlag`, and a "toggle" entry holding the new flag is recorded. |
| RedirectActions.ToggleRedirect | app/admin/redirects/actions.ts:73-86 | The in-place action has exactly the effect `ToggleRedirectSpec` describes. |
| RedirectActions.ToggleFlips | app/admin/redirects/actions.ts:76-78 | When both calls succeed, the flag is flipped and every other column is kept. |
| RedirectActions.ToggleTwiceRestores | app/admin/redirects/actions.ts:73-86 | Toggling twice with every call succeeding gives back the original redirects table. |
| RedirectActions.ToggleAfterFailedReadActivates | app/admin/redirects/actions.ts:76-78 | When the read fails but the update succeeds, the redirect ends up active, whatever it was. |
| MediaActions.StorageKey | app/admin/media/actions.ts:18-20 | The storage key lies under the folder ("folder/"), ends in the same extension as the file's name, and differs from a name without "/". |
| MediaActions.PublicUrl | app/admin/media/actions.ts:31-33 | The public address starts with the project address and ends with the storage key. |
| MediaActions.UploadOutcome | app/admin/media/actions.ts:22-25 | With `upsert: false`, the upload succeeds exactly when the bucket accepts it and the key is not taken. A bucket error is passed on. |
| MediaActions.NewMediaItem | app/admin/media/actions.ts:37-47 | The row holds the file's name twice, its type twice, its size, the key, the address, the alt text and the folder. |
| MediaActions.UploadMediaSpec | app/admin/media/actions.ts:7-60 | No file returns "No file provided". A failed upload returns its message and changes nothing. A failed insert returns its message, adds no row, and leaves the blob only if the clean-up fails. Otherwise the blob and exactly one row are added ("uncategorized" folder and "" alt text by default), a "create" entry is recorded, and the address is returned. |
| MediaActions.UploadMedia | app/admin/media/actions.ts:7-60 | The in-place action has exactly the effect `UploadMediaSpec` describes. |
| MediaActions.UploadKeepsConsistent | app/admin/media/actions.ts:22-54 | An upload, on every path, keeps storage and table consistent: every row's blob exists and no two rows share a key. |
| MediaActions.FileLabel | app/admin/media/actions.ts:79 | The label falls back to "File" for a row not read or with an empty name. |
| MediaActions.DeleteMediaSpec | app/admin/media/actions.ts:62-83 | The blob is removed first. A failed removal returns its message and changes nothing. A failed row delete returns its message with the blob already gone. Otherwise both go, and a "delete" entry is recorded. |
| MediaActions.DeleteMedia | app/admin/media/actions.ts:62-83 | The in-place action has exactly the effect `DeleteMediaSpec` describes. |
| MediaActions.DeleteMediaConsistency | app/admin/media/actions.ts:67-77 | A delete keeps storage and table consistent except when the removal succeeds and the row delete fails. That case leaves a row whose blob is gone. |
| MediaActions.DeleteMediaRowFirstSpec | app/admin/media/actions.ts:62-83 | The corrected order deletes the row first, then the blob. A failed row delete changes nothing; a failed removal leaves only an unreferenced blob. |
| MediaActions.DeleteRowFirstKeepsConsistent | app/admin/media/actions.ts:67-77 | With the row deleted first, every outcome keeps storage and table consistent. |
| MediaActions.EditedMedia | app/admin/media/actions.ts:90 | An edit sets the alt text and folder and keeps every other column. |
| MediaActions.UpdateMediaMetadataSpec | app/admin/media/actions.ts:85-100 | A failed update returns its message. Otherwise only that row changes, as `EditedMedia` says, and an "update" entry is recorded. |
| MediaActions.UpdateMediaMetadata | app/admin/media/actions.ts:85-100 | The in-place action has exactly the effect `UpdateMediaMetadataSpec` describes. |
| MediaActions.UpdateMetadataKeepsConsistent | app/admin/media/actions.ts:85-100 | A metadata edit keeps storage and table consistent. |
| UserActions.WithEmail | app/admin/users/actions.ts:13 | The profiles whose e-mail equals the given one. |
| UserActions.InvitedProfile | app/admin/users/actions.ts:21-25 | An invited profile has the e-mail and role given, and a full name that is the e-mail's text before its first "@": a prefix of the e-mail followed there by "@", or the whole e-mail when it holds no "@". |
| UserActions.InviteUserSpec | app/admin/users/actions.ts:7-37 | When the lookup finds exactly one profile with that e-mail, the action returns "User already exists" and changes nothing. A failed insert returns its message. Otherwise exactly the new profile is added and an "invite_user" entry is recorded. |
| UserActions.InviteUser | app/admin/users/actions.ts:7-37 | The in-place action has exactly the effect `InviteUserSpec` describes. |
| UserActions.UniqueMatch | app/admin/users/actions.ts:13 | With unique e-mails, the lookup matches exactly the profile holding that e-mail. |
| UserActions.InviteKeepsEmailsUnique | app/admin/users/actions.ts:13-31 | With unique e-mails and a working lookup, an invite keeps e-mails unique. Inviting a taken e-mail is refused, and a new one is added when the insert succeeds. |
| UserActions.FailedLookupAllowsDuplicate | app/admin/users/actions.ts:13-17 | When the lookup fails, a second profile with a taken e-mail is inserted, and e-mails are no longer unique. |
| UserActions.RoleChangeText | app/admin/users/actions.ts:50 | The label is "email: old → new"; with no row read, both parts print "undefined". |
| UserActions.UpdateUserRoleSpec | app/admin/users/actions.ts:39-54 | A failed update returns its message. Otherwise only that profile's role changes, and a "change_role" entry labelled as `RoleChangeText` says is recorded. |
| UserActions.UpdateUserRole | app/admin/users/actions.ts:39-54 | The in-place action has exactly the effect `UpdateUserRoleSpec` describes. |
| UserActions.RoleChangeKeepsEmailsUnique | app/admin/users/actions.ts:44 | A role change keeps e-mails unique. |
| UserActions.DeleteLabel | app/admin/users/actions.ts:67 | The label falls back to "User" for a row not read or with an empty e-mail. |
| UserActions.DeleteUserSpec | app/admin/users/actions.ts:56-71 | A failed delete returns its message. Otherwise the profile is removed and a "delete" entry is recorded. No other table changes. |
| UserActions.DeleteUser | app/admin/users/actions.ts:56-71 | The in-place action has exactly the effect `DeleteUserSpec` describes. |
| SettingsActions.AppendFirstWins | app/admin/settings/actions.ts:24-51 | `formData.get` returns the first value appended under a name. A later append under a taken name changes nothing, and an append never affects another name. |
| SettingsActions.DecodeNavigation | app/admin/settings/actions.ts:22-28 | A missing or empty navigation field gives the empty list. A field that parses gives the parsed items. A field that does not parse also gives the empty list, because the exception is caught. |
| SettingsActions.OnlyTrueIsTrue | app/admin/settings/actions.ts:41 | A flag is stored as true only for the exact text "true"; "on", "True" or "1" store false. |
| SettingsActions.SingleRow | app/admin/settings/actions.ts:9-14 | `.single()` returns a row exactly when the read succeeds and the table holds exactly one row, and then returns that row. No row, several rows or an error give null. |
| SettingsActions.GetSettings | app/admin/settings/actions.ts:6-17 | The result is whatever `SingleRow` gives for the table, whichever kind of row that is. It is non-null exactly when the read succeeds and exactly one row exists. |
| SettingsActions.UpdateSettingsSpec | app/admin/settings/actions.ts:19-76 | With exactly one row found, that row is overwritten with the decoded form and keeps its id. Otherwise a new row is inserted. A failed write returns its message and changes nothing. No audit entry is recorded. |
| SettingsActions.UpdateSettings | app/admin/settings/actions.ts:19-76 | The in-place action has exactly the effect `UpdateSettingsSpec` describes. |
| SettingsActions.SaveLeavesOneRow | app/admin/settings/actions.ts:54-72 | Starting from at most one row, a successful save leaves exactly one row, holding the decoded form. |
| SettingsActions.SaveWithTwoRowsAddsAThird | app/admin/settings/actions.ts:54-66 | With two rows present, `maybeSingle` finds none, so a save inserts a third row instead of updating. |
| SettingsActions.FailedLookupAddsRow | app/admin/settings/actions.ts:54-66 | When the lookup fails, a save inserts a second row beside the existing one. |
| SeoActions.SaveSeoSettingsSpec | app/admin/seo/actions.ts:7-29 | A failed upsert rethrows its message and changes nothing. Otherwise every existing `site_settings` row is kept and one record keyed "seo_settings", holding the data and the time, is appended under the id the database assigns. An "update" entry with the settings is recorded. |
| SeoActions.SaveSeoSettings | app/admin/seo/actions.ts:7-29 | The in-place action has exactly the effect `SaveSeoSettingsSpec` describes. |
| SeoActions.SeoRecordCount | app/admin/seo/actions.ts:17-21 | The number of "seo_settings" records is at most the number of rows, and it is zero exactly when no row is such a record. |
| SeoActions.SaveTwiceAddsTwoRecords | app/admin/seo/actions.ts:17-21 | The upsert names no conflict column and sends no id, so it never overwrites. Two saves keep every earlier row and add two "seo_settings" records, and the last row holds the second data. |
| SeoActions.SaveHidesSettingsRow | app/admin/seo/actions.ts:17-21 | Once the settings row exists, an SEO save leaves two rows in `site_settings`. `getSettings` then returns null, so the settings screen opens with its defaults, and the next `updateSettings` appends a second settings row instead of updating the first. |
| SeoActions.SaveIntoEmptyTableReadAsSettings | app/admin/seo/actions.ts:17-21 | Saved into an empty table, the SEO record is the only row. `getSettings` returns that record as the settings, the settings screen opens with its defaults, and the next `updateSettings` writes the settings under the record's id. |
| SeoActions.EditedPageSeo | app/admin/seo/actions.ts:43-48 | The meta title, description and image are set, each one left out of the form keeps its stored value, `updated_at` is set, and every other column is kept. |
| SeoActions.UpdatePageSeoSpec | app/admin/seo/actions.ts:31-58 | A failed update rethrows its message. Otherwise only that page changes, as `EditedPageSeo` says, and an "update" entry of type "page" is recorded. |
| SeoActions.UpdatePageSeo | app/admin/seo/actions.ts:31-58 | The in-place action has exactly the effect `UpdatePageSeoSpec` describes. |
| SeoActions.UpdatePageSeoKeepsScore | app/admin/seo/actions.ts:43-48 | An SEO edit never changes the page's stored SEO score. |
| SeoCenter.Unclamped | components/admin/seo-center-client.tsx:31-35 | The four deductions leave a score between 40 and 100. |
| SeoCenter.Score | components/admin/seo-center-client.tsx:30-37 | `Math.max(0, …)` never applies: the score is the unclamped one, lies between 40 and 100, is a multiple of 10, and is 100 exactly when all four checks pass. |
| SeoCenter.TitleWeight | components/admin/seo-center-client.tsx:32 | A meta title of at least 30 UTF-16 units is worth exactly 20 points over a short or missing one. |
| SeoCenter.DescriptionWeight | components/admin/seo-center-client.tsx:33 | A meta description of at least 120 units is worth exactly 20 points. |
| SeoCenter.SlugWeight | components/admin/seo-center-client.tsx:34 | A non-empty slug is worth exactly 10 points. |
| SeoCenter.PublishWeight | components/admin/seo-center-client.tsx:35 | Publishing is worth exactly 10 points. |
| SeoCenter.ScoreMonotone | components/admin/seo-center-client.tsx:30-37 | Lengthening the meta fields, adding a slug or publishing never lowers the score. |
| SeoCenter.SumScores | components/admin/seo-center-client.tsx:47 | The sum of the scores lies between 40 and 100 per page. |
| SeoCenter.RoundedMean | components/admin/seo-center-client.tsx:47 | `Math.round(sum / n)` for scores between 40 and 100 lies between 40 and 100 and is the nearest integer, halves rounded up. |
| SeoCenter.AvgScore | components/admin/seo-center-client.tsx:46-47 | No pages give 0. Otherwise the average is the rounded mean of the scores, between 40 and 100. |
| SeoCenter.PublishedCount | components/admin/seo-center-client.tsx:45 | The number of pages whose status is exactly "published". |
| SeoCenter.IssuesCount | components/admin/seo-center-client.tsx:49-51 | The number of pages missing a meta title or description, or scoring below 80. |
| SeoCenter.IssueThreshold | components/admin/seo-center-client.tsx:50 | With both meta fields present, a page has an issue exactly when it scores 70 or less. |
| SeoCenter.IssueOf | components/admin/seo-center-client.tsx:56-67 | The issue names the missing title first, then the missing description, else "SEO optimization needed". The priority is "high" exactly when a meta field is missing, else "medium". |
| SeoCenter.IssuesOf | components/admin/seo-center-client.tsx:56 | One issue per page, in order. |
| SeoCenter.SeoIssues | components/admin/seo-center-client.tsx:53-67 | At most four issues are listed: the first four pages with an issue, in order, or all of them when there are fewer. |
| SeoCenter.SeoIssuesFromIssuePages | components/admin/seo-center-client.tsx:53-55 | The listed issues come from the first four issue pages, which are pages of the list that have an issue, in list order. |
| SeoCenter.HighPriorityIffMissingField | components/admin/seo-center-client.tsx:58-63 | The priority is "high" exactly when the issue is a missing meta field. |
| Slug.SkipSeparators | components/admin/page-form-dialog.tsx:41 | Skipping a leading run of non-slug characters keeps every letter and digit and leaves a slug character, or nothing, in front. |
| Slug.CollapseSeparators | components/admin/page-form-dialog.tsx:41 | `replace(/[^a-z0-9]+/g, "-")`: the result holds only letters, digits and hyphens, never two hyphens in a row, and with its hyphens removed is exactly the input's letters and digits. |
| Slug.RemoveOfHyphenTrim | components/admin/page-form-dialog.tsx:42 | The second replace, which strips one leading and one trailing hyphen, drops only hyphens. |
| Slug.Slugify | components/admin/page-form-dialog.tsx:38-43 | `generateSlug` gives a clean slug: lower-case letters, digits and single hyphens, with no hyphen at either end. Its letters and digits are exactly those of the lower-cased title, in order. |
| Slug.SlugifyFixesCleanSlug | components/admin/page-form-dialog.tsx:38-43 | A clean slug is its own slug. |
| Slug.SlugifyIdempotent | components/admin/page-form-dialog.tsx:38-43 | Generating a slug from a slug changes nothing. |
| Slug.SlugifyWithoutAlnums | components/admin/page-form-dialog.tsx:38-43 | A title without ASCII letters or digits gives the empty slug. |
| PageFormDialog.InitialForm | components/admin/page-form-dialog.tsx:30-36 | A new page starts empty with status "draft". An existing page's fields are copied, with an empty status becoming "draft" and a null meta field becoming "". |
| PageFormDialog.HandleTitleChange | components/admin/page-form-dialog.tsx:45-51 | Typing a title sets it. When creating, the slug follows as `generateSlug(title)`, a clean slug; when editing, the slug is kept. Nothing else changes. |
| PageFormDialog.LatestTitleWins | components/admin/page-form-dialog.tsx:45-51 | Two title changes in a row leave the form as the last one alone would. |
| PageFormDialog.EditingKeepsSlug | components/admin/page-form-dialog.tsx:49 | While editing, no sequence of title changes alters the slug. |
| PageFormDialog.CreatingTracksTitle | components/admin/page-form-dialog.tsx:49 | While creating, after any non-empty sequence of title changes, the title is the last one typed and the slug is its slug. |
| BlogFormDialog.InitialForm | components/admin/blog-form-dialog.tsx:39-51 | A new post starts empty with category "General" and status "draft". An existing post keeps its title, slug, excerpt, content and author, shows its tags joined with ", ", turns a null optional field into "", and an empty category or status becomes the default. |
| BlogFormDialog.TrimAll | components/admin/blog-form-dialog.tsx:62 | Each piece is trimmed, in place. |
| BlogFormDialog.ParseTags | components/admin/blog-form-dialog.tsx:60-63 | Every parsed tag is non-empty, trimmed and free of commas. The tags are the trimmed comma pieces in order, with empty ones dropped: a subsequence of the pieces, as many as the non-empty pieces, so a repeated tag is kept each time. An empty field gives no tags. |
| BlogFormDialog.TrimmedPieces | components/admin/blog-form-dialog.tsx:61-62 | Trimmed pieces are trimmed and still free of the separator. |
| BlogFormDialog.ParseJoinedTags | components/admin/blog-form-dialog.tsx:46-63 | Parsing tags joined with ", " gives them back, when each is non-empty, trimmed and comma-free. |
| BlogFormDialog.Submitted | components/admin/blog-form-dialog.tsx:58-64 | The submitted data are the form's fields with the tags parsed. |
| BlogFormDialog.ReopenSubmitsSamePost | components/admin/blog-form-dialog.tsx:39-64 | Opening a filled-in post with clean tags and saving it unchanged submits that post itself. |
| BlogFormDialog.GenerateSlug | components/admin/blog-form-dialog.tsx:93-99 | The slug becomes the title's clean slug; nothing else changes. |
| BlogFormDialog.GenerateSlugIdempotent | components/admin/blog-form-dialog.tsx:93-99 | Pressing the slug button twice gives what pressing it once gives. |
| CaseStudyFormDialog.InitialForm | components/admin/case-study-form-dialog.tsx:40-53 | A new case study starts empty with status "draft". An existing one keeps its text fields, an empty status becomes "draft", and each optional field is present, holding its stored text or "" when that is null or empty. |
| CaseStudyFormDialog.ReopenSubmitsSameCaseStudy | components/admin/case-study-form-dialog.tsx:40-53 | Reopening a case study shows exactly that case study if and only if its status is non-empty and its optional fields are present. |
| CaseStudyFormDialog.GenerateSlug | components/admin/case-study-form-dialog.tsx:87-93 | The slug becomes the title's clean slug; nothing else changes. |
| ServiceFormDialog.InitialForm | components/admin/service-form-dialog.tsx:35-44 | A new service starts with icon "Wrench" and status "draft". An existing service keeps its title, slug, description and content. A missing or empty icon or status becomes the default, and the SEO fields are always present, holding their stored text or "". |
| ServiceFormDialog.ReopenSubmitsSameService | components/admin/service-form-dialog.tsx:35-44 | Reopening a service shows exactly that service if and only if its status and icon are set and its SEO fields are present. |
| ServiceFormDialog.GenerateSlug | components/admin/service-form-dialog.tsx:78-84 | The slug becomes the title's clean slug; nothing else changes. |
| ServiceFormDialog.SlugTitleKept | components/admin/service-form-dialog.tsx:78-84 | A title that is already a clean slug becomes the slug unchanged. |
| NavJson.HexValue | components/admin/settings-client.tsx:91 | A hexadecimal digit denotes a value below 16. |
| NavJson.HexRoundTrip | components/admin/settings-client.tsx:91 | Reading back a written hexadecimal digit gives its value. |
| NavJson.EscapeChar | components/admin/settings-client.tsx:91 | `JSON.stringify` writes every character of a string as at least one character. |
| NavJson.Unescape | app/admin/settings/actions.ts:25 | Reading an escape sequence consumes input. |
| NavJson.ParseChars | app/admin/settings/actions.ts:25 | Reading a string's characters up to its closing quote consumes input. |
| NavJson.ParseEscapedChar | app/admin/settings/actions.ts:25 | An escaped character reads back as itself, followed by whatever the rest reads as. |
| NavJson.ParseEscaped | app/admin/settings/actions.ts:25 | An escaped string followed by its closing quote reads back as the string, leaving the rest. |
| NavJson.EncodeItems | components/admin/settings-client.tsx:91 | The comma-separated items are empty exactly when there are no items. |
| NavJson.Encode | components/admin/settings-client.tsx:91 | The encoding is a JSON array: it starts with "[" and has at least two characters. |
| NavJson.Expect | app/admin/settings/actions.ts:25 | Matching a literal token consumes exactly its length. |
| NavJson.ExpectToken | app/admin/settings/actions.ts:25 | A token followed by anything matches, leaving the rest. |
| NavJson.ParseItem | app/admin/settings/actions.ts:25 | Reading an item object consumes input. |
| NavJson.ParseEncodedItem | app/admin/settings/actions.ts:25 | An encoded item reads back as itself, leaving the rest. |
| NavJson.ParseItemsLast | app/admin/settings/actions.ts:25 | After one item, "]" ends the array. |
| NavJson.ParseItemsMore | app/admin/settings/actions.ts:25 | After one item, "," continues the array with the items that follow. |
| NavJson.ParseEncodedItems | app/admin/settings/actions.ts:25 | A non-empty encoded item list followed by "]" reads back as the items. |
| NavJson.DecodeEncode | components/admin/settings-client.tsx:91 | `JSON.parse(JSON.stringify(navigation))` gives back the navigation, for every list of items and every text. |
| SettingsClient.ScreenFor | app/admin/settings/page.tsx:5-7 | A settings row opens the screen as `InitialState` of its columns. No row, or an SEO record in its place, opens the screen with the defaults, because the record has none of the settings columns. |
| SettingsClient.InitialState | components/admin/settings-client.tsx:28-64 | Without stored settings, the screen shows the defaults and six navigation links. With stored settings, the navigation and every switch are kept as stored (a stored false is kept), and each of the fourteen text fields shows its stored text, or its default when that is empty or null. |
| SettingsClient.StoredFalseKeptEmptyTextReplaced | components/admin/settings-client.tsx:28-49 | A stored false switch shows false, while a stored empty site name shows "Copernicus". |
| SettingsClient.AddNavItem | components/admin/settings-client.tsx:66-68 | Adding appends one empty item and keeps the others. |
| SettingsClient.DropIndexSpec | components/admin/settings-client.tsx:71 | `filter((_, i) => i !== index)` drops exactly the item at that index, or nothing when the index is out of range. |
| SettingsClient.RemoveNavItem | components/admin/settings-client.tsx:70-72 | Removing drops the item at the index and shortens the list by one, or leaves the list unchanged when the index is out of range. |
| SettingsClient.RemoveAddedItem | components/admin/settings-client.tsx:66-72 | Removing the item just added gives back the list. |
| SettingsClient.SetField | components/admin/settings-client.tsx:76 | Setting the label keeps the address, and the other way round. |
| SettingsClient.UpdateNavItem | components/admin/settings-client.tsx:74-78 | The copied list has the same length, every other item unchanged, and the one item with the field set. |
| SettingsClient.BoolText | components/admin/settings-client.tsx:93 | `toString()` of a flag is "true" exactly for true. |
| SettingsClient.Saved | components/admin/settings-client.tsx:80-103 | The saved settings hold the screen's navigation and site name. |
| SettingsClient.DecodeSubmitted | components/admin/settings-client.tsx:80-105 | `updateSettings` decodes the submitted form into exactly the screen's settings. |
| SettingsClient.SubmittedNavigation | components/admin/settings-client.tsx:91 | The submitted navigation decodes to the screen's navigation. |
| SettingsClient.AppendGeneral | components/admin/settings-client.tsx:83-90 | The first eight appends store the brand and contact texts under their names. |
| SettingsClient.AppendContent | components/admin/settings-client.tsx:91-95 | The next five appends store the encoded navigation, the footer, two flags as text and the banner text. |
| SettingsClient.AppendSeo | components/admin/settings-client.tsx:96-103 | The last eight appends store the SEO texts and the notification flags as text. |
| SettingsClient.HandleSave | components/admin/settings-client.tsx:80-105 | The built form is the screen's submission, and `updateSettings` decodes it into exactly the screen's settings. |
| SettingsClient.ReloadShowsSavedState | components/admin/settings-client.tsx:28-105 | Saving and reloading shows the same screen, switches and navigation included, when no text field was left empty. |
| LeadsClient.FilteredLeads | components/admin/leads-client.tsx:39-46 | The listed leads are, in list order, exactly those whose name or e-mail contains the query (ignoring case) and whose service and status match, "all" matching any. |
| LeadsClient.NoFilterListsAll | components/admin/leads-client.tsx:31-46 | With the initial filters (empty search, "all", "all") every lead is listed, in order. |
| LeadsClient.SearchIgnoresCase | components/admin/leads-client.tsx:41-42 | Two queries that lower-case alike list the same leads. |
| LeadsClient.Cells | components/admin/leads-client.tsx:106-115 | Each lead gives eight cells, one per header. A missing phone or company gives "", and a null service prints "null". |
| LeadsClient.Quote | components/admin/leads-client.tsx:117 | A cell is written between two quotes, with nothing escaped. |
| LeadsClient.QuoteAll | components/admin/leads-client.tsx:117 | Every cell of a row is quoted, in order. |
| LeadsClient.Rows | components/admin/leads-client.tsx:106-117 | One row per listed lead, in order. |
| LeadsClient.RowChars | components/admin/leads-client.tsx:117 | A row holds no character, other than quotes and commas, that none of its cells holds. |
| LeadsClient.CsvLines | components/admin/leads-client.tsx:104-117 | When no cell holds a line break, the export has exactly one line per listed lead after the header line, in order. |
| LeadsClient.HeadersPlain | components/admin/leads-client.tsx:105 | No header holds a line break, a comma or a quote. |
| LeadsClient.RowCells | components/admin/leads-client.tsx:117 | When no cell holds a comma, splitting a row at commas gives back its quoted cells. |
| LeadsClient.ReadQuoted | components/admin/leads-client.tsx:117 | A quote-free cell reads back from its quoted form (RFC 4180, section 2, rule 5). |
| LeadsClient.QuotedCellReadsBackIff | components/admin/leads-client.tsx:117 | A quoted cell reads back as itself if and only if it holds no quote. |
| LeadsClient.EmbeddedQuoteBreaksCell | components/admin/leads-client.tsx:117 | A lead named `a"b` is exported as a field that does not read back as `a"b`. |
| LeadsClient.ReadDoubled | components/admin/leads-client.tsx:117 | With inner quotes doubled (RFC 4180, section 2, rule 7), every cell reads back. |
| LeadsClient.EscapedCellReadsBack | components/admin/leads-client.tsx:117 | The corrected quoting reads back as the cell, for every cell. |
| LeadsClient.EscapingKeepsQuoteFreeCells | components/admin/leads-client.tsx:117 | The corrected quoting writes quote-free cells exactly as the current code does. |
| LeadsClient.StatusColor | components/admin/leads-client.tsx:126-137 | "new" gets the default badge and "qualified" the outline one; every other status, "contacted" included, gets the secondary one. |
| LeadsClient.Bucket | components/admin/leads-client.tsx:139-151 | Under an hour the age is whole minutes (floored). Under a day it is 1 to 23 whole hours, under a week 1 to 6 whole days, and from a week on the date is shown. |
| LeadsClient.FormatDate | components/admin/leads-client.tsx:139-151 | Minutes print as "n min ago", hours and days as "n hour(s) ago" and "n day(s) ago", and a week or more as the locale date. |
| LeadsClient.SingularOnlyForOne | components/admin/leads-client.tsx:148-149 | The unit is plural exactly when the count is not 1. |
| LeadsClient.FutureDateCountsNegativeMinutes | components/admin/leads-client.tsx:143-147 | A date in the future is shown as a negative number of minutes. |
| LeadsClient.WhitespaceNoteNeverSubmitted | components/admin/leads-client.tsx:65 | A note is submitted exactly when a lead is open and some character of the note is not whitespace. |
| MediaPage.FolderOf | app/admin/media/page.tsx:20-24 | An item is counted under its folder, or under "uncategorized" when the folder is null or empty. |
| MediaPage.FolderCount | app/admin/media/page.tsx:20-24 | A folder's count is at most the number of items. |
| MediaPage.SumRemove | app/admin/media/page.tsx:20-24 | The total of the counts does not depend on the order the folders are summed in. |
| MediaPage.Increment | app/admin/media/page.tsx:22 | Incrementing one folder's count, from 0 when it is new, raises the total by exactly one. |
| MediaPage.TallyCounts | app/admin/media/page.tsx:18-26 | The reduce has one key per folder an item is counted under, each with that folder's count, which is at least 1. |
| MediaPage.TallySum | app/admin/media/page.tsx:18-26 | The counts of the reduce add up to the number of items. |
| MediaPage.FolderStats | app/admin/media/page.tsx:18-26 | Null items give {}. Otherwise the in-place reduce gives exactly the tally: every folder with its count, no other key, counts adding up to the number of items. |
| MediaPage.CountsPartition | app/admin/media/page.tsx:20-24 | Each item counts toward one folder only, so two folders' counts add up to at most the number of items. |
| RedirectsPage.RedirectStats | app/admin/redirects/page.tsx:18-20 | Null rows give zeros. Otherwise the total is the number of rows and the two figures count the "301" and "302" rows, adding up to at most the total. |
| RedirectsPage.TypesDisjoint | app/admin/redirects/page.tsx:19-20 | No row is both "301" and "302". |
| RedirectsPage.StatsCoverAllIff | app/admin/redirects/page.tsx:18-20 | The two figures add up to the total exactly when every redirect is a "301" or a "302"; "307" and "308" rows are in neither. |
| Insights.FilteredPosts | app/insights/insights-client.tsx:135 | "all" keeps every post in order. Any other category keeps as many posts as that category has. |
| Insights.FilteredPostsSelect | app/insights/insights-client.tsx:135 | A category keeps exactly its posts, in page order. |
| Insights.Render | app/insights/insights-client.tsx:172-268 | The featured card is always the first post, whatever the filter. The grid is every filtered post but the first. |
| Insights.IntendedRender | app/insights/insights-client.tsx:172-268 | The corrected page features the first filtered post and lists the rest, so the two together are exactly the filtered posts. |
| Insights.IntendedShowsEveryMatch | app/insights/insights-client.tsx:135-268 | With the corrected page, every post of the selected category is shown. |
| Insights.FilterDistinct | app/insights/insights-client.tsx:135 | Filtering a list without repeats gives a list without repeats. |
| Insights.FirstMatchShownNowhere | app/insights/insights-client.tsx:172-268 | For a category other than the first post's, its first post is neither featured nor in the grid: it is shown nowhere. |
| Insights.BrandStrategyPosts | app/insights/insights-client.tsx:21-135 | The brand-strategy filter keeps the 1st, 4th and 8th posts. |
| Insights.DesignPosts | app/insights/insights-client.tsx:21-135 | The design filter keeps the 3rd and 5th posts. |
| Insights.MarketingPosts | app/insights/insights-client.tsx:21-135 | The marketing filter keeps the 2nd and 7th posts. |
| Insights.CulturePosts | app/insights/insights-client.tsx:21-135 | The culture filter keeps the 6th and 9th posts. |
| Insights.DesignHidesFirstDesignPost | app/insights/insights-client.tsx:172-268 | Choosing "design" features a brand-strategy post and lists only "design-trends-2024": "visual-identity-systems" is hidden. |
| Insights.CategoryCountsMatch | app/insights/insights-client.tsx:13-19 | The count printed on each filter button (9, 3, 2, 2, 2) is the number of posts it selects. |
| UsersClient.FilteredUsers | components/admin/users-client.tsx:44-50 | The listed users are, in order, exactly those whose name (when not null) or e-mail contains the query, ignoring case, and whose role matches, "all" matching any. |
| UsersClient.NoFilterListsAll | components/admin/users-client.tsx:44-50 | An empty search with "all" lists every user, in order. |
| UsersClient.SearchIgnoresCase | components/admin/users-client.tsx:46-47 | Two queries that lower-case alike list the same users. |
| UsersClient.CountRoles | components/admin/users-client.tsx:59-64 | Each count is the number of users with exactly that role. The counts add up to at most the number of users. |
| UsersClient.CountsCoverKnown | components/admin/users-client.tsx:59-64 | The four counts together are the number of users with one of the four roles. |
| UsersClient.CountsAddUpIff | components/admin/users-client.tsx:59-64 | The counts account for every user exactly when every user has one of the four roles. |
| UsersClient.Heads | components/admin/users-client.tsx:265-266 | The text holds the first character of each non-empty word, in word order, one per word; an empty word gives nothing. |
| UsersClient.Initials | components/admin/users-client.tsx:263-267 | The avatar is the upper-cased first character of each non-empty space-separated word of the name, in order, or of the e-mail when the name is null or empty; so there is at most one letter per word. |
| UsersClient.TwoWordInitials | components/admin/users-client.tsx:263-267 | A two-word name gives the upper-cased first letter of each word. |
| UsersClient.EmailInitial | components/admin/users-client.tsx:263-267 | Without a name, an e-mail without spaces gives its first character, upper-cased. |
| UsersClient.DisplayName | components/admin/users-client.tsx:269 | The shown name is the full name, or, when it is null or empty, the e-mail's text before its first "@". |
| UsersClient.DisplayNameIsLocalPart | components/admin/users-client.tsx:269 | Without a name, `local@domain` shows `local`. |
| UsersClient.RoleLabel | components/admin/users-client.tsx:275 | The badge keeps the role's length, and a role without "_" is shown as it is. |
| UsersClient.RoleLabelFirstUnderscore | components/admin/users-client.tsx:275 | Only the first underscore becomes a space. |
| UsersClient.SuperAdminLabel | components/admin/users-client.tsx:275 | "super_admin" is shown as "super admin". |
| UsersClient.OtherRoleLabels | components/admin/users-client.tsx:275 | "admin", "editor" and "viewer" are shown unchanged. |
| UsersClient.MatrixIsHierarchy | components/admin/users-client.tsx:366-375 | The overview is a hierarchy. Every row has four marks, Super Admin holds every permission, and each role holds every permission of the roles after it. |
| UsersClient.MatrixRestrictions | components/admin/users-client.tsx:366-375 | Only Super Admin manages settings. Viewer holds exactly "View Dashboard" and "View Analytics". |
| MediaLibrary.TypePrefix | components/admin/media-library-client.tsx:71 | `replace("s", "")` never lengthens the filter and leaves a filter without "s" unchanged. |
| MediaLibrary.RemoveFirstS | components/admin/media-library-client.tsx:71 | Only the first "s" is removed. |
| MediaLibrary.TypeOptions | components/admin/media-library-client.tsx:201-204 | The three options select the MIME families "image", "video" and "application". |
| MediaLibrary.FilteredMedia | components/admin/media-library-client.tsx:69-74 | The listed items are, in order, exactly those whose name contains the query (ignoring case), whose type starts with the family ("all" matches any), and whose folder is the selected one (none selected matches any). |
| MediaLibrary.NoFilterListsAll | components/admin/media-library-client.tsx:61-74 | With the initial filters every item is listed, in order. |
| MediaLibrary.SearchIgnoresCase | components/admin/media-library-client.tsx:70 | Two queries that lower-case alike list the same items. |
| MediaLibrary.CountSnoc | components/admin/media-library-client.tsx:69-74 | Counting over a list with one more item adds one exactly when that item passes. |
| MediaLibrary.FolderCardMatchesList | components/admin/media-library-client.tsx:229-233 | When every item has a folder, clicking a folder card lists exactly as many items as the card's count. |
| MediaLibrary.NullFolderCountedButNotListed | components/admin/media-library-client.tsx:72 | An item with a null folder is counted on the "uncategorized" card, but clicking that card does not list it. |
| MediaLibrary.FileIcon | components/admin/media-library-client.tsx:159-163 | "image…" types get the image icon, other "video…" types the film icon, and everything else the document icon. |
| MediaLibrary.SizeBucket | components/admin/media-library-client.tsx:153-157 | Sizes below 1024 are shown in B, below 1024·1024 in KB, and from there on in MB. |
| MediaLibrary.SizeBucketMonotone | components/admin/media-library-client.tsx:153-157 | A larger file is never shown in a smaller unit. |
| MediaLibrary.ByteText | components/admin/media-library-client.tsx:154 | Below 1024 the size is printed whole, in bytes. |
| Store.Patch | app/admin/blog/actions.ts:102-105 | An update column given as undefined is left out of the update, so the stored value stays. A given value replaces it. |
| Store.ReadRow | app/admin/pages/actions.ts:74 | A single-row read yields the row exactly when the call succeeds and the id exists. |
| Common.FilterSpec | components/admin/leads-client.tsx:39 | `filter` keeps exactly the elements that pass, in their original order. |
| Common.FilterLength | components/admin/users-client.tsx:60 | The length of a filter is the number of elements that pass. |
| Common.Take | components/admin/seo-center-client.tsx:55 | `slice(0, k)` keeps the first k elements, or all when there are fewer. |
| Text.Lower | components/admin/leads-client.tsx:41 | `toLowerCase`, for ASCII letters: each character is mapped in place, so the length is kept. |
| Text.Upper | components/admin/users-client.tsx:267 | `toUpperCase`, for ASCII letters: each character is mapped in place, so the length is kept. |
| Text.TrimStart | components/admin/blog-form-dialog.tsx:62 | Trimming the start never lengthens a text and leaves it starting with a non-whitespace character, or empty. |
| Text.TrimEnd | components/admin/blog-form-dialog.tsx:62 | Trimming the end keeps a prefix of the text, ending with a non-whitespace character, or empty. |
| Text.Trim | components/admin/blog-form-dialog.tsx:62 | `trim` leaves whitespace at neither end. |
| Text.TrimStartDrops | components/admin/blog-form-dialog.tsx:62 | Trimming the start removes only whitespace: the result is a suffix of the text after a whitespace run. |
| Text.TrimEndDrops | components/admin/blog-form-dialog.tsx:62 | Trimming the end removes only whitespace. |
| Text.TrimEmptyIffWhitespace | components/admin/leads-client.tsx:65 | A text trims to "" exactly when all its characters are whitespace. |
| Text.TrimFixesTrimmed | components/admin/blog-form-dialog.tsx:62 | A trimmed text is its own trim. |
| Text.TrimAfterWhitespace | components/admin/blog-form-dialog.tsx:62 | Trimming whitespace followed by a trimmed text gives that text. |
| Text.Split | components/admin/users-client.tsx:264 | `split` gives at least one piece, and no piece holds the separator. |
| Text.Occurrences | components/admin/blog-form-dialog.tsx:61 | A character occurs at most as often as the text is long. |
| Text.SplitLength | app/admin/blog/actions.ts:57 | A text splits into one more piece than it has separators. |
| Text.SplitWithoutSeparator | components/admin/users-client.tsx:264 | A text without the separator splits into itself alone. |
| Text.SplitAtSeparator | components/admin/users-client.tsx:269 | Splitting at a separator between two parts splits each part. |
| Text.JoinSplit | components/admin/leads-client.tsx:117 | Joining the pieces of a split with the separator gives back the text. |
| Text.SplitJoin | components/admin/blog-form-dialog.tsx:46-61 | Splitting a join of separator-free pieces gives back the pieces. |
| Text.Utf16Length | components/admin/seo-center-client.tsx:32-33 | `length` counts UTF-16 units: at least one and at most two per character. |
| Text.ContainsEmpty | components/admin/users-client.tsx:46-47 | `includes("")` holds for every text. |
| Text.SplitHead | app/admin/users/actions.ts:24 | The first piece of `split(c)` is the text up to the first `c`, which follows it there, or the whole text when it holds no `c`. |
| Text.BeforeFirst | components/admin/users-client.tsx:269 | `split("@")[0]` holds no "@". It is the text up to the first "@", which follows it, or the whole text when there is no "@". |
| Text.AfterLast | app/admin/media/actions.ts:18 | `split(".").pop()` holds no ".". |
| Text.AfterLastOfSuffix | app/admin/media/actions.ts:18 | The last piece of a text ending in a separator and a separator-free part is that part. |
| Text.Remove | components/admin/page-form-dialog.tsx:41-42 | Removing a character leaves none of it and never lengthens the text. |
| Text.NatText | components/admin/media-library-client.tsx:154 | A number prints as one or more decimal digits. |
| LeadsClient.DoubleQuotes | components/admin/leads-client.tsx:117 | The corrected escaping doubles each quote and never shortens a cell. |

Where the design description and the code disagree, the model follows the code. The design says a
`media` row never outlives its storage blob. `deleteMedia` (app/admin/media/actions.ts:62-83)
removes the blob first and the row second, so a failed row delete leaves a row without a blob. The
model keeps this order, and the first row under "## Findings" records it.

## Left out

- JSON: `JSON.parse` of the navigation accepts any JSON text. The model parses only arrays of `{label, url}` objects in the exact shape `JSON.stringify` writes.
- FormData: modelled as one slot per field. A field appended twice keeps its first value, which is what `formData.get` returns.
- SettingsClient: the 21 `append` calls of `handleSave` are grouped into three methods, one per form section. The order of fields inside the form data is not modelled.
- Stored settings: a null navigation value and a null boolean column are not modelled. Text columns are strings or absent, the navigation is a list, and the six switches of `SiteSettings` and the two of `SeoSettings` are booleans.
- Keyed settings: `saveSEOSettings` upserts `{ key, value, updated_at }` into `site_settings`, whose typed row (lib/types/database.ts:153-178) has an `id` and neither a `key` nor a `value` column. The upsert names no conflict column, so it matches on the primary key, and the payload carries no id. The model therefore appends a new record on every successful call. A database that rejects the unknown columns, or that makes `key` unique, makes the call fail, and the model's failed outcome covers both. The record shares the table that `getSettings` reads with `.single()` and `updateSettings` reads with `.maybeSingle()`; `SeoActions.SaveHidesSettingsRow` and `SeoActions.SaveIntoEmptyTableReadAsSettings` state the consequences.
- SettingsActions.UpdateSettingsSpec: when the one row found is an SEO record, the update writes the settings columns onto that row. The model replaces the record by a settings row under the same id, so the record's `key` and `value` columns are not kept.
- Text length: `length` is counted in UTF-16 code units (`Text.Utf16Length`).
- UsersClient.Heads: `n[0]` in the source is the first UTF-16 code unit of a word. For a word that starts with a character outside the Basic Multilingual Plane (an emoji, say), that unit is a lone high surrogate. The model takes the whole first character, because a Dafny `char` cannot hold a lone surrogate. The contract is exact for words that start with a character inside that plane.
- UsersClient.Initials: inherits the same gap from `Heads`. For such a word the source's avatar shows a lone high surrogate, and the model shows the whole character, upper-cased.
- Text.Lower: maps ASCII letters only. Non-ASCII letters such as "É" are left unchanged, although `toLowerCase` maps them. The searches that ignore case inherit this, and so does `Slug.Slugify`: `toLowerCase` maps the Kelvin sign (U+212A) to "k", which survives the `[^a-z0-9]` filter, and "İ" to "i" followed by a combining dot, so the source's slug of such a title keeps letters that the model's slug drops.
- Text.Upper: maps ASCII letters only, one character to one. `toUpperCase` also maps non-ASCII letters and can lengthen a text ("ß" becomes "SS"), so the avatar initials of such names differ.
- Cache revalidation: `revalidatePath` has no effect on the tables and is left out.
- Clock and randomness: `new Date().toISOString()`, database-generated ids and `Math.random()` file-name parts are parameters. Each new id is assumed fresh.
- Concurrency: the backend handles one call at a time. Read-then-write actions (the redirect toggle, `addLeadNote`) lose updates under concurrent writers, as last-writer-wins; this is not modelled.
- Audit tables: the recorder writes `audit_logs` (lib/audit-logger.ts:30), and the audit-log screen reads `audit_log`. The viewer is not part of this model, so the mismatch appears only here.
- Access: `requireRole` (lib/auth/get-user.ts:24) is modelled, but no server action calls it. The actions therefore run for any signed-in user, as in the code.
- Login page: it admits only `super_admin`, `admin` and `editor`. It is not part of this model.
- ServiceActions: the service form sends `seo_title` and `seo_description`, but the typed `services` table has `meta_title`. The model stores the columns the form sends and does not model the database rejecting unknown columns.
- ServiceActions.ServiceCopy: a stored service has only the modelled columns: the eight form columns (title, slug, description, content, icon, status, SEO title and description), `seo_score` and the two timestamps. Other columns the table may hold are not modelled, so the statement that the spread copies them is not made.
- SettingsClient.UpdateNavItem: the source's shallow copy mutates the shared item object in place. The model works on values, so the aliasing between old and new state is not captured.
- Dates: `toLocaleDateString` is a parameter, a function from timestamp to text. The lead list's time-ago text takes the elapsed milliseconds as a parameter. The users table's last-sign-in text comes from the date library's `formatDistanceToNow` and is left out.
- MediaPage.FolderStats: the source counts into a plain `{}` object. A folder named after an `Object.prototype` member ("toString", "constructor", "valueOf", "hasOwnProperty", …) reads the inherited function and stores a text instead of a count. A folder named "__proto__" is dropped by the prototype setter, so its items are not counted. The model uses a map, which gives such folders their plain count, so `MediaPage.TallyCounts`, `MediaPage.TallySum` and this method hold only for folder names that are not such members. The upload and metadata actions accept any folder text.
- MediaLibrary.ByteText: `formatFileSize` uses `toFixed(1)` for KB and MB, which is floating-point text. The model states the chosen unit and the whole-byte text only.
- CSV download: creating the Blob, the object URL and the `<a>` click are DOM effects and are left out, as is the date in the file name.
- CSV line ends: rows end in a bare line feed, not the CRLF of RFC 4180 section 2 rule 1. The model keeps LF, as the code writes.
- Cookies: the proxy's cookie adapter is modelled only for `setAll` copying cookies onto the response. Other cookie options are left out.
- AuditLogger: `toggleRedirect` records the action "toggle", which is not in the declared `AuditAction` union. The model uses plain strings and proves "toggle" is outside the declared set.
- UI handlers: toasts, `router.refresh`, `confirm` dialogs and loading flags only call the server actions, whose effects are modelled.
- Badges: the role badge's variant lookup (`roleColors`) is styling and is left out. The lead status badge variant is modelled (`LeadsClient.StatusColor`).
- Media library dialogs: the upload, edit and delete dialogs only call the modelled actions.
- MediaPage.Sum: ghost, because it picks map keys by let-such-that. The statement that the folder counts add up to the number of items is therefore about a ghost function.
- Insights: a post keeps only its id, title, category and label. Images, dates, read times and excerpts are display data.
- Other screens: the remaining admin list views, the marketing pages, the counter animation and `lib/schema.tsx` are not part of this model.
- SeoCenter: `handleSaveSettings` shows a toast and calls the modelled SEO action. Its own state handling is left out.

## Findings

| source | as written | input that shows it | evidently intended | confidence | as-written member | corrected member |
|---|---|---|---|---|---|---|
| app/admin/media/actions.ts:62-83 | The blob is removed before the `media` row is deleted. | The storage remove succeeds and the row delete fails: the row stays and its blob is gone. | Delete the row first, so no row ever names a missing blob. | not executed | MediaActions.DeleteMediaConsistency | MediaActions.DeleteRowFirstKeepsConsistent |
| app/admin/leads/actions.ts:28-53 | The error of the read of the current notes is ignored. | The read fails on a lead that has notes: the new note replaces all of them. | Return the read error and leave the notes unchanged. | not executed | LeadActions.AddNoteAfterFailedReadLosesNotes | LeadActions.CheckedAddNoteKeepsNotes |
| components/admin/leads-client.tsx:117 | Each cell is wrapped in double quotes without escaping quotes inside it. | A lead named `a"b`: its cell does not read back as one field. | Double every quote inside a cell, as RFC 4180 section 2 rule 7 requires. | not executed | LeadsClient.EmbeddedQuoteBreaksCell | LeadsClient.EscapedCellReadsBack |
| app/insights/insights-client.tsx:172-268 | The featured card always shows the first post, and the grid shows the filtered posts minus their first. | Selecting "design": the first design post is neither featured nor in the grid. | Feature the first filtered post and show the rest in the grid. | not executed | Insights.FirstMatchShownNowhere | Insights.IntendedShowsEveryMatch |

=== FILE: access.dfy ===
/**
 * lib/auth/get-user.ts: the admission decisions of the admin area. `redirect()` ends the request,
 * so each function either admits (returns its value) or redirects to a target path.
 */
module Access {
  import opened Common
  import opened Store

  datatype Decision<T> = Admit(value: T) | SendTo(target: string)

  /** The four roles getUser accepts. */
  const KnownRoles: seq<string> := ["super_admin", "admin", "editor", "viewer"]

  /**
   * `getUser`: with no signed-in user, or no profile row for it (the `.single()` lookup failed or
   * found nothing), or a profile whose role is not one of the four, the request is sent to "/admin";
   * otherwise the user and the profile are returned.
   */
  function GetUser(session: Option<Id>, profiles: map<Id, Profile>, lookup: Outcome): (d: Decision<(Id, Profile)>)
    ensures d.Admit? <==>
      session.Some? && lookup.Ok? && session.value in profiles && profiles[session.value].role in KnownRoles
    ensures d.Admit? ==> d.value == (session.value, profiles[session.value])
    ensures d.SendTo? ==> d.target == "/admin"
  {
    if session.None? then SendTo("/admin")
    else
      var profile := ReadRow(profiles, session.value, lookup);
      if profile.None? || profile.value.role !in KnownRoles then SendTo("/admin")
      else Admit((session.value, profile.value))
  }

  /**
   * `requireRole`: getUser's decision first; an admitted user whose role is not among `allowed` is
   * sent to "/admin/dashboard"; otherwise the profile is returned.
   */
  function RequireRole(session: Option<Id>, profiles: map<Id, Profile>, lookup: Outcome, allowed: seq<string>)
    : (d: Decision<Profile>)
    ensures d.Admit? <==> GetUser(session, profiles, lookup).Admit? && profiles[session.value].role in allowed
    ensures d.Admit? ==> d.value == profiles[session.value]
    ensures GetUser(session, profiles, lookup).SendTo? ==> d == SendTo("/admin")
    ensures GetUser(session, profiles, lookup).Admit? && d.SendTo? ==> d.target == "/admin/dashboard"
  {
    match GetUser(session, profiles, lookup)
    case SendTo(target) => SendTo(target)
    case Admit((_, profile)) => if profile.role !in allowed then SendTo("/admin/dashboard") else Admit(profile)
  }

  /**
   * When requireRole returns a profile, the user is signed in, has a profile with one of the four
   * roles, and that role is allowed.
   */
  lemma RequireRoleAdmits(session: Option<Id>, profiles: map<Id, Profile>, lookup: Outcome, allowed: seq<string>)
    requires RequireRole(session, profiles, lookup, allowed).Admit?
    ensures session.Some? && session.value in profiles
    ensures var role := RequireRole(session, profiles, lookup, allowed).value.role;
      role in KnownRoles && role in allowed
  {
  }

  /** Allowing roles outside the four admits nobody more: requireRole never admits an unknown role. */
  lemma UnknownRoleNeverAdmitted(session: Option<Id>, profiles: map<Id, Profile>, lookup: Outcome, allowed: seq<string>)
    requires session.Some? && session.value in profiles && profiles[session.value].role !in KnownRoles
    ensures RequireRole(session, profiles, lookup, allowed) == SendTo("/admin")
  {
  }

  /**
   * A profile whose role is the display text "Super Admin", rather than the identifier
   * "super_admin", is always turned away.
   */
  lemma SuperAdminTextRejected(user: Id, profiles: map<Id, Profile>, lookup: Outcome)
    requires user in profiles && profiles[user].role == "Super Admin"
    ensures GetUser(Some(user), profiles, lookup) == SendTo("/admin")
  {
  }
}

=== FILE: audit_logger.dfy ===
/**
 * lib/audit-logger.ts: `logAuditAction`, the best-effort recorder every admin action calls after
 * its write succeeded. It appends at most one row to `audit_logs`, does nothing without a signed-in
 * user, and never lets an error reach its caller.
 */
module AuditLogger {
  import opened Common
  import opened Store

  /** The values of the `AuditAction` union type. */
  const AuditActions: set<string> :=
    {"create", "update", "delete", "publish", "unpublish", "login", "logout", "invite_user", "change_role"}

  /** The declared action set has nine values, and "toggle", which toggleRedirect passes, is not one of them. */
  lemma AuditActionsDeclared()
    ensures |AuditActions| == 9
    ensures "toggle" !in AuditActions
  {
    assert "toggle" != "create" && "toggle" != "update" && "toggle" != "delete";
    var s := {"create", "update", "delete", "publish", "unpublish", "login", "logout", "invite_user"};
    assert "change_role" !in s;
    var s7 := {"create", "update", "delete", "publish", "unpublish", "login", "logout"};
    assert "invite_user" !in s7;
    var s6 := {"create", "update", "delete", "publish", "unpublish", "login"};
    assert "logout" !in s6;
    var s5 := {"create", "update", "delete", "publish", "unpublish"};
    assert "login" !in s5;
    var s4 := {"create", "update", "delete", "publish"};
    assert "unpublish" !in s4;
    var s3 := {"create", "update", "delete"};
    assert "publish" !in s3;
    assert |s3| == 3;
  }

  /** `entityId || null`: an absent or empty id is stored as null. */
  function StoredEntityId(entityId: Option<string>): (r: Option<string>)
    ensures r.Some? <==> entityId.Some? && entityId.value != ""
    ensures r.Some? ==> r == entityId
  {
    if entityId.Some? && entityId.value != "" then entityId else None
  }

  /** `changes || {}`: absent changes and the (falsy) empty string are stored as `{}`. */
  function StoredChanges(changes: Option<Changes>): (r: Changes)
    ensures changes.None? || changes.value == Label("") ==> r == NoFields
    ensures changes.Some? && changes.value != Label("") ==> r == changes.value
  {
    if changes.None? || changes.value == Label("") then NoFields else changes.value
  }

  /**
   * The rows `logAuditAction` adds to `audit_logs`. `call` stands for every backend call the logger
   * makes (the user lookup and the insert): an error returned by any of them, or thrown, adds nothing.
   */
  function Recorded(session: Option<Id>, action: string, entityType: string, entityId: Option<string>,
                    changes: Option<Changes>, call: Outcome): (r: seq<AuditEntry>)
    ensures |r| <= 1
    ensures r != [] <==> session.Some? && call.Ok?
    ensures r != [] ==>
      && r[0].userId == session.value
      && r[0].action == action
      && r[0].entityType == entityType
      && r[0].entityId == StoredEntityId(entityId)
      && r[0].changes == StoredChanges(changes)
      && r[0].ipAddress.None? && r[0].userAgent.None?
  {
    if session.None? || call.Fail? then []
    else [AuditEntry(session.value, action, entityType, StoredEntityId(entityId), StoredChanges(changes), None, None)]
  }

  /** The tables after `logAuditAction`: only the audit log may grow, by at most one entry at its end. */
  function Logged(t: Tables, action: string, entityType: string, entityId: Option<string>,
                  changes: Option<Changes>, call: Outcome): (r: Tables)
    ensures r.(audit := t.audit) == t
    ensures |t.audit| <= |r.audit| <= |t.audit| + 1 && r.audit[..|t.audit|] == t.audit
    ensures r.audit == t.audit + Recorded(t.session, action, entityType, entityId, changes, call)
  {
    t.(audit := t.audit + Recorded(t.session, action, entityType, entityId, changes, call))
  }

  /** `logAuditAction`: it has no result, so nothing that goes wrong inside reaches the caller. */
  method LogAuditAction(db: Backend, action: string, entityType: string, entityId: Option<string>,
                        changes: Option<Changes>, call: Outcome)
    modifies db`audit
    ensures db.Tables() == Logged(old(db.Tables()), action, entityType, entityId, changes, call)
  {
    if call.Fail? {
      // caught and written to the console
      return;
    }
    if db.session.None? {
      return;
    }
    var entry := AuditEntry(db.session.value, action, entityType, StoredEntityId(entityId),
                            StoredChanges(changes), None, None);
    db.audit := db.audit + [entry];
  }
}

=== FILE: blog_actions.dfy ===
/**
 * app/admin/blog/actions.ts: delete, create and update rows of the `blog_posts` table, and the
 * read-time formula both writes use. Failures throw before the audit call.
 */
module BlogActions {
  import opened Common
  import opened Store
  import Text
  import AuditLogger

  /**
   * `Math.ceil(content.split(" ").length / 200)`: the number of pieces between single spaces,
   * at 200 a minute, rounded up. There is always at least one piece, so at least one minute.
   */
  function ReadTime(content: string): (minutes: nat)
    ensures minutes >= 1
    ensures var words := Text.Occurrences(content, ' ') + 1; 200 * (minutes - 1) < words <= 200 * minutes
    ensures content == "" ==> minutes == 1
  {
    var words := |Text.Split(content, ' ')|;
    Text.SplitLength(content, ' ');
    (words + 199) / 200
  }

  /** The `content` column: a single text block. */
  function PostBlocks(content: string): (blocks: seq<Block>)
    ensures blocks == [Block("text", content)]
  {
    [Block("text", content)]
  }

  /** The audit label of deleteBlogPost: the title the pre-read found, else "Blog post". */
  function DeleteLabel(found: Option<BlogPost>): (name: string)
    ensures found.None? || found.value.title == "" ==> name == "Blog post"
    ensures found.Some? && found.value.title != "" ==> name == found.value.title
  {
    if found.Some? then Text.Or(found.value.title, "Blog post") else "Blog post"
  }

  /** `deleteBlogPost`. */
  function DeleteBlogPostSpec(t: Tables, id: Id, read: Outcome, delete: Outcome, log: Outcome): (e: Effect)
    ensures delete.Fail? ==> e == Effect(t, Thrown("Failed to delete blog post"))
    ensures delete.Ok? ==>
      && e.response == Success
      && e.after.blogPosts == t.blogPosts - {id}
      && e.after.audit == t.audit + AuditLogger.Recorded(t.session, "delete", "blog", Some(id),
                                                         Some(Label(DeleteLabel(ReadRow(t.blogPosts, id, read)))), log)
    ensures e.after.(blogPosts := t.blogPosts, audit := t.audit) == t
  {
    var post := ReadRow(t.blogPosts, id, read);
    if delete.Fail? then Effect(t, Thrown("Failed to delete blog post"))
    else
      Effect(AuditLogger.Logged(t.(blogPosts := t.blogPosts - {id}), "delete", "blog", Some(id),
                                Some(Label(DeleteLabel(post))), log), Success)
  }

  method DeleteBlogPost(db: Backend, id: Id, read: Outcome, delete: Outcome, log: Outcome) returns (r: Response)
    modifies db
    ensures Effect(db.Tables(), r) == DeleteBlogPostSpec(old(db.Tables()), id, read, delete, log)
  {
    var post := ReadRow(db.blogPosts, id, read);
    if delete.Fail? {
      return Thrown("Failed to delete blog post");
    }
    db.blogPosts := db.blogPosts - {id};
    AuditLogger.LogAuditAction(db, "delete", "blog", Some(id), Some(Label(DeleteLabel(post))), log);
    r := Success;
  }

  /** The row createBlogPost inserts. */
  function NewBlogPost(form: BlogForm, now: Timestamp): (p: BlogPost)
    ensures p.title == form.title && p.slug == form.slug && p.status == form.status
    ensures p.excerpt == form.excerpt && p.author == form.author && p.category == form.category
    ensures p.featuredImage == form.featuredImage
    ensures p.publishedAt.Some? <==> form.status == "published"
    ensures p.content == PostBlocks(form.content) && p.readTime == ReadTime(form.content)
    ensures p.tags == form.tags && p.metaTitle == form.seoTitle && p.metaDescription == form.seoDescription
    ensures p.seoScore == 0 && !p.featured && p.views == 0
  {
    BlogPost(form.title, form.slug, form.excerpt, PostBlocks(form.content), form.author, form.category, form.tags,
             form.featuredImage, form.status, form.seoTitle, form.seoDescription, 0, false, 0, ReadTime(form.content),
             if form.status == "published" then Some(now) else None, now)
  }

  /** `createBlogPost`. */
  function CreateBlogPostSpec(t: Tables, form: BlogForm, newId: Id, now: Timestamp, insert: Outcome, log: Outcome): (e: Effect)
    requires newId !in t.blogPosts
    ensures insert.Fail? ==> e == Effect(t, Thrown("Failed to create blog post"))
    ensures insert.Ok? ==>
      && e.response == Success
      && e.after.blogPosts == t.blogPosts[newId := NewBlogPost(form, now)]
      && e.after.audit == t.audit + AuditLogger.Recorded(t.session, "create", "blog", Some(newId), Some(Label(form.title)), log)
    ensures e.after.(blogPosts := t.blogPosts, audit := t.audit) == t
  {
    if insert.Fail? then Effect(t, Thrown("Failed to create blog post"))
    else
      Effect(AuditLogger.Logged(t.(blogPosts := t.blogPosts[newId := NewBlogPost(form, now)]), "create", "blog",
                                Some(newId), Some(Label(form.title)), log), Success)
  }

  method CreateBlogPost(db: Backend, form: BlogForm, newId: Id, now: Timestamp, insert: Outcome, log: Outcome)
    returns (r: Response)
    requires newId !in db.blogPosts
    modifies db
    ensures Effect(db.Tables(), r) == CreateBlogPostSpec(old(db.Tables()), form, newId, now, insert, log)
  {
    if insert.Fail? {
      return Thrown("Failed to create blog post");
    }
    db.blogPosts := db.blogPosts[newId := NewBlogPost(form, now)];
    AuditLogger.LogAuditAction(db, "create", "blog", Some(newId), Some(Label(form.title)), log);
    r := Success;
  }

  /**
   * The row after updateBlogPost: the form columns, a fresh read time and `updated_at`;
   * `published_at`, `views`, `featured` and `seo_score` are never written.
   */
  function EditedBlogPost(p: BlogPost, form: BlogForm, now: Timestamp): (r: BlogPost)
    ensures r.title == form.title && r.slug == form.slug && r.status == form.status && r.tags == form.tags
    ensures r.excerpt == form.excerpt && r.author == form.author && r.category == form.category
    ensures r.content == PostBlocks(form.content) && r.readTime == ReadTime(form.content)
    ensures r.featuredImage == Patch(form.featuredImage, p.featuredImage)
    ensures r.metaTitle == Patch(form.seoTitle, p.metaTitle) && r.metaDescription == Patch(form.seoDescription, p.metaDescription)
    ensures r.publishedAt == p.publishedAt && r.views == p.views && r.featured == p.featured && r.seoScore == p.seoScore
    ensures r.updatedAt == now
  {
    p.(title := form.title, slug := form.slug, excerpt := form.excerpt, content := PostBlocks(form.content),
       author := form.author, category := form.category, tags := form.tags,
       featuredImage := Patch(form.featuredImage, p.featuredImage), status := form.status,
       metaTitle := Patch(form.seoTitle, p.metaTitle), metaDescription := Patch(form.seoDescription, p.metaDescription),
       readTime := ReadTime(form.content), updatedAt := now)
  }

  /** `updateBlogPost`. */
  function UpdateBlogPostSpec(t: Tables, id: Id, form: BlogForm, now: Timestamp, update: Outcome, log: Outcome): (e: Effect)
    ensures update.Fail? ==> e == Effect(t, Thrown("Failed to update blog post"))
    ensures update.Ok? ==>
      && e.response == Success
      && e.after.blogPosts.Keys == t.blogPosts.Keys
      && (forall k :: k in t.blogPosts && k != id ==> e.after.blogPosts[k] == t.blogPosts[k])
      && (id in t.blogPosts ==> e.after.blogPosts[id] == EditedBlogPost(t.blogPosts[id], form, now))
      && e.after.audit == t.audit + AuditLogger.Recorded(t.session, "update", "blog", Some(id), Some(Label(form.title)), log)
    ensures e.after.(blogPosts := t.blogPosts, audit := t.audit) == t
  {
    if update.Fail? then Effect(t, Thrown("Failed to update blog post"))
    else
      var rows := if id in t.blogPosts then t.blogPosts[id := EditedBlogPost(t.blogPosts[id], form, now)] else t.blogPosts;
      Effect(AuditLogger.Logged(t.(blogPosts := rows), "update", "blog", Some(id), Some(Label(form.title)), log), Success)
  }

  method UpdateBlogPost(db: Backend, id: Id, form: BlogForm, now: Timestamp, update: Outcome, log: Outcome)
    returns (r: Response)
    modifies db
    ensures Effect(db.Tables(), r) == UpdateBlogPostSpec(old(db.Tables()), id, form, now, update, log)
  {
    if update.Fail? {
      return Thrown("Failed to update blog post");
    }
    if id in db.blogPosts {
      db.blogPosts := db.blogPosts[id := EditedBlogPost(db.blogPosts[id], form, now)];
    }
    AuditLogger.LogAuditAction(db, "update", "blog", Some(id), Some(Label(form.title)), log);
    r := Success;
  }

  /** A post created as a draft and published later through the edit form keeps a null `published_at`. */
  lemma PublishedLaterHasNoPublishDate(t: Tables, draft: BlogForm, edit: BlogForm, id: Id,
                                       now1: Timestamp, now2: Timestamp, log1: Outcome, log2: Outcome)
    requires id !in t.blogPosts && draft.status != "published" && edit.status == "published"
    ensures
      var e1 := CreateBlogPostSpec(t, draft, id, now1, Ok, log1);
      var e2 := UpdateBlogPostSpec(e1.after, id, edit, now2, Ok, log2);
      && e2.after.blogPosts[id].status == "published"
      && e2.after.blogPosts[id].publishedAt.None?
  {
    var e1 := CreateBlogPostSpec(t, draft, id, now1, Ok, log1);
    assert e1.after.blogPosts[id].publishedAt.None?;
  }
}

=== FILE: blog_form_dialog.dfy ===
/**
 * components/admin/blog-form-dialog.tsx: the blog dialog's form state and defaults, the slug
 * regenerated when the title field loses focus, and the comma-separated tag field, which is shown
 * joined with ", " and parsed back on submit.
 */
module BlogFormDialog {
  import opened Common
  import opened Store
  import Text
  import Slug

  /** The dialog's form state: every field is text, the tags one comma-separated string. */
  datatype FormState = FormState(
    title: string,
    slug: string,
    excerpt: string,
    content: string,
    author: string,
    category: string,
    tags: string,
    featuredImage: string,
    status: string,
    seoTitle: string,
    seoDescription: string)

  /**
   * The form state the dialog opens with: each empty field of the post replaced by its default
   * (`post?.x || default`), the tags joined with ", "; a new post is a draft in "General".
   */
  function InitialForm(post: Option<BlogForm>): (f: FormState)
    ensures post.None? ==> f == FormState("", "", "", "", "", "General", "", "", "draft", "", "")
    ensures post.Some? ==>
      && f.category == Text.Or(post.value.category, "General")
      && f.status == Text.Or(post.value.status, "draft")
      && f.tags == Text.Join(post.value.tags, ", ")
    ensures post.Some? ==>
      var p := post.value;
      && f.title == p.title && f.slug == p.slug && f.excerpt == p.excerpt && f.content == p.content
      && f.author == p.author && f.featuredImage == Text.OrElse(p.featuredImage, "")
      && f.seoTitle == Text.OrElse(p.seoTitle, "") && f.seoDescription == Text.OrElse(p.seoDescription, "")
  {
    match post
    case None => FormState("", "", "", "", "", "General", "", "", "draft", "", "")
    case Some(p) =>
      FormState(Text.Or(p.title, ""), Text.Or(p.slug, ""), Text.Or(p.excerpt, ""), Text.Or(p.content, ""),
                Text.Or(p.author, ""), Text.Or(p.category, "General"), Text.Or(Text.Join(p.tags, ", "), ""),
                Text.OrElse(p.featuredImage, ""), Text.Or(p.status, "draft"), Text.OrElse(p.seoTitle, ""),
                Text.OrElse(p.seoDescription, ""))
  }

  // ---------------------------------------------------------------- tags

  /** `.map((t) => t.trim())`. */
  function TrimAll(parts: seq<string>): (r: seq<string>)
    ensures |r| == |parts|
    ensures forall i :: 0 <= i < |r| ==> r[i] == Text.Trim(parts[i])
  {
    seq(|parts|, i requires 0 <= i < |parts| => Text.Trim(parts[i]))
  }

  /** `.filter(Boolean)` on strings: the empty string is dropped. */
  predicate NonEmpty(s: string) {
    s != ""
  }

  /**
   * `tags.split(",").map((t) => t.trim()).filter(Boolean)`: the pieces between commas, trimmed,
   * empty ones dropped, in comma order.
   */
  function ParseTags(tags: string): (r: seq<string>)
    ensures forall i :: 0 <= i < |r| ==> CleanTag(r[i])
    ensures IsSubsequence(r, TrimAll(Text.Split(tags, ',')))
    ensures forall t :: t in r <==> t in TrimAll(Text.Split(tags, ',')) && t != ""
    ensures |r| == Count(TrimAll(Text.Split(tags, ',')), NonEmpty)
    ensures tags == "" ==> r == []
  {
    var pieces := TrimAll(Text.Split(tags, ','));
    FilterSpec(pieces, NonEmpty);
    FilterLength(pieces, NonEmpty);
    TrimmedPieces(Text.Split(tags, ','), ',');
    var r := Filter(pieces, NonEmpty);
    forall i | 0 <= i < |r|
      ensures CleanTag(r[i])
    {
      assert r[i] in r;
    }
    r
  }

  /** Trimmed pieces are trimmed and hold no character the pieces did not. */
  lemma TrimmedPieces(parts: seq<string>, c: char)
    requires forall i :: 0 <= i < |parts| ==> c !in parts[i]
    ensures forall t :: t in TrimAll(parts) ==> Text.IsTrimmed(t) && c !in t
  {
    forall i | 0 <= i < |parts|
      ensures c !in Text.Trim(parts[i])
    {
      TrimStartExcludes(parts[i], c);
      TrimEndExcludes(Text.TrimStart(parts[i]), c);
    }
  }

  lemma {:induction false} TrimStartExcludes(s: string, c: char)
    requires c !in s
    ensures c !in Text.TrimStart(s)
  {
    if s != [] && Text.IsWhitespace(s[0]) {
      TrimStartExcludes(s[1..], c);
    }
  }

  lemma {:induction false} TrimEndExcludes(s: string, c: char)
    requires c !in s
    ensures c !in Text.TrimEnd(s)
  {
    if s != [] && Text.IsWhitespace(s[|s| - 1]) {
      TrimEndExcludes(s[..|s| - 1], c);
    }
  }

  /** A tag the parser can give back unchanged: non-empty, trimmed, without a comma. */
  predicate CleanTag(t: string) {
    t != "" && Text.IsTrimmed(t) && ',' !in t
  }

  /** `TrimAll` and `Filter` taken one element at a time. */
  lemma FilterTrimCons(x: string, rest: seq<string>)
    ensures Filter(TrimAll([x] + rest), NonEmpty) ==
      (if Text.Trim(x) != "" then [Text.Trim(x)] else []) + Filter(TrimAll(rest), NonEmpty)
  {
    var all := TrimAll([x] + rest);
    assert all == [Text.Trim(x)] + TrimAll(rest);
    assert all[1..] == TrimAll(rest);
  }

  /**
   * The pieces of `w + join(tags, ", ")` for leading whitespace `w` parse back to `tags`: each piece
   * after the first carries the blank of its ", ", which trimming removes.
   */
  lemma {:induction false} ParseJoinedAfterBlank(w: string, tags: seq<string>)
    requires tags != [] && Text.AllWhitespace(w)
    requires forall t :: t in tags ==> CleanTag(t)
    ensures Filter(TrimAll(Text.Split(w + Text.Join(tags, ", "), ',')), NonEmpty) == tags
    decreases tags
  {
    var head := w + tags[0];
    assert Text.Trim(head) == tags[0] && tags[0] != "" && ',' !in head by {
      assert tags[0] in tags;
      assert ',' !in w;
      Text.TrimAfterWhitespace(w, tags[0]);
    }
    if |tags| == 1 {
      assert Text.Split(w + Text.Join(tags, ", "), ',') == [head] + [] by {
        Text.SplitWithoutSeparator(head, ',');
      }
      FilterTrimCons(head, []);
    } else {
      var tail := " " + Text.Join(tags[1..], ", ");
      assert Text.Split(w + Text.Join(tags, ", "), ',') == [head] + Text.Split(tail, ',') by {
        assert w + Text.Join(tags, ", ") == head + [','] + tail;
        Text.SplitAtSeparator(head, ',', tail);
        Text.SplitWithoutSeparator(head, ',');
      }
      FilterTrimCons(head, Text.Split(tail, ','));
      assert forall t :: t in tags[1..] ==> CleanTag(t) by {
        assert forall t :: t in tags[1..] ==> t in tags;
      }
      ParseJoinedAfterBlank(" ", tags[1..]);
      assert [tags[0]] + tags[1..] == tags;
    }
  }

  /**
   * Round trip: tags shown joined with ", " parse back to the same list, provided each tag is
   * non-empty, trimmed and free of commas.
   */
  lemma ParseJoinedTags(tags: seq<string>)
    requires forall t :: t in tags ==> CleanTag(t)
    ensures ParseTags(Text.Join(tags, ", ")) == tags
  {
    if tags != [] {
      ParseJoinedAfterBlank("", tags);
      assert "" + Text.Join(tags, ", ") == Text.Join(tags, ", ");
    } else {
      assert Text.Split("", ',') == [""];
      assert TrimAll([""]) == [""];
    }
  }

  /** The argument handleSubmit passes to createBlogPost / updateBlogPost: the form, tags parsed. */
  function Submitted(f: FormState): (data: BlogForm)
    ensures data.tags == ParseTags(f.tags)
    ensures data.title == f.title && data.slug == f.slug && data.status == f.status && data.category == f.category
  {
    BlogForm(f.title, f.slug, f.excerpt, f.content, f.author, f.category, ParseTags(f.tags), Some(f.featuredImage),
             f.status, Some(f.seoTitle), Some(f.seoDescription))
  }

  /** A post whose text fields are all filled in. */
  predicate Filled(post: BlogForm) {
    && post.title != "" && post.slug != "" && post.excerpt != "" && post.content != "" && post.author != ""
    && post.category != "" && post.status != ""
    && post.featuredImage.Some? && post.featuredImage.value != ""
    && post.seoTitle.Some? && post.seoTitle.value != ""
    && post.seoDescription.Some? && post.seoDescription.value != ""
  }

  /**
   * Opening a post in the dialog and saving it unchanged submits the post itself, tags included,
   * when its fields are filled in and its tags are clean.
   */
  lemma ReopenSubmitsSamePost(post: BlogForm)
    requires Filled(post)
    requires forall t :: t in post.tags ==> CleanTag(t)
    ensures Submitted(InitialForm(Some(post))) == post
  {
    ParseJoinedTags(post.tags);
  }

  // ---------------------------------------------------------------- slug

  /**
   * `generateSlug`, run when the title field loses focus, for a new post and an existing one
   * alike: the slug becomes the title's slug and nothing else changes.
   */
  function GenerateSlug(f: FormState): (g: FormState)
    ensures g.slug == Slug.Slugify(f.title) && Slug.IsCleanSlug(g.slug)
    ensures g.(slug := f.slug) == f
  {
    f.(slug := Slug.Slugify(f.title))
  }

  /** Leaving the title field twice changes nothing more than leaving it once. */
  lemma GenerateSlugIdempotent(f: FormState)
    ensures GenerateSlug(GenerateSlug(f)) == GenerateSlug(f)
  {
  }
}

=== FILE: case_study_actions.dfy ===
/**
 * app/admin/case-studies/actions.ts: delete, create and update rows of the `case_studies` table.
 * Failures throw before the audit call.
 */
module CaseStudyActions {
  import opened Common
  import opened Store
  import Text
  import AuditLogger

  /** The audit label of deleteCaseStudy: the title the pre-read found, else "Case study". */
  function DeleteLabel(found: Option<CaseStudy>): (name: string)
    ensures found.None? || found.value.title == "" ==> name == "Case study"
    ensures found.Some? && found.value.title != "" ==> name == found.value.title
  {
    if found.Some? then Text.Or(found.value.title, "Case study") else "Case study"
  }

  /** `deleteCaseStudy`. */
  function DeleteCaseStudySpec(t: Tables, id: Id, read: Outcome, delete: Outcome, log: Outcome): (e: Effect)
    ensures delete.Fail? ==> e == Effect(t, Thrown("Failed to delete case study"))
    ensures delete.Ok? ==>
      && e.response == Success
      && e.after.caseStudies == t.caseStudies - {id}
      && e.after.audit == t.audit + AuditLogger.Recorded(t.session, "delete", "case_studies", Some(id),
                                                         Some(Label(DeleteLabel(ReadRow(t.caseStudies, id, read)))), log)
    ensures e.after.(caseStudies := t.caseStudies, audit := t.audit) == t
  {
    var study := ReadRow(t.caseStudies, id, read);
    if delete.Fail? then Effect(t, Thrown("Failed to delete case study"))
    else
      Effect(AuditLogger.Logged(t.(caseStudies := t.caseStudies - {id}), "delete", "case_studies", Some(id),
                                Some(Label(DeleteLabel(study))), log), Success)
  }

  method DeleteCaseStudy(db: Backend, id: Id, read: Outcome, delete: Outcome, log: Outcome) returns (r: Response)
    modifies db
    ensures Effect(db.Tables(), r) == DeleteCaseStudySpec(old(db.Tables()), id, read, delete, log)
  {
    var study := ReadRow(db.caseStudies, id, read);
    if delete.Fail? {
      return Thrown("Failed to delete case study");
    }
    db.caseStudies := db.caseStudies - {id};
    AuditLogger.LogAuditAction(db, "delete", "case_studies", Some(id), Some(Label(DeleteLabel(study))), log);
    r := Success;
  }

  /** The `content` blocks: the challenge, then the solution. */
  function StudyBlocks(form: CaseStudyForm): (blocks: seq<Block>)
    ensures |blocks| == 2
    ensures blocks[0] == Block("challenge", form.challenge) && blocks[1] == Block("solution", form.solution)
  {
    [Block("challenge", form.challenge), Block("solution", form.solution)]
  }

  /** The row createCaseStudy inserts. */
  function NewCaseStudy(form: CaseStudyForm, now: Timestamp): (c: CaseStudy)
    ensures c.title == form.title && c.slug == form.slug && c.status == form.status
    ensures c.industry == form.industry && c.featuredImage == form.featuredImage
    ensures c.publishedAt.Some? <==> form.status == "published"
    ensures c.client == form.clientName && c.metaTitle == form.seoTitle && c.metaDescription == form.seoDescription
    ensures c.content == StudyBlocks(form) && c.results == Results(form.results, form.testimonial)
    ensures c.seoScore == 0 && !c.featured && c.views == 0
  {
    CaseStudy(form.title, form.slug, form.clientName, form.industry, StudyBlocks(form),
              Results(form.results, form.testimonial), form.featuredImage, form.status, form.seoTitle,
              form.seoDescription, 0, false, 0, if form.status == "published" then Some(now) else None, now)
  }

  /** `createCaseStudy`. */
  function CreateCaseStudySpec(t: Tables, form: CaseStudyForm, newId: Id, now: Timestamp, insert: Outcome, log: Outcome): (e: Effect)
    requires newId !in t.caseStudies
    ensures insert.Fail? ==> e == Effect(t, Thrown("Failed to create case study"))
    ensures insert.Ok? ==>
      && e.response == Success
      && e.after.caseStudies == t.caseStudies[newId := NewCaseStudy(form, now)]
      && e.after.audit == t.audit + AuditLogger.Recorded(t.session, "create", "case_studies", Some(newId), Some(Label(form.title)), log)
    ensures e.after.(caseStudies := t.caseStudies, audit := t.audit) == t
  {
    if insert.Fail? then Effect(t, Thrown("Failed to create case study"))
    else
      Effect(AuditLogger.Logged(t.(caseStudies := t.caseStudies[newId := NewCaseStudy(form, now)]), "create",
                                "case_studies", Some(newId), Some(Label(form.title)), log), Success)
  }

  method CreateCaseStudy(db: Backend, form: CaseStudyForm, newId: Id, now: Timestamp, insert: Outcome, log: Outcome)
    returns (r: Response)
    requires newId !in db.caseStudies
    modifies db
    ensures Effect(db.Tables(), r) == CreateCaseStudySpec(old(db.Tables()), form, newId, now, insert, log)
  {
    if insert.Fail? {
      return Thrown("Failed to create case study");
    }
    db.caseStudies := db.caseStudies[newId := NewCaseStudy(form, now)];
    AuditLogger.LogAuditAction(db, "create", "case_studies", Some(newId), Some(Label(form.title)), log);
    r := Success;
  }

  /**
   * The row after updateCaseStudy: the form columns and `updated_at`; `undefined` optional fields
   * are not sent. `published_at`, `views`, `featured` and `seo_score` are never written.
   */
  function EditedCaseStudy(c: CaseStudy, form: CaseStudyForm, now: Timestamp): (r: CaseStudy)
    ensures r.title == form.title && r.slug == form.slug && r.status == form.status
    ensures r.client == form.clientName && r.industry == form.industry
    ensures r.content == StudyBlocks(form) && r.results == Results(form.results, form.testimonial)
    ensures r.featuredImage == Patch(form.featuredImage, c.featuredImage)
    ensures r.metaTitle == Patch(form.seoTitle, c.metaTitle) && r.metaDescription == Patch(form.seoDescription, c.metaDescription)
    ensures r.publishedAt == c.publishedAt && r.views == c.views && r.featured == c.featured && r.seoScore == c.seoScore
    ensures r.updatedAt == now
  {
    c.(title := form.title, slug := form.slug, client := form.clientName, industry := form.industry,
       content := StudyBlocks(form), results := Results(form.results, form.testimonial),
       featuredImage := Patch(form.featuredImage, c.featuredImage), status := form.status,
       metaTitle := Patch(form.seoTitle, c.metaTitle), metaDescription := Patch(form.seoDescription, c.metaDescription),
       updatedAt := now)
  }

  /** `updateCaseStudy`. */
  function UpdateCaseStudySpec(t: Tables, id: Id, form: CaseStudyForm, now: Timestamp, update: Outcome, log: Outcome): (e: Effect)
    ensures update.Fail? ==> e == Effect(t, Thrown("Failed to update case study"))
    ensures update.Ok? ==>
      && e.response == Success
      && e.after.caseStudies.Keys == t.caseStudies.Keys
      && (forall k :: k in t.caseStudies && k != id ==> e.after.caseStudies[k] == t.caseStudies[k])
      && (id in t.caseStudies ==> e.after.caseStudies[id] == EditedCaseStudy(t.caseStudies[id], form, now))
      && e.after.audit == t.audit + AuditLogger.Recorded(t.session, "update", "case_studies", Some(id), Some(Label(form.title)), log)
    ensures e.after.(caseStudies := t.caseStudies, audit := t.audit) == t
  {
    if update.Fail? then Effect(t, Thrown("Failed to update case study"))
    else
      var rows := if id in t.caseStudies then t.caseStudies[id := EditedCaseStudy(t.caseStudies[id], form, now)] else t.caseStudies;
      Effect(AuditLogger.Logged(t.(caseStudies := rows), "update", "case_studies", Some(id), Some(Label(form.title)), log), Success)
  }

  method UpdateCaseStudy(db: Backend, id: Id, form: CaseStudyForm, now: Timestamp, update: Outcome, log: Outcome)
    returns (r: Response)
    modifies db
    ensures Effect(db.Tables(), r) == UpdateCaseStudySpec(old(db.Tables()), id, form, now, update, log)
  {
    if update.Fail? {
      return Thrown("Failed to update case study");
    }
    if id in db.caseStudies {
      db.caseStudies := db.caseStudies[id := EditedCaseStudy(db.caseStudies[id], form, now)];
    }
    AuditLogger.LogAuditAction(db, "update", "case_studies", Some(id), Some(Label(form.title)), log);
    r := Success;
  }

  /**
   * A case study created as a draft and published later through the edit form keeps a null
   * `published_at`: only creation sets it.
   */
  lemma PublishedLaterHasNoPublishDate(t: Tables, draft: CaseStudyForm, edit: CaseStudyForm, id: Id,
                                       now1: Timestamp, now2: Timestamp, log1: Outcome, log2: Outcome)
    requires id !in t.caseStudies && draft.status != "published" && edit.status == "published"
    ensures
      var e1 := CreateCaseStudySpec(t, draft, id, now1, Ok, log1);
      var e2 := UpdateCaseStudySpec(e1.after, id, edit, now2, Ok, log2);
      && e2.after.caseStudies[id].status == "published"
      && e2.after.caseStudies[id].publishedAt.None?
  {
    var e1 := CreateCaseStudySpec(t, draft, id, now1, Ok, log1);
    assert e1.after.caseStudies[id].publishedAt.None?;
  }
}

=== FILE: case_study_form_dialog.dfy ===
/**
 * components/admin/case-study-form-dialog.tsx: the case-study dialog's form state, which is what
 * it submits to createCaseStudy / updateCaseStudy, its defaults, and the slug regenerated when the
 * title field loses focus.
 */
module CaseStudyFormDialog {
  import opened Common
  import opened Store
  import Text
  import Slug

  /**
   * The form state the dialog opens with: each empty field of the case study replaced by its
   * default (`caseStudy?.x || default`); a new case study is an empty draft. Every field of the state
   * is text, so the optional columns are always present.
   */
  function InitialForm(study: Option<CaseStudyForm>): (f: CaseStudyForm)
    ensures study.None? ==>
      f == CaseStudyForm("", "", "", "", "", "", "", Some(""), Some(""), "draft", Some(""), Some(""))
    ensures study.Some? ==> f.status == Text.Or(study.value.status, "draft")
    ensures study.Some? ==>
      var c := study.value;
      && f.title == c.title && f.slug == c.slug && f.clientName == c.clientName && f.industry == c.industry
      && f.challenge == c.challenge && f.solution == c.solution && f.results == c.results
    ensures study.Some? ==>
      var c := study.value;
      && f.testimonial == Some(Text.OrElse(c.testimonial, "")) && f.featuredImage == Some(Text.OrElse(c.featuredImage, ""))
      && f.seoTitle == Some(Text.OrElse(c.seoTitle, "")) && f.seoDescription == Some(Text.OrElse(c.seoDescription, ""))
    ensures f.testimonial.Some? && f.featuredImage.Some? && f.seoTitle.Some? && f.seoDescription.Some?
  {
    match study
    case None => CaseStudyForm("", "", "", "", "", "", "", Some(""), Some(""), "draft", Some(""), Some(""))
    case Some(c) =>
      CaseStudyForm(Text.Or(c.title, ""), Text.Or(c.slug, ""), Text.Or(c.clientName, ""), Text.Or(c.industry, ""),
                    Text.Or(c.challenge, ""), Text.Or(c.solution, ""), Text.Or(c.results, ""),
                    Some(Text.OrElse(c.testimonial, "")), Some(Text.OrElse(c.featuredImage, "")),
                    Text.Or(c.status, "draft"), Some(Text.OrElse(c.seoTitle, "")), Some(Text.OrElse(c.seoDescription, "")))
  }

  /**
   * Opening a case study and saving it unchanged submits the case study itself exactly when its
   * status is set and its optional fields are present.
   */
  lemma ReopenSubmitsSameCaseStudy(c: CaseStudyForm)
    ensures InitialForm(Some(c)) == c <==>
      c.status != "" && c.testimonial.Some? && c.featuredImage.Some? && c.seoTitle.Some? && c.seoDescription.Some?
  {
  }

  /**
   * `generateSlug`, run when the title field loses focus, for a new case study and an existing one
   * alike: the slug becomes the title's slug and nothing else changes.
   */
  function GenerateSlug(f: CaseStudyForm): (g: CaseStudyForm)
    ensures g.slug == Slug.Slugify(f.title) && Slug.IsCleanSlug(g.slug)
    ensures g.(slug := f.slug) == f
  {
    f.(slug := Slug.Slugify(f.title))
  }
}

=== FILE: common.dfy ===
/**
 * Values that may be absent (JavaScript's `null` / `undefined` for a column or a form field) and
 * the `Array.prototype.filter` / `slice` the list views are built from.
 */
module Common {

  datatype Option<+T> = None | Some(value: T) {

    /** The value, or `default` when absent. */
    function GetOr(default: T): T {
      match this
      case Some(v) => v
      case None => default
    }
  }

  // ---------------------------------------------------------------- filter

  /** `s.filter(p)`. */
  function Filter<T>(s: seq<T>, p: T -> bool): (r: seq<T>)
    ensures |r| <= |s|
  {
    if s == [] then [] else (if p(s[0]) then [s[0]] else []) + Filter(s[1..], p)
  }

  /** `a` is obtained from `b` by deleting elements: same order, nothing new. */
  predicate IsSubsequence<T(==)>(a: seq<T>, b: seq<T>)
    decreases |b|
  {
    a == [] || (b != [] && ((a[0] == b[0] && IsSubsequence(a[1..], b[1..])) || IsSubsequence(a, b[1..])))
  }

  /** What `filter` promises: an order-keeping selection of exactly the elements that pass. */
  lemma {:induction false} FilterSpec<T>(s: seq<T>, p: T -> bool)
    ensures IsSubsequence(Filter(s, p), s)
    ensures forall x :: x in Filter(s, p) <==> x in s && p(x)
  {
    if s != [] {
      FilterSpec(s[1..], p);
      var rest := Filter(s[1..], p);
      if p(s[0]) {
        assert Filter(s, p) == [s[0]] + rest;
        assert ([s[0]] + rest)[1..] == rest;
      } else {
        assert Filter(s, p) == rest;
      }
      assert s == [s[0]] + s[1..];
    }
  }

  /** The number of elements of `s` that satisfy `p`. */
  function Count<T>(s: seq<T>, p: T -> bool): (n: nat)
    ensures n <= |s|
  {
    if s == [] then 0 else (if p(s[0]) then 1 else 0) + Count(s[1..], p)
  }

  /** `filter(p).length` is the number of elements satisfying `p`. */
  lemma {:induction false} FilterLength<T>(s: seq<T>, p: T -> bool)
    ensures |Filter(s, p)| == Count(s, p)
  {
    if s != [] {
      FilterLength(s[1..], p);
    }
  }

  /** A filter every element passes keeps the whole list. */
  lemma {:induction false} FilterAllPass<T>(s: seq<T>, p: T -> bool)
    requires forall x :: x in s ==> p(x)
    ensures Filter(s, p) == s
  {
    if s != [] {
      FilterAllPass(s[1..], p);
      assert [s[0]] + s[1..] == s;
    }
  }

  /** Filters whose predicates agree on the list's elements select the same elements. */
  lemma {:induction false} FilterCongruent<T>(s: seq<T>, p: T -> bool, q: T -> bool)
    requires forall x :: x in s ==> p(x) == q(x)
    ensures Filter(s, p) == Filter(s, q)
  {
    if s != [] {
      FilterCongruent(s[1..], p, q);
    }
  }

  /** `s.slice(0, k)`: at most the first `k` elements. */
  function Take<T>(s: seq<T>, k: nat): (r: seq<T>)
    ensures |r| == if |s| < k then |s| else k
    ensures forall i :: 0 <= i < |r| ==> r[i] == s[i]
  {
    if |s| <= k then s else s[..k]
  }
}

=== FILE: insights.dfy ===
/**
 * app/insights/insights-client.tsx: the public insights page. A constant list of posts, a category
 * filter, a featured card, and a grid of the filtered posts without the first.
 */
module Insights {
  import opened Common

  datatype Post = Post(id: string, title: string, category: string, categoryLabel: string)

  /** A filter button: the category it selects, its label, and the count printed beside it. */
  datatype Category = Category(id: string, name: string, count: nat)

  const Categories := [
    Category("all", "All Articles", 9),
    Category("brand-strategy", "Brand Strategy", 3),
    Category("design", "Design", 2),
    Category("marketing", "Marketing", 2),
    Category("culture", "Culture", 2)
  ]

  const Posts := [
    Post("building-authentic-brands", "Building Authentic Brands in a Digital Age", "brand-strategy", "Brand Strategy"),
    Post("effective-brand-activations", "The Art of Effective Brand Activations", "marketing", "Marketing"),
    Post("visual-identity-systems", "Creating Cohesive Visual Identity Systems", "design", "Design"),
    Post("brand-storytelling-power", "The Power of Brand Storytelling", "brand-strategy", "Brand Strategy"),
    Post("design-trends-2024", "Brand Design Trends Shaping 2024", "design", "Design"),
    Post("team-culture-success", "How Team Culture Drives Creative Success", "culture", "Culture"),
    Post("marketing-strategy-framework", "Building a Strategic Marketing Framework", "marketing", "Marketing"),
    Post("brand-evolution-guide", "A Guide to Strategic Brand Evolution", "brand-strategy", "Brand Strategy"),
    Post("culture-benefits", "Living Our Values: Culture That Works", "culture", "Culture")
  ]

  /** The posts of one category, as the filter's callback tests them. */
  function InCategory(category: string): Post -> bool {
    (post: Post) => post.category == category
  }

  /**
   * `filteredPosts`: "all" keeps every post in order; any other category keeps as many posts as
   * there are posts of that category (which ones, and in what order, is FilteredPostsSelect).
   */
  function FilteredPosts(posts: seq<Post>, selected: string): (r: seq<Post>)
    ensures selected == "all" ==> r == posts
    ensures selected != "all" ==> |r| == Count(posts, InCategory(selected))
  {
    if selected == "all" then posts
    else
      FilterLength(posts, InCategory(selected));
      Filter(posts, InCategory(selected))
  }

  /**
   * Any category other than "all" keeps exactly the posts of that category, in their original
   * order.
   */
  lemma FilteredPostsSelect(posts: seq<Post>, selected: string)
    requires selected != "all"
    ensures IsSubsequence(FilteredPosts(posts, selected), posts)
    ensures forall p :: p in FilteredPosts(posts, selected) <==> p in posts && p.category == selected
  {
    FilterSpec(posts, InCategory(selected));
  }

  /** What the page shows: the featured card and the grid. */
  datatype View = View(featured: Post, grid: seq<Post>)

  /**
   * The featured card is always the first post, whatever the filter; the grid is
   * `filteredPosts.slice(1)`, every filtered post but the first (none when at most one matches).
   */
  function Render(posts: seq<Post>, selected: string): (v: View)
    requires posts != []
    ensures v.featured == posts[0]
    ensures var f := FilteredPosts(posts, selected);
      (f == [] ==> v.grid == []) && (f != [] ==> v.grid == f[1..] && |v.grid| == |f| - 1)
  {
    var f := FilteredPosts(posts, selected);
    View(posts[0], if f == [] then [] else f[1..])
  }

  /**
   * The page as evidently intended: the featured card is the first post the filter keeps, and the
   * grid holds the rest, so no selected post is left out.
   */
  function IntendedRender(posts: seq<Post>, selected: string): (v: View)
    requires FilteredPosts(posts, selected) != []
    ensures [v.featured] + v.grid == FilteredPosts(posts, selected)
  {
    var f := FilteredPosts(posts, selected);
    View(f[0], f[1..])
  }

  /** With the intended page, every post of the selected category is shown, featured or in the grid. */
  lemma IntendedShowsEveryMatch(posts: seq<Post>, selected: string, p: Post)
    requires selected != "all" && FilteredPosts(posts, selected) != []
    requires p in posts && p.category == selected
    ensures var v := IntendedRender(posts, selected);
      p == v.featured || p in v.grid
  {
    FilteredPostsSelect(posts, selected);
    var f := FilteredPosts(posts, selected);
    assert f == [f[0]] + f[1..];
  }

  /** No post appears twice. */
  predicate Distinct(s: seq<Post>) {
    forall i, j :: 0 <= i < j < |s| ==> s[i] != s[j]
  }

  /** A filter of a list without repeats has no repeats. */
  lemma {:induction false} FilterDistinct(s: seq<Post>, p: Post -> bool)
    requires Distinct(s)
    ensures Distinct(Filter(s, p))
  {
    if s != [] {
      assert Distinct(s[1..]);
      FilterDistinct(s[1..], p);
      FilterSpec(s[1..], p);
      assert s[0] !in s[1..];
    }
  }

  /**
   * For a category other than the featured post's, the first post of that category is neither
   * featured nor in the grid: it is shown nowhere on the page.
   */
  lemma FirstMatchShownNowhere(posts: seq<Post>, selected: string)
    requires posts != [] && Distinct(posts)
    requires selected != "all" && selected != posts[0].category
    requires exists p :: p in posts && p.category == selected
    ensures var f, v := FilteredPosts(posts, selected), Render(posts, selected);
      f != [] && f[0] != v.featured && f[0] !in v.grid
  {
    var f := FilteredPosts(posts, selected);
    FilteredPostsSelect(posts, selected);
    FilterDistinct(posts, InCategory(selected));
    var p :| p in posts && p.category == selected;
    assert p in f;
    assert f[0] in f;
  }

  /** The brand strategy posts, in page order. */
  lemma BrandStrategyPosts()
    ensures Filter(Posts, InCategory("brand-strategy")) == [Posts[0], Posts[3], Posts[7]]
  {
  }

  /** The design posts, in page order. */
  lemma DesignPosts()
    ensures Filter(Posts, InCategory("design")) == [Posts[2], Posts[4]]
  {
  }

  /** The marketing posts, in page order. */
  lemma MarketingPosts()
    ensures Filter(Posts, InCategory("marketing")) == [Posts[1], Posts[6]]
  {
  }

  /** The culture posts, in page order. */
  lemma CulturePosts()
    ensures Filter(Posts, InCategory("culture")) == [Posts[5], Posts[8]]
  {
  }

  /** On the page itself, choosing "design" hides "visual-identity-systems", its first design post. */
  lemma DesignHidesFirstDesignPost()
    ensures var v := Render(Posts, "design");
      v.featured.id == "building-authentic-brands" && |v.grid| == 1 && v.grid[0].id == "design-trends-2024"
  {
    DesignPosts();
  }

  /** The count printed beside each filter button is the number of posts it selects. */
  lemma CategoryCountsMatch()
    ensures Categories[0].count == |FilteredPosts(Posts, Categories[0].id)|
    ensures Categories[1].count == |FilteredPosts(Posts, Categories[1].id)|
    ensures Categories[2].count == |FilteredPosts(Posts, Categories[2].id)|
    ensures Categories[3].count == |FilteredPosts(Posts, Categories[3].id)|
    ensures Categories[4].count == |FilteredPosts(Posts, Categories[4].id)|
  {
    BrandStrategyPosts();
    DesignPosts();
    MarketingPosts();
    CulturePosts();
  }
}

=== FILE: lead_actions.dfy ===
/**
 * app/admin/leads/actions.ts: change a lead's status, append a note to it, delete it. Errors throw
 * with the backend's message, before the audit call.
 */
module LeadActions {
  import opened Common
  import opened Store
  import Text
  import AuditLogger

  /** `updateLeadStatus`: any status string is written; only `status` and `updated_at` change. */
  function UpdateLeadStatusSpec(t: Tables, id: Id, status: string, now: Timestamp, update: Outcome, log: Outcome): (e: Effect)
    ensures update.Fail? ==> e == Effect(t, Thrown(update.message))
    ensures update.Ok? ==>
      && e.response == Success
      && e.after.leads.Keys == t.leads.Keys
      && (forall k :: k in t.leads && k != id ==> e.after.leads[k] == t.leads[k])
      && (id in t.leads ==> e.after.leads[id] == t.leads[id].(status := status, updatedAt := now))
      && e.after.audit == t.audit + AuditLogger.Recorded(t.session, "update", "leads", Some(id),
                                                         Some(Label("Status changed to " + status)), log)
    ensures e.after.(leads := t.leads, audit := t.audit) == t
  {
    if update.Fail? then Effect(t, Thrown(update.message))
    else
      var leads := if id in t.leads then t.leads[id := t.leads[id].(status := status, updatedAt := now)] else t.leads;
      Effect(AuditLogger.Logged(t.(leads := leads), "update", "leads", Some(id), Some(Label("Status changed to " + status)), log), Success)
  }

  method UpdateLeadStatus(db: Backend, id: Id, status: string, now: Timestamp, update: Outcome, log: Outcome)
    returns (r: Response)
    modifies db
    ensures Effect(db.Tables(), r) == UpdateLeadStatusSpec(old(db.Tables()), id, status, now, update, log)
  {
    if update.Fail? {
      return Thrown(update.message);
    }
    if id in db.leads {
      db.leads := db.leads[id := db.leads[id].(status := status, updatedAt := now)];
    }
    AuditLogger.LogAuditAction(db, "update", "leads", Some(id), Some(Label("Status changed to " + status)), log);
    r := Success;
  }

  /**
   * The note list addLeadNote writes: the notes the pre-read returned with the new note at the end,
   * or the new note alone when the pre-read returned no row or a null list.
   */
  function NotesAfter(found: Option<Lead>, note: Note): (notes: seq<Note>)
    ensures |notes| >= 1 && notes[|notes| - 1] == note
    ensures found.Some? && found.value.notes.Some? ==>
      |notes| == |found.value.notes.value| + 1 && notes[..|notes| - 1] == found.value.notes.value
    ensures found.None? || found.value.notes.None? ==> notes == [note]
  {
    if found.Some? && found.value.notes.Some? then found.value.notes.value + [note] else [note]
  }

  /** `addLeadNote` as written: the error of the pre-read is ignored. */
  function AddLeadNoteSpec(t: Tables, id: Id, text: string, noteDate: Timestamp, now: Timestamp, read: Outcome,
                           update: Outcome, log: Outcome): (e: Effect)
    ensures update.Fail? ==> e == Effect(t, Thrown(update.message))
    ensures update.Ok? ==>
      && e.response == Success
      && e.after.leads.Keys == t.leads.Keys
      && (forall k :: k in t.leads && k != id ==> e.after.leads[k] == t.leads[k])
      && (id in t.leads ==>
            e.after.leads[id] == t.leads[id].(notes := Some(NotesAfter(ReadRow(t.leads, id, read), Note(text, noteDate))),
                                              updatedAt := now))
      && e.after.audit == t.audit + AuditLogger.Recorded(t.session, "update", "leads", Some(id), Some(Label("Added note")), log)
    ensures e.after.(leads := t.leads, audit := t.audit) == t
  {
    var lead := ReadRow(t.leads, id, read);
    var notes := NotesAfter(lead, Note(text, noteDate));
    if update.Fail? then Effect(t, Thrown(update.message))
    else
      var leads := if id in t.leads then t.leads[id := t.leads[id].(notes := Some(notes), updatedAt := now)] else t.leads;
      Effect(AuditLogger.Logged(t.(leads := leads), "update", "leads", Some(id), Some(Label("Added note")), log), Success)
  }

  method AddLeadNote(db: Backend, id: Id, text: string, noteDate: Timestamp, now: Timestamp, read: Outcome,
                     update: Outcome, log: Outcome) returns (r: Response)
    modifies db
    ensures Effect(db.Tables(), r) == AddLeadNoteSpec(old(db.Tables()), id, text, noteDate, now, read, update, log)
  {
    var lead := ReadRow(db.leads, id, read);
    var notes := NotesAfter(lead, Note(text, noteDate));
    if update.Fail? {
      return Thrown(update.message);
    }
    if id in db.leads {
      db.leads := db.leads[id := db.leads[id].(notes := Some(notes), updatedAt := now)];
    }
    AuditLogger.LogAuditAction(db, "update", "leads", Some(id), Some(Label("Added note")), log);
    r := Success;
  }

  /** With both calls succeeding, the note is appended: earlier notes keep their order, one more note. */
  lemma AddNoteAppends(t: Tables, id: Id, text: string, noteDate: Timestamp, now: Timestamp, log: Outcome)
    requires id in t.leads
    ensures
      var after := AddLeadNoteSpec(t, id, text, noteDate, now, Ok, Ok, log).after.leads[id].notes;
      var before := t.leads[id].notes.GetOr([]);
      && after.Some?
      && after.value == before + [Note(text, noteDate)]
  {
  }

  /**
   * When the pre-read fails and the update succeeds, the lead's earlier notes are replaced by the
   * new note alone.
   */
  lemma AddNoteAfterFailedReadLosesNotes(t: Tables, id: Id, text: string, noteDate: Timestamp, now: Timestamp,
                                         msg: string, log: Outcome)
    requires id in t.leads && t.leads[id].notes.Some? && t.leads[id].notes.value != []
    ensures
      var after := AddLeadNoteSpec(t, id, text, noteDate, now, Fail(msg), Ok, log).after.leads[id].notes;
      after == Some([Note(text, noteDate)]) && after.value != t.leads[id].notes.value + [Note(text, noteDate)]
  {
    var n := Note(text, noteDate);
    var earlier := t.leads[id].notes.value;
    assert |earlier + [n]| > 1;
  }

  /**
   * addLeadNote with the pre-read checked: a failed read throws and writes nothing, as the missing
   * row of a `.single()` read does.
   */
  function AddLeadNoteCheckedSpec(t: Tables, id: Id, text: string, noteDate: Timestamp, now: Timestamp, read: Outcome,
                                  update: Outcome, log: Outcome): (e: Effect)
    ensures ReadRow(t.leads, id, read).None? ==> e.after == t && e.response.Thrown?
    ensures ReadRow(t.leads, id, read).Some? ==> e == AddLeadNoteSpec(t, id, text, noteDate, now, read, update, log)
  {
    var lead := ReadRow(t.leads, id, read);
    if lead.None? then Effect(t, Thrown(if read.Fail? then read.message else "Lead not found"))
    else AddLeadNoteSpec(t, id, text, noteDate, now, read, update, log)
  }

  /** With the read checked, a note that is written never drops the lead's earlier notes. */
  lemma CheckedAddNoteKeepsNotes(t: Tables, id: Id, text: string, noteDate: Timestamp, now: Timestamp,
                                 read: Outcome, update: Outcome, log: Outcome)
    requires id in t.leads
    ensures
      var e := AddLeadNoteCheckedSpec(t, id, text, noteDate, now, read, update, log);
      e.response == Success ==>
        && e.after.leads[id].notes == Some(t.leads[id].notes.GetOr([]) + [Note(text, noteDate)])
  {
    if read.Ok? {
      AddNoteAppends(t, id, text, noteDate, now, log);
    }
  }

  /** The audit label of deleteLead: the name, else the email, else "Lead". */
  function DeleteLabel(found: Option<Lead>): (name: string)
    ensures found.None? ==> name == "Lead"
    ensures found.Some? ==> name == Text.Or(found.value.name, Text.Or(found.value.email, "Lead"))
    ensures name != ""
  {
    if found.Some? then Text.Or(found.value.name, Text.Or(found.value.email, "Lead")) else "Lead"
  }

  /** `deleteLead`. */
  function DeleteLeadSpec(t: Tables, id: Id, read: Outcome, delete: Outcome, log: Outcome): (e: Effect)
    ensures delete.Fail? ==> e == Effect(t, Thrown(delete.message))
    ensures delete.Ok? ==>
      && e.response == Success
      && e.after.leads == t.leads - {id}
      && e.after.audit == t.audit + AuditLogger.Recorded(t.session, "delete", "leads", Some(id),
                                                         Some(Label(DeleteLabel(ReadRow(t.leads, id, read)))), log)
    ensures e.after.(leads := t.leads, audit := t.audit) == t
  {
    var lead := ReadRow(t.leads, id, read);
    if delete.Fail? then Effect(t, Thrown(delete.message))
    else
      Effect(AuditLogger.Logged(t.(leads := t.leads - {id}), "delete", "leads", Some(id), Some(Label(DeleteLabel(lead))), log), Success)
  }

  method DeleteLead(db: Backend, id: Id, read: Outcome, delete: Outcome, log: Outcome) returns (r: Response)
    modifies db
    ensures Effect(db.Tables(), r) == DeleteLeadSpec(old(db.Tables()), id, read, delete, log)
  {
    var lead := ReadRow(db.leads, id, read);
    if delete.Fail? {
      return Thrown(delete.message);
    }
    db.leads := db.leads - {id};
    AuditLogger.LogAuditAction(db, "delete", "leads", Some(id), Some(Label(DeleteLabel(lead))), log);
    r := Success;
  }
}

=== FILE: leads_client.dfy ===
/**
 * components/admin/leads-client.tsx: the lead list's filter, the CSV export, the status badge
 * colour, the "time ago" label and the guard in front of adding a note. The download itself
 * (Blob, object URL, link click) is not part of this model.
 */
module LeadsClient {
  import opened Common
  import opened Store
  import Text

  /** A lead as the list holds it. */
  datatype Listed = Listed(id: Id, lead: Lead)

  // ---------------------------------------------------------------- filter

  /** The search box matches the name or the e-mail, ignoring case. */
  predicate MatchesSearch(l: Lead, query: string) {
    || Text.Contains(Text.Lower(l.name), Text.Lower(query))
    || Text.Contains(Text.Lower(l.email), Text.Lower(query))
  }

  /** The three tests of the filter; "all" switches the service or status test off. */
  predicate Matches(r: Listed, query: string, service: string, status: string) {
    && MatchesSearch(r.lead, query)
    && (service == "all" || r.lead.service == Some(service))
    && (status == "all" || r.lead.status == status)
  }

  /** `filteredLeads`: the leads passing all three tests, in list order. */
  function FilteredLeads(leads: seq<Listed>, query: string, service: string, status: string): (r: seq<Listed>)
    ensures IsSubsequence(r, leads)
    ensures forall x :: x in r <==> x in leads && Matches(x, query, service, status)
  {
    FilterSpec(leads, x => Matches(x, query, service, status));
    Filter(leads, x => Matches(x, query, service, status))
  }

  /** With an empty search and both selects on "all", every lead is listed, in order. */
  lemma NoFilterListsAll(leads: seq<Listed>)
    ensures FilteredLeads(leads, "", "all", "all") == leads
  {
    forall x | x in leads
      ensures Matches(x, "", "all", "all")
    {
      Text.ContainsEmpty(Text.Lower(x.lead.name));
    }
    FilterAllPass(leads, x => Matches(x, "", "all", "all"));
  }

  /** The search ignores case: two queries that lower-case alike list the same leads. */
  lemma SearchIgnoresCase(leads: seq<Listed>, q1: string, q2: string, service: string, status: string)
    requires Text.Lower(q1) == Text.Lower(q2)
    ensures FilteredLeads(leads, q1, service, status) == FilteredLeads(leads, q2, service, status)
  {
    FilterCongruent(leads, x => Matches(x, q1, service, status), x => Matches(x, q2, service, status));
  }

  // ---------------------------------------------------------------- CSV export

  const Headers: seq<string> := ["Name", "Email", "Phone", "Company", "Service", "Message", "Status", "Date"]

  /** A nullable column in a template literal: null prints as "null". */
  function Shown(o: Option<string>): string {
    if o.Some? then o.value else "null"
  }

  /**
   * The eight cells of a lead's row; a missing phone or company gives "". The date cell is the
   * browser's locale rendering of `created_at`, given as `localeDate`.
   */
  function Cells(l: Lead, localeDate: Timestamp -> string): (cells: seq<string>)
    ensures |cells| == |Headers| == 8
    ensures cells[0] == l.name && cells[1] == l.email && cells[6] == l.status
    ensures cells[2] == (if l.phone.Some? then l.phone.value else "")
    ensures cells[3] == (if l.company.Some? then l.company.value else "")
  {
    [l.name, l.email, Text.OrElse(l.phone, ""), Text.OrElse(l.company, ""), Shown(l.service), Shown(l.message),
     l.status, localeDate(l.createdAt)]
  }

  /** `"${cell}"`: the cell between double quotes, embedded quotes left as they are. */
  function Quote(cell: string): (q: string)
    ensures |q| == |cell| + 2 && q[0] == '"' && q[|q| - 1] == '"' && q[1..|q| - 1] == cell
  {
    "\"" + cell + "\""
  }

  function QuoteAll(cells: seq<string>): (r: seq<string>)
    ensures |r| == |cells|
    ensures forall i :: 0 <= i < |cells| ==> r[i] == Quote(cells[i])
  {
    seq(|cells|, i requires 0 <= i < |cells| => Quote(cells[i]))
  }

  /** `row.map((cell) => `"${cell}"`).join(",")`. */
  function Row(cells: seq<string>): string {
    Text.Join(QuoteAll(cells), ",")
  }

  function Rows(leads: seq<Listed>, localeDate: Timestamp -> string): (rows: seq<string>)
    ensures |rows| == |leads|
    ensures forall i :: 0 <= i < |leads| ==> rows[i] == Row(Cells(leads[i].lead, localeDate))
  {
    seq(|leads|, i requires 0 <= i < |leads| => Row(Cells(leads[i].lead, localeDate)))
  }

  /** `exportToCSV`'s text: the header row, then one row per listed lead, joined by "\n". */
  function Csv(leads: seq<Listed>, localeDate: Timestamp -> string): string {
    Text.Join([Row(Headers)] + Rows(leads, localeDate), "\n")
  }

  /** No cell of the export holds `c`. */
  predicate CellsFree(leads: seq<Listed>, localeDate: Timestamp -> string, c: char) {
    forall i, j :: 0 <= i < |leads| && 0 <= j < 8 ==> c !in Cells(leads[i].lead, localeDate)[j]
  }

  /** A character that is not a quote is in a row only if it is in one of its cells. */
  lemma {:induction false} RowChars(cells: seq<string>, c: char)
    requires c != '"' && c != ','
    requires forall j :: 0 <= j < |cells| ==> c !in cells[j]
    ensures c !in Row(cells)
  {
    if |cells| > 1 {
      RowChars(cells[1..], c);
      assert QuoteAll(cells)[1..] == QuoteAll(cells[1..]);
    }
  }

  /**
   * When no cell holds a line break, splitting the export at "\n" gives back the header row and
   * exactly one row per listed lead, in order.
   */
  lemma CsvLines(leads: seq<Listed>, localeDate: Timestamp -> string)
    requires CellsFree(leads, localeDate, '\n')
    ensures Text.Split(Csv(leads, localeDate), '\n') == [Row(Headers)] + Rows(leads, localeDate)
    ensures |Text.Split(Csv(leads, localeDate), '\n')| == |leads| + 1
  {
    var rows := Rows(leads, localeDate);
    var lines := [Row(Headers)] + rows;
    assert forall i :: 0 <= i < |lines| ==> '\n' !in lines[i] by {
      HeadersPlain();
      RowChars(Headers, '\n');
      RowsFree(leads, localeDate);
      forall i | 0 <= i < |lines|
        ensures '\n' !in lines[i]
      {
        if i > 0 {
          assert lines[i] == rows[i - 1];
        }
      }
    }
    Text.SplitJoin(lines, '\n');
  }

  /** The header cells are plain words: no line break, comma or quote. */
  lemma HeadersPlain()
    ensures forall j :: 0 <= j < |Headers| ==> '\n' !in Headers[j] && ',' !in Headers[j] && '"' !in Headers[j]
  {
    forall j | 0 <= j < |Headers|
      ensures '\n' !in Headers[j] && ',' !in Headers[j] && '"' !in Headers[j]
    {
      var h := Headers[j];
      assert h == "Name" || h == "Email" || h == "Phone" || h == "Company" || h == "Service" || h == "Message"
          || h == "Status" || h == "Date";
    }
  }

  /** No lead row holds a line break when no cell does. */
  lemma RowsFree(leads: seq<Listed>, localeDate: Timestamp -> string)
    requires CellsFree(leads, localeDate, '\n')
    ensures forall i :: 0 <= i < |leads| ==> '\n' !in Rows(leads, localeDate)[i]
  {
    forall i | 0 <= i < |leads|
      ensures '\n' !in Rows(leads, localeDate)[i]
    {
      RowChars(Cells(leads[i].lead, localeDate), '\n');
    }
  }

  /**
   * When no cell holds a comma, splitting a row at "," gives back the quoted cells: eight for
   * every row, each wrapped in double quotes.
   */
  lemma RowCells(cells: seq<string>)
    requires |cells| >= 1
    requires forall j :: 0 <= j < |cells| ==> ',' !in cells[j]
    ensures Text.Split(Row(cells), ',') == QuoteAll(cells)
  {
    Text.SplitJoin(QuoteAll(cells), ',');
  }

  // ---------------------------------------------------------------- RFC 4180 fields

  /**
   * Reads the rest of an enclosed field of section 2 of RFC 4180, after its opening quote: a pair
   * of quotes stands for one quote, and a single quote must close the field at the end of the text.
   */
  function ReadEnclosed(body: string): (r: Option<string>)
    decreases |body|
  {
    if body == [] then None
    else if body[0] == '"' then
      if |body| == 1 then Some("")
      else if body[1] == '"' then
        match ReadEnclosed(body[2..])
        case None => None
        case Some(rest) => Some("\"" + rest)
      else None
    else
      match ReadEnclosed(body[1..])
      case None => None
      case Some(rest) => Some([body[0]] + rest)
  }

  /** A field enclosed in double quotes, read as a spreadsheet reads a CSV field. */
  function ReadField(field: string): Option<string> {
    if field != [] && field[0] == '"' then ReadEnclosed(field[1..]) else None
  }

  /** A successful read is shorter than the text by the closing quote, and more when a pair was read. */
  lemma {:induction false} ReadEnclosedLength(body: string, r: string)
    requires ReadEnclosed(body) == Some(r)
    ensures |r| <= |body| - 1
    ensures '"' in body[..|body| - 1] ==> |r| < |body| - 1
  {
    if body[0] == '"' {
      if |body| > 1 {
        var rest :| ReadEnclosed(body[2..]) == Some(rest) && r == "\"" + rest;
        ReadEnclosedLength(body[2..], rest);
      }
    } else {
      var rest :| ReadEnclosed(body[1..]) == Some(rest) && r == [body[0]] + rest;
      ReadEnclosedLength(body[1..], rest);
      assert body[..|body| - 1] == [body[0]] + body[1..][..|body| - 2];
    }
  }

  /** A cell without quotes reads back from its quoted form. */
  lemma {:induction false} ReadQuoted(cell: string)
    requires '"' !in cell
    ensures ReadEnclosed(cell + "\"") == Some(cell)
  {
    if cell != [] {
      ReadQuoted(cell[1..]);
      assert (cell + "\"")[1..] == cell[1..] + "\"";
      assert [cell[0]] + cell[1..] == cell;
    }
  }

  /**
   * The export's quoting reads back exactly the cells that hold no double quote: a cell such as
   * `a"b` comes back as something else, or not at all.
   */
  lemma QuotedCellReadsBackIff(cell: string)
    ensures ReadField(Quote(cell)) == Some(cell) <==> '"' !in cell
  {
    var q := Quote(cell);
    assert q[1..] == cell + "\"";
    if '"' !in cell {
      ReadQuoted(cell);
    } else if ReadField(q) == Some(cell) {
      assert (cell + "\"")[..|cell|] == cell;
      ReadEnclosedLength(cell + "\"", cell);
    }
  }

  /** A lead named `a"b` does not read back from the exported cell. */
  lemma EmbeddedQuoteBreaksCell()
    ensures ReadField(Quote("a\"b")) != Some("a\"b")
  {
    QuotedCellReadsBackIff("a\"b");
    assert "a\"b"[1] == '"';
  }

  /** Rule 7 of section 2 of RFC 4180: each embedded quote doubled. */
  function DoubleQuotes(cell: string): (r: string)
    ensures |r| >= |cell|
  {
    if cell == [] then [] else (if cell[0] == '"' then "\"\"" else [cell[0]]) + DoubleQuotes(cell[1..])
  }

  /** The cell enclosed in quotes with its own quotes doubled. */
  function QuoteEscaped(cell: string): string {
    "\"" + DoubleQuotes(cell) + "\""
  }

  lemma {:induction false} ReadDoubled(cell: string)
    ensures ReadEnclosed(DoubleQuotes(cell) + "\"") == Some(cell)
  {
    if cell != [] {
      ReadDoubled(cell[1..]);
      var tail := DoubleQuotes(cell[1..]) + "\"";
      if cell[0] == '"' {
        assert DoubleQuotes(cell) + "\"" == "\"\"" + tail;
        assert ("\"\"" + tail)[2..] == tail;
      } else {
        assert DoubleQuotes(cell) + "\"" == [cell[0]] + tail;
        assert ([cell[0]] + tail)[1..] == tail;
      }
      assert [cell[0]] + cell[1..] == cell;
    }
  }

  /** Every cell, quotes included, reads back from its escaped form. */
  lemma EscapedCellReadsBack(cell: string)
    ensures ReadField(QuoteEscaped(cell)) == Some(cell)
  {
    ReadDoubled(cell);
    assert QuoteEscaped(cell)[1..] == DoubleQuotes(cell) + "\"";
  }

  /** Escaping changes nothing for a cell without quotes, the only cells the export gets right. */
  lemma {:induction false} EscapingKeepsQuoteFreeCells(cell: string)
    requires '"' !in cell
    ensures QuoteEscaped(cell) == Quote(cell)
    ensures DoubleQuotes(cell) == cell
  {
    if cell != [] {
      EscapingKeepsQuoteFreeCells(cell[1..]);
      assert [cell[0]] + cell[1..] == cell;
    }
  }

  // ---------------------------------------------------------------- badges and dates

  /** `getStatusColor`. */
  function StatusColor(status: string): (c: string)
    ensures c == "default" <==> status == "new"
    ensures c == "outline" <==> status == "qualified"
    ensures c == "secondary" <==> status != "new" && status != "qualified"
  {
    if status == "new" then "default"
    else if status == "contacted" then "secondary"
    else if status == "qualified" then "outline"
    else "secondary"
  }

  /** How long ago a lead came in, as `formatDate` buckets it. */
  datatype Ago = Minutes(n: int) | Hours(n: int) | Days(n: int) | OnDate

  /**
   * The bucket for `diffMs` milliseconds: whole minutes under an hour, whole hours under a day,
   * whole days under a week, else the date. Each count is rounded down (`Math.floor`, which for a
   * positive divisor is Dafny's `/`).
   */
  function Bucket(diffMs: int): (a: Ago)
    ensures a.Minutes? <==> diffMs < 3_600_000
    ensures a.Minutes? ==> a.n * 60_000 <= diffMs < (a.n + 1) * 60_000
    ensures a.Hours? ==> 1 <= a.n <= 23 && a.n * 3_600_000 <= diffMs < (a.n + 1) * 3_600_000
    ensures a.Days? ==> 1 <= a.n <= 6 && a.n * 86_400_000 <= diffMs < (a.n + 1) * 86_400_000
    ensures a.OnDate? <==> diffMs >= 7 * 86_400_000
  {
    var mins, hours, days := diffMs / 60_000, diffMs / 3_600_000, diffMs / 86_400_000;
    if mins < 60 then Minutes(mins)
    else if hours < 24 then Hours(hours)
    else if days < 7 then Days(days)
    else OnDate
  }

  /** `${n} unit` with an "s" when `n` is above 1. */
  function Counted(n: int, unit: string): string {
    Text.IntText(n) + " " + unit + (if n > 1 then "s" else "") + " ago"
  }

  /** `formatDate`, with the browser's locale rendering of the date given as `localeDate`. */
  function FormatDate(diffMs: int, localeDate: string): (text: string)
    ensures Bucket(diffMs).Minutes? ==> text == Text.IntText(Bucket(diffMs).n) + " min ago"
    ensures Bucket(diffMs).Hours? ==> text == Counted(Bucket(diffMs).n, "hour")
    ensures Bucket(diffMs).Days? ==> text == Counted(Bucket(diffMs).n, "day")
    ensures Bucket(diffMs).OnDate? ==> text == localeDate
  {
    match Bucket(diffMs)
    case Minutes(n) => Text.IntText(n) + " min ago"
    case Hours(n) => Counted(n, "hour")
    case Days(n) => Counted(n, "day")
    case OnDate => localeDate
  }

  /** Exactly one hour or one day is singular; two or more take the plural. */
  lemma SingularOnlyForOne(diffMs: int, localeDate: string)
    requires 3_600_000 <= diffMs < 7 * 86_400_000
    ensures var a := Bucket(diffMs);
      FormatDate(diffMs, localeDate) == Text.IntText(a.n) + (if a.Hours? then " hour" else " day")
                                        + (if a.n == 1 then "" else "s") + " ago"
  {
  }

  /** A `created_at` in the future (a negative difference) still lands in the minutes bucket. */
  lemma FutureDateCountsNegativeMinutes(diffMs: int)
    requires diffMs < 0
    ensures Bucket(diffMs).Minutes? && Bucket(diffMs).n < 0
  {
  }

  // ---------------------------------------------------------------- notes

  /** `handleAddNote`'s guard: a lead is open and the note is not blank after trimming. */
  predicate SubmitsNote(leadOpen: bool, note: string) {
    leadOpen && Text.Trim(note) != ""
  }

  /** A note is submitted exactly when a lead is open and some character of it is not whitespace. */
  lemma WhitespaceNoteNeverSubmitted(leadOpen: bool, note: string)
    ensures SubmitsNote(leadOpen, note) <==> leadOpen && exists i :: 0 <= i < |note| && !Text.IsWhitespace(note[i])
  {
    Text.TrimEmptyIffWhitespace(note);
  }
}

=== FILE: media_actions.dfy ===
/**
 * app/admin/media/actions.ts: the media library keeps each file twice, as an object in the "media"
 * storage bucket and as a row of the `media` table whose `file_path` is that object's key.
 * `uploadMedia` writes the object, then the row, and removes the object again when the row cannot
 * be written; `deleteMedia` removes the object, then the row. Errors are returned as `{ error }`.
 */
module MediaActions {
  import opened Common
  import opened Store
  import Text
  import AuditLogger

  /** Every row's object exists and no two rows share an object: the two stores agree. */
  predicate Consistent(t: Tables) {
    && (forall id :: id in t.media ==> t.media[id].filePath in t.blobs)
    && (forall i, j :: i in t.media && j in t.media && i != j ==> t.media[i].filePath != t.media[j].filePath)
  }

  // ---------------------------------------------------------------- upload

  /** The error the bucket reports for an upload with `upsert: false` to a key that is taken. */
  const KeyTaken := "The resource already exists"

  /**
   * `${folder}/${Date.now()}-${random}.${ext}`, where `ext` is the text after the last "." of the
   * file's name (the whole name when it has none).
   */
  function StorageKey(folder: string, stamp: nat, random: string, name: string): (key: string)
    ensures Text.StartsWith(key, folder + "/")
    ensures Text.AfterLast(key, '.') == Text.AfterLast(name, '.')
    ensures '/' !in name ==> key != name
  {
    var ext := Text.AfterLast(name, '.');
    var prefix := folder + "/" + Text.NatText(stamp) + "-" + random;
    Text.AfterLastOfSuffix(prefix, '.', ext);
    assert prefix + "." + ext == prefix + ['.'] + ext;
    assert (folder + "/" + Text.NatText(stamp) + "-" + random + "." + ext)[..|folder + "/"|] == folder + "/";
    assert (folder + "/" + Text.NatText(stamp) + "-" + random + "." + ext)[|folder|] == '/';
    folder + "/" + Text.NatText(stamp) + "-" + random + "." + ext
  }

  /** `getPublicUrl(key)`: the project's public object address for a key of the "media" bucket. */
  function PublicUrl(projectUrl: string, key: string): (url: string)
    ensures Text.StartsWith(url, projectUrl) && |key| <= |url| && url[|url| - |key|..] == key
  {
    var prefix := projectUrl + "/storage/v1/object/public/media/";
    assert (prefix + key)[..|projectUrl|] == projectUrl;
    prefix + key
  }

  /** The outcome of `upload(key, file, { upsert: false })`: a taken key is an error too. */
  function UploadOutcome(blobs: set<string>, key: string, upload: Outcome): (r: Outcome)
    ensures r.Ok? <==> upload.Ok? && key !in blobs
    ensures upload.Fail? ==> r == upload
  {
    if upload.Fail? then upload else if key in blobs then Fail(KeyTaken) else Ok
  }

  /** The row uploadMedia inserts: the file's name twice, its type twice, the key and its URL. */
  function NewMediaItem(file: File, key: string, folder: string, altText: string, url: string): (m: MediaItem)
    ensures m.filename == file.name && m.originalFilename == file.name
    ensures m.fileType == file.fileType && m.mimeType == file.fileType && m.fileSize == file.size
    ensures m.filePath == key && m.url == url && m.altText == altText && m.folder == Some(folder)
  {
    MediaItem(file.name, file.name, key, file.fileType, file.size, file.fileType, altText, Some(folder), url)
  }

  /** A stored object whose row insert failed: the object is removed again when that call succeeds. */
  function RollBackUpload(t: Tables, key: string, message: string, remove: Outcome): (e: Effect)
    requires key !in t.blobs
    ensures e.response == Returned(message)
    ensures e.after == t.(blobs := if remove.Ok? then t.blobs else t.blobs + {key})
  {
    var uploaded := t.(blobs := t.blobs + {key});
    if remove.Ok? then
      assert uploaded.blobs - {key} == t.blobs;
      Effect(uploaded.(blobs := uploaded.blobs - {key}), Returned(message))
    else
      Effect(uploaded, Returned(message))
  }

  /** A stored object whose row insert succeeded: the new row and a "create" entry. */
  function InsertUploaded(t: Tables, file: File, key: string, folder: string, altText: string, url: string,
                          newId: Id, log: Outcome): (e: Effect)
    ensures e.response == SuccessWithUrl(url)
    ensures e.after.blobs == t.blobs + {key}
    ensures e.after.media == t.media[newId := NewMediaItem(file, key, folder, altText, url)]
    ensures e.after.audit == t.audit + AuditLogger.Recorded(t.session, "create", "media", Some(newId),
                                                            Some(Label(file.name)), log)
    ensures e.after.(media := t.media, blobs := t.blobs, audit := t.audit) == t
  {
    Effect(AuditLogger.Logged(t.(blobs := t.blobs + {key}, media := t.media[newId := NewMediaItem(file, key, folder, altText, url)]),
                              "create", "media", Some(newId), Some(Label(file.name)), log), SuccessWithUrl(url))
  }

  /**
   * `uploadMedia`. The form's `folder` defaults to "uncategorized" and `altText` to "". When the
   * row insert fails the object is removed again; that removal may itself fail, and its outcome is
   * not looked at.
   */
  function UploadMediaSpec(t: Tables, file: Option<File>, folderField: Option<string>, altField: Option<string>,
                           stamp: nat, random: string, projectUrl: string, newId: Id,
                           upload: Outcome, insert: Outcome, remove: Outcome, log: Outcome): (e: Effect)
    requires newId !in t.media
    ensures file.None? ==> e == Effect(t, Returned("No file provided"))
    ensures file.Some? ==>
      var folder := Text.OrElse(folderField, "uncategorized");
      var key := StorageKey(folder, stamp, random, file.value.name);
      var stored := UploadOutcome(t.blobs, key, upload);
      && (stored.Fail? ==> e == Effect(t, Returned(stored.message)))
      && (stored.Ok? && insert.Fail? ==>
            && e.response == Returned(insert.message)
            && e.after.media == t.media && e.after.audit == t.audit
            && e.after.blobs == (if remove.Ok? then t.blobs else t.blobs + {key}))
      && (stored.Ok? && insert.Ok? ==>
            && e.response == SuccessWithUrl(PublicUrl(projectUrl, key))
            && e.after.blobs == t.blobs + {key}
            && e.after.media.Keys == t.media.Keys + {newId}
            && (forall k :: k in t.media ==> e.after.media[k] == t.media[k])
            && e.after.media[newId].filePath == key
            && e.after.media[newId].url == PublicUrl(projectUrl, key)
            && e.after.media[newId].folder == Some(folder)
            && e.after.media[newId].altText == Text.OrElse(altField, "")
            && e.after.media[newId].filename == file.value.name
            && e.after.audit == t.audit + AuditLogger.Recorded(t.session, "create", "media", Some(newId),
                                                               Some(Label(file.value.name)), log))
    ensures e.after.(media := t.media, blobs := t.blobs, audit := t.audit) == t
  {
    var folder := Text.OrElse(folderField, "uncategorized");
    var altText := Text.OrElse(altField, "");
    if file.None? then Effect(t, Returned("No file provided"))
    else
      var key := StorageKey(folder, stamp, random, file.value.name);
      var stored := UploadOutcome(t.blobs, key, upload);
      if stored.Fail? then Effect(t, Returned(stored.message))
      else
        if insert.Fail? then
          RollBackUpload(t, key, insert.message, remove)
        else
          InsertUploaded(t, file.value, key, folder, altText, PublicUrl(projectUrl, key), newId, log)
  }

  method UploadMedia(db: Backend, file: Option<File>, folderField: Option<string>, altField: Option<string>,
                     stamp: nat, random: string, projectUrl: string, newId: Id,
                     upload: Outcome, insert: Outcome, remove: Outcome, log: Outcome) returns (r: Response)
    requires newId !in db.media
    modifies db
    ensures Effect(db.Tables(), r) == UploadMediaSpec(old(db.Tables()), file, folderField, altField, stamp, random,
                                                      projectUrl, newId, upload, insert, remove, log)
  {
    var folder := Text.OrElse(folderField, "uncategorized");
    var altText := Text.OrElse(altField, "");
    if file.None? {
      return Returned("No file provided");
    }
    var key := StorageKey(folder, stamp, random, file.value.name);
    var stored := UploadOutcome(db.blobs, key, upload);
    if stored.Fail? {
      return Returned(stored.message);
    }
    db.blobs := db.blobs + {key};
    var url := PublicUrl(projectUrl, key);
    if insert.Fail? {
      if remove.Ok? {
        db.blobs := db.blobs - {key};
      }
      return Returned(insert.message);
    }
    db.media := db.media[newId := NewMediaItem(file.value, key, folder, altText, url)];
    AuditLogger.LogAuditAction(db, "create", "media", Some(newId), Some(Label(file.value.name)), log);
    r := SuccessWithUrl(url);
  }

  /**
   * Whatever the outcome of each call, an upload keeps the stores consistent: the new row's key
   * was not taken, and a failed compensation leaves only an object no row points to.
   */
  lemma UploadKeepsConsistent(t: Tables, file: Option<File>, folderField: Option<string>, altField: Option<string>,
                              stamp: nat, random: string, projectUrl: string, newId: Id,
                              upload: Outcome, insert: Outcome, remove: Outcome, log: Outcome)
    requires newId !in t.media && Consistent(t)
    ensures Consistent(UploadMediaSpec(t, file, folderField, altField, stamp, random, projectUrl, newId,
                                       upload, insert, remove, log).after)
  {
    var e := UploadMediaSpec(t, file, folderField, altField, stamp, random, projectUrl, newId, upload, insert, remove, log);
    if file.Some? {
      var key := StorageKey(Text.OrElse(folderField, "uncategorized"), stamp, random, file.value.name);
      if UploadOutcome(t.blobs, key, upload).Ok? && insert.Ok? {
        var row := e.after.media[newId];
        assert e.after.media == t.media[newId := row];
        InsertFreshKeepsConsistent(t, newId, row, e.after.blobs);
      }
    }
  }

  /** A new row whose key is a fresh blob, added with that blob, keeps storage and table consistent. */
  lemma InsertFreshKeepsConsistent(t: Tables, newId: Id, row: MediaItem, blobs: set<string>)
    requires Consistent(t) && newId !in t.media
    requires row.filePath !in t.blobs && blobs == t.blobs + {row.filePath}
    ensures Consistent(t.(media := t.media[newId := row], blobs := blobs))
  {
    assert forall k :: k in t.media ==> t.media[k].filePath != row.filePath;
  }


  // ---------------------------------------------------------------- delete

  /** `media?.filename || "File"`: the audit label of deleteMedia and updateMediaMetadata. */
  function FileLabel(found: Option<MediaItem>): (name: string)
    ensures found.None? || found.value.filename == "" ==> name == "File"
    ensures found.Some? && found.value.filename != "" ==> name == found.value.filename
  {
    if found.Some? then Text.Or(found.value.filename, "File") else "File"
  }

  /**
   * `deleteMedia` as written: the object is removed first, then the row. Removing a key that does
   * not exist is not an error.
   */
  function DeleteMediaSpec(t: Tables, id: Id, filePath: string, read: Outcome, remove: Outcome, delete: Outcome,
                           log: Outcome): (e: Effect)
    ensures remove.Fail? ==> e == Effect(t, Returned(remove.message))
    ensures remove.Ok? && delete.Fail? ==> e == Effect(t.(blobs := t.blobs - {filePath}), Returned(delete.message))
    ensures remove.Ok? && delete.Ok? ==>
      && e.response == Success
      && e.after.blobs == t.blobs - {filePath}
      && e.after.media == t.media - {id}
      && e.after.audit == t.audit + AuditLogger.Recorded(t.session, "delete", "media", Some(id),
                                                         Some(Label(FileLabel(ReadRow(t.media, id, read)))), log)
    ensures e.after.(media := t.media, blobs := t.blobs, audit := t.audit) == t
  {
    var found := ReadRow(t.media, id, read);
    if remove.Fail? then Effect(t, Returned(remove.message))
    else
      var removed := t.(blobs := t.blobs - {filePath});
      if delete.Fail? then Effect(removed, Returned(delete.message))
      else
        Effect(AuditLogger.Logged(removed.(media := t.media - {id}), "delete", "media", Some(id),
                                  Some(Label(FileLabel(found))), log), Success)
  }

  method DeleteMedia(db: Backend, id: Id, filePath: string, read: Outcome, remove: Outcome, delete: Outcome,
                     log: Outcome) returns (r: Response)
    modifies db
    ensures Effect(db.Tables(), r) == DeleteMediaSpec(old(db.Tables()), id, filePath, read, remove, delete, log)
  {
    var found := ReadRow(db.media, id, read);
    if remove.Fail? {
      return Returned(remove.message);
    }
    db.blobs := db.blobs - {filePath};
    if delete.Fail? {
      return Returned(delete.message);
    }
    db.media := db.media - {id};
    AuditLogger.LogAuditAction(db, "delete", "media", Some(id), Some(Label(FileLabel(found))), log);
    r := Success;
  }

  /**
   * Deleting a row with its own key: the stores stay consistent unless the object removal succeeds
   * and the row delete then fails, in which case the row survives without its object.
   */
  lemma DeleteMediaConsistency(t: Tables, id: Id, read: Outcome, remove: Outcome, delete: Outcome, log: Outcome)
    requires Consistent(t) && id in t.media
    ensures
      var after := DeleteMediaSpec(t, id, t.media[id].filePath, read, remove, delete, log).after;
      && (remove.Fail? || delete.Ok? ==> Consistent(after))
      && (remove.Ok? && delete.Fail? ==> id in after.media && after.media[id].filePath !in after.blobs && !Consistent(after))
  {
  }

  /**
   * deleteMedia with the row deleted first and the object second: a failure at either step leaves
   * at worst an object that no row points to.
   */
  function DeleteMediaRowFirstSpec(t: Tables, id: Id, filePath: string, read: Outcome, delete: Outcome,
                                   remove: Outcome, log: Outcome): (e: Effect)
    ensures delete.Fail? ==> e == Effect(t, Returned(delete.message))
    ensures delete.Ok? && remove.Fail? ==> e == Effect(t.(media := t.media - {id}), Returned(remove.message))
    ensures delete.Ok? && remove.Ok? ==> e == DeleteMediaSpec(t, id, filePath, read, Ok, Ok, log)
  {
    var found := ReadRow(t.media, id, read);
    if delete.Fail? then Effect(t, Returned(delete.message))
    else
      var deleted := t.(media := t.media - {id});
      if remove.Fail? then Effect(deleted, Returned(remove.message))
      else
        Effect(AuditLogger.Logged(deleted.(blobs := t.blobs - {filePath}), "delete", "media", Some(id),
                                  Some(Label(FileLabel(found))), log), Success)
  }

  /** With the row deleted first, every outcome keeps the stores consistent. */
  lemma DeleteRowFirstKeepsConsistent(t: Tables, id: Id, read: Outcome, delete: Outcome, remove: Outcome, log: Outcome)
    requires Consistent(t) && id in t.media
    ensures Consistent(DeleteMediaRowFirstSpec(t, id, t.media[id].filePath, read, delete, remove, log).after)
  {
    var path := t.media[id].filePath;
    if delete.Ok? && remove.Ok? {
      DeleteMediaConsistency(t, id, read, Ok, Ok, log);
    }
  }

  // ---------------------------------------------------------------- metadata

  /** The row after updateMediaMetadata: only `alt_text` and `folder`; the key keeps its old folder. */
  function EditedMedia(m: MediaItem, altText: string, folder: string): (r: MediaItem)
    ensures r.altText == altText && r.folder == Some(folder)
    ensures r.(altText := m.altText, folder := m.folder) == m
  {
    m.(altText := altText, folder := Some(folder))
  }

  /** `updateMediaMetadata`. */
  function UpdateMediaMetadataSpec(t: Tables, id: Id, altText: string, folder: string, read: Outcome,
                                   update: Outcome, log: Outcome): (e: Effect)
    ensures update.Fail? ==> e == Effect(t, Returned(update.message))
    ensures update.Ok? ==>
      && e.response == Success
      && e.after.media.Keys == t.media.Keys
      && (forall k :: k in t.media && k != id ==> e.after.media[k] == t.media[k])
      && (id in t.media ==> e.after.media[id] == EditedMedia(t.media[id], altText, folder))
      && e.after.audit == t.audit + AuditLogger.Recorded(t.session, "update", "media", Some(id),
                                                         Some(Label(FileLabel(ReadRow(t.media, id, read)))), log)
    ensures e.after.(media := t.media, audit := t.audit) == t
  {
    var found := ReadRow(t.media, id, read);
    if update.Fail? then Effect(t, Returned(update.message))
    else
      var rows := if id in t.media then t.media[id := EditedMedia(t.media[id], altText, folder)] else t.media;
      Effect(AuditLogger.Logged(t.(media := rows), "update", "media", Some(id), Some(Label(FileLabel(found))), log), Success)
  }

  method UpdateMediaMetadata(db: Backend, id: Id, altText: string, folder: string, read: Outcome,
                             update: Outcome, log: Outcome) returns (r: Response)
    modifies db
    ensures Effect(db.Tables(), r) == UpdateMediaMetadataSpec(old(db.Tables()), id, altText, folder, read, update, log)
  {
    var found := ReadRow(db.media, id, read);
    if update.Fail? {
      return Returned(update.message);
    }
    if id in db.media {
      db.media := db.media[id := EditedMedia(db.media[id], altText, folder)];
    }
    AuditLogger.LogAuditAction(db, "update", "media", Some(id), Some(Label(FileLabel(found))), log);
    r := Success;
  }

  /** Moving an item to another folder does not move its object: the stores stay consistent. */
  lemma UpdateMetadataKeepsConsistent(t: Tables, id: Id, altText: string, folder: string, read: Outcome,
                                      update: Outcome, log: Outcome)
    requires Consistent(t)
    ensures Consistent(UpdateMediaMetadataSpec(t, id, altText, folder, read, update, log).after)
  {
  }
}

=== FILE: media_library.dfy ===
/**
 * components/admin/media-library-client.tsx: the media library's filter (search, file type,
 * folder), the icon chosen for a file type, and the unit a file size is shown in.
 */
module MediaLibrary {
  import opened Common
  import opened Store
  import Text
  import MediaPage

  // ---------------------------------------------------------------- filter

  /** `typeFilter.replace("s", "")`: the select's value without its first "s". */
  function TypePrefix(typeFilter: string): (r: string)
    ensures |r| <= |typeFilter|
    ensures 's' !in typeFilter ==> r == typeFilter
  {
    RemoveFirstKeeps(typeFilter);
    Text.ReplaceFirst(typeFilter, 's', "")
  }

  /** Removing the first "s" shortens by at most one; with no "s" nothing changes. */
  lemma {:induction false} RemoveFirstKeeps(s: string)
    ensures |Text.ReplaceFirst(s, 's', "")| <= |s|
    ensures 's' !in s ==> Text.ReplaceFirst(s, 's', "") == s
  {
    if s != [] && s[0] != 's' {
      RemoveFirstKeeps(s[1..]);
      assert [s[0]] + s[1..] == s;
    }
  }

  /** Only the first "s" goes: `a + "s" + b` with `a` free of "s" becomes `a + b`. */
  lemma {:induction false} RemoveFirstS(a: string, b: string)
    requires 's' !in a
    ensures TypePrefix(a + "s" + b) == a + b
  {
    if a != [] {
      assert (a + "s" + b)[1..] == a[1..] + "s" + b;
      RemoveFirstS(a[1..], b);
      assert [a[0]] + (a[1..] + b) == a + b;
    }
  }

  /** The three type options select the MIME families "image", "video" and "application". */
  lemma TypeOptions()
    ensures TypePrefix("images") == "image"
    ensures TypePrefix("videos") == "video"
    ensures TypePrefix("applications") == "application"
  {
    var image, video, application := "image", "video", "application";
    RemoveFirstS(image, "");
    assert image + "s" + "" == "images" && image + "" == image;
    RemoveFirstS(video, "");
    assert video + "s" + "" == "videos" && video + "" == video;
    RemoveFirstS(application, "");
    assert application + "s" + "" == "applications" && application + "" == application;
  }

  /** `filename.toLowerCase().includes(searchQuery.toLowerCase())`. */
  predicate MatchesSearch(item: MediaItem, query: string) {
    Text.Contains(Text.Lower(item.filename), Text.Lower(query))
  }

  /** "all" switches the type test off; otherwise the file type starts with the prefix. */
  predicate MatchesType(item: MediaItem, typeFilter: string) {
    typeFilter == "all" || Text.StartsWith(item.fileType, TypePrefix(typeFilter))
  }

  /** `!selectedFolder || item.folder === selectedFolder`: no folder (or "") switches the test off. */
  predicate MatchesFolder(item: MediaItem, selectedFolder: Option<string>) {
    Text.IsBlank(selectedFolder) || item.folder == selectedFolder
  }

  predicate Matches(item: MediaItem, query: string, typeFilter: string, selectedFolder: Option<string>) {
    MatchesSearch(item, query) && MatchesType(item, typeFilter) && MatchesFolder(item, selectedFolder)
  }

  /** `filteredMedia`: the items passing all three tests, in list order. */
  function FilteredMedia(items: seq<MediaItem>, query: string, typeFilter: string, selectedFolder: Option<string>)
    : (r: seq<MediaItem>)
    ensures IsSubsequence(r, items)
    ensures forall x :: x in r <==> x in items && Matches(x, query, typeFilter, selectedFolder)
    ensures |r| == Count(items, x => Matches(x, query, typeFilter, selectedFolder))
  {
    FilterSpec(items, x => Matches(x, query, typeFilter, selectedFolder));
    FilterLength(items, x => Matches(x, query, typeFilter, selectedFolder));
    Filter(items, x => Matches(x, query, typeFilter, selectedFolder))
  }

  /** With an empty search, type "all" and no folder, every item is listed, in order. */
  lemma NoFilterListsAll(items: seq<MediaItem>)
    ensures FilteredMedia(items, "", "all", None) == items
  {
    forall x | x in items
      ensures Matches(x, "", "all", None)
    {
      Text.ContainsEmpty(Text.Lower(x.filename));
    }
    FilterAllPass(items, x => Matches(x, "", "all", None));
  }

  /** The search ignores case: two queries that lower-case alike list the same items. */
  lemma SearchIgnoresCase(items: seq<MediaItem>, q1: string, q2: string, typeFilter: string, folder: Option<string>)
    requires Text.Lower(q1) == Text.Lower(q2)
    ensures FilteredMedia(items, q1, typeFilter, folder) == FilteredMedia(items, q2, typeFilter, folder)
  {
    FilterCongruent(items, x => Matches(x, q1, typeFilter, folder), x => Matches(x, q2, typeFilter, folder));
  }

  // ---------------------------------------------------------------- folder cards

  /** Counting the elements of `s + [x]` that pass `p`. */
  lemma {:induction false} CountSnoc(s: seq<MediaItem>, x: MediaItem, p: MediaItem -> bool)
    ensures Count(s + [x], p) == Count(s, p) + (if p(x) then 1 else 0)
  {
    if s != [] {
      assert (s + [x])[1..] == s[1..] + [x];
      CountSnoc(s[1..], x, p);
    }
  }

  /** The items a folder card lists when clicked, with nothing else filtered. */
  function InFolder(f: string): MediaItem -> bool {
    x => Matches(x, "", "all", Some(f))
  }

  /**
   * When every item has a folder (uploads always store one), clicking a folder card lists exactly
   * as many items as the card's count.
   */
  lemma {:induction false} FolderCardMatchesList(items: seq<MediaItem>, f: string)
    requires f != ""
    requires forall x :: x in items ==> x.folder.Some? && x.folder.value != ""
    ensures |FilteredMedia(items, "", "all", Some(f))| == MediaPage.FolderCount(items, f)
  {
    if items != [] {
      var init, last := items[..|items| - 1], items[|items| - 1];
      assert items == init + [last];
      assert forall x :: x in init ==> x in items;
      FolderCardMatchesList(init, f);
      CountSnoc(init, last, InFolder(f));
      Text.ContainsEmpty(Text.Lower(last.filename));
    }
  }

  /**
   * An item without a folder is counted on the "uncategorized" card, but clicking that card does
   * not list it: the filter compares the stored folder, which is null.
   */
  lemma NullFolderCountedButNotListed(item: MediaItem)
    requires item.folder.None?
    ensures MediaPage.FolderCount([item], "uncategorized") == 1
    ensures FilteredMedia([item], "", "all", Some("uncategorized")) == []
  {
    assert [item][..0] == [];
  }

  // ---------------------------------------------------------------- icons and sizes

  datatype Icon = ImageIcon | Film | FileText

  /** `getFileIcon`: "image…" types get the image icon, "video…" the film icon, the rest a document. */
  function FileIcon(fileType: string): (i: Icon)
    ensures i == ImageIcon <==> Text.StartsWith(fileType, "image")
    ensures i == Film <==> !Text.StartsWith(fileType, "image") && Text.StartsWith(fileType, "video")
    ensures i == FileText <==> !Text.StartsWith(fileType, "image") && !Text.StartsWith(fileType, "video")
  {
    if Text.StartsWith(fileType, "image") then ImageIcon
    else if Text.StartsWith(fileType, "video") then Film
    else FileText
  }

  datatype SizeUnit = Bytes | Kilobytes | Megabytes

  /** The unit `formatFileSize` picks: B below 1024, KB below 1024 * 1024, MB from there on. */
  function SizeBucket(bytes: int): (u: SizeUnit)
    ensures u == Bytes <==> bytes < 1024
    ensures u == Kilobytes <==> 1024 <= bytes < 1048576
    ensures u == Megabytes <==> bytes >= 1048576
  {
    if bytes < 1024 then Bytes
    else if bytes < 1024 * 1024 then Kilobytes
    else Megabytes
  }

  /** A larger file is never shown in a smaller unit. */
  lemma SizeBucketMonotone(a: int, b: int)
    requires a <= b
    ensures SizeBucket(a) == Megabytes ==> SizeBucket(b) == Megabytes
    ensures SizeBucket(b) == Bytes ==> SizeBucket(a) == Bytes
  {
  }

  /** `bytes + " B"`: below 1024 the size is printed whole, in bytes. */
  function ByteText(bytes: int): (r: string)
    requires SizeBucket(bytes) == Bytes
    ensures 0 <= bytes ==> Text.StartsWith(r, Text.NatText(bytes))
  {
    Text.IntText(bytes) + " B"
  }
}

=== FILE: media_page.dfy ===
/**
 * app/admin/media/page.tsx: the folder statistics handed to the media library, built by a reduce
 * that increments `acc[folder]` in place for each item.
 */
module MediaPage {
  import opened Store
  import opened Common
  import Text

  /** `item.folder || "uncategorized"`. */
  function FolderOf(item: MediaItem): (f: string)
    ensures item.folder.None? || item.folder.value == "" ==> f == "uncategorized"
    ensures item.folder.Some? && item.folder.value != "" ==> f == item.folder.value
  {
    Text.OrElse(item.folder, "uncategorized")
  }

  /** The number of items counted under folder `f`. */
  function FolderCount(items: seq<MediaItem>, f: string): (n: nat)
    ensures n <= |items|
  {
    if items == [] then 0
    else FolderCount(items[..|items| - 1], f) + (if FolderOf(items[|items| - 1]) == f then 1 else 0)
  }

  /** The folders the items are counted under. */
  function Folders(items: seq<MediaItem>): set<string> {
    set x | x in items :: FolderOf(x)
  }

  /** Some key of a non-empty set, the same one each time it is asked for. */
  ghost function Pick(keys: set<string>): (k: string)
    requires keys != {}
    ensures k in keys
  {
    var k :| k in keys; k
  }

  /** The sum of a map's values. */
  ghost function Sum(m: map<string, nat>): nat
    decreases |m|
  {
    if m == map[] then 0
    else
      var k := Pick(m.Keys);
      assert m.Keys == (m - {k}).Keys + {k};
      m[k] + Sum(m - {k})
  }

  /** Any key may be taken out first: the sum does not depend on which key `Pick` chose. */
  lemma {:induction false} SumRemove(m: map<string, nat>, k: string)
    requires k in m
    ensures Sum(m) == m[k] + Sum(m - {k})
    decreases |m|
  {
    var j := Pick(m.Keys);
    if j != k {
      RemoveTwo(m, j, k);
      SumRemove(m - {j}, k);
      SumRemove(m - {k}, j);
    }
  }

  /** Taking two distinct keys out of a map, in either order, shrinks it and gives the same map. */
  lemma RemoveTwo(m: map<string, nat>, j: string, k: string)
    requires j in m && k in m && j != k
    ensures |m - {j}| < |m| && |m - {k}| < |m|
    ensures k in m - {j} && j in m - {k}
    ensures m - {j} - {k} == m - {k} - {j}
  {
    assert m.Keys == (m - {j}).Keys + {j};
    assert m.Keys == (m - {k}).Keys + {k};
  }

  /** Raising one value by one raises the sum by one; a new key with value 1 does the same. */
  lemma Increment(m: map<string, nat>, k: string)
    ensures Sum(m[k := (if k in m then m[k] else 0) + 1]) == Sum(m) + 1
  {
    var m' := m[k := (if k in m then m[k] else 0) + 1];
    SumRemove(m', k);
    assert m' - {k} == m - {k};
    if k in m {
      SumRemove(m, k);
    } else {
      assert m - {k} == m;
    }
  }

  /** The reduce over `items`: `acc[folder] = (acc[folder] || 0) + 1` for each item in turn. */
  function Tally(items: seq<MediaItem>): map<string, nat> {
    if items == [] then map[]
    else
      var acc, f := Tally(items[..|items| - 1]), FolderOf(items[|items| - 1]);
      acc[f := (if f in acc then acc[f] else 0) + 1]
  }

  /** The folders of a non-empty sequence are those of all but its last item, and the last item's. */
  lemma FoldersSnoc(items: seq<MediaItem>)
    requires items != []
    ensures Folders(items) == Folders(items[..|items| - 1]) + {FolderOf(items[|items| - 1])}
  {
    var init := items[..|items| - 1];
    assert items == init + [items[|items| - 1]];
    forall g | g in Folders(items) ensures g in Folders(init) + {FolderOf(items[|items| - 1])} {
      var x :| x in items && FolderOf(x) == g;
    }
    forall g | g in Folders(init) ensures g in Folders(items) {
      var x :| x in init && FolderOf(x) == g;
      assert x in items;
    }
  }

  /**
   * The tally has one key per folder an item is counted under, each with the number of its items
   * (so at least 1); a folder that is not a key has no items.
   */
  lemma {:induction false} TallyCounts(items: seq<MediaItem>)
    ensures Tally(items).Keys == Folders(items)
    ensures forall f :: f in Tally(items) ==> Tally(items)[f] == FolderCount(items, f) && Tally(items)[f] >= 1
    ensures forall f :: f !in Tally(items) ==> FolderCount(items, f) == 0
  {
    if items != [] {
      TallyCounts(items[..|items| - 1]);
      FoldersSnoc(items);
    }
  }

  /** The counts of the tally add up to the number of items. */
  lemma {:induction false} TallySum(items: seq<MediaItem>)
    ensures Sum(Tally(items)) == |items|
  {
    if items != [] {
      TallySum(items[..|items| - 1]);
      Increment(Tally(items[..|items| - 1]), FolderOf(items[|items| - 1]));
    }
  }

  /**
   * The folder statistics: null items give {}; otherwise every folder an item is counted under
   * appears with the number of its items (so at least 1), no other key appears, and the counts
   * add up to the number of items.
   */
  method FolderStats(mediaItems: Option<seq<MediaItem>>) returns (folders: map<string, nat>)
    ensures mediaItems.None? ==> folders == map[]
    ensures mediaItems.Some? ==> folders == Tally(mediaItems.value)
    ensures mediaItems.Some? ==> folders.Keys == Folders(mediaItems.value)
    ensures mediaItems.Some? ==>
      forall f :: f in folders ==> folders[f] == FolderCount(mediaItems.value, f) && folders[f] >= 1
    ensures mediaItems.Some? ==> Sum(folders) == |mediaItems.value|
  {
    if mediaItems.None? {
      return map[];
    }
    var items := mediaItems.value;
    var acc: map<string, nat> := map[];
    var i := 0;
    while i < |items|
      invariant 0 <= i <= |items|
      invariant acc == Tally(items[..i])
    {
      var folder := Text.OrElse(items[i].folder, "uncategorized");
      assert items[..i + 1][..i] == items[..i];
      acc := acc[folder := (if folder in acc then acc[folder] else 0) + 1];
      i := i + 1;
    }
    assert items[..i] == items;
    folders := acc;
    TallyCounts(items);
    TallySum(items);
  }

  /** An item counts toward exactly one folder, so the per-folder counts partition the items. */
  lemma {:induction false} CountsPartition(items: seq<MediaItem>, f: string, g: string)
    requires f != g
    ensures FolderCount(items, f) + FolderCount(items, g) <= |items|
  {
    if items != [] {
      CountsPartition(items[..|items| - 1], f, g);
    }
  }
}

=== FILE: nav_json.dfy ===
/**
 * The JSON text of a navigation list as `JSON.stringify` writes it for an array of
 * `{ label, url }` objects, and a parser for that text. The settings form sends the navigation
 * list in this form and the settings action parses it back.
 */
module NavJson {
  import opened Common
  import opened Store

  // ---------------------------------------------------------------- hexadecimal digits

  /** A lower-case hexadecimal digit, as `JSON.stringify` writes `\u00XX` escapes. */
  function HexDigit(d: nat): (c: char)
    requires d < 16
  {
    if d < 10 then ('0' as int + d) as char else ('a' as int + d - 10) as char
  }

  /** The value of a hexadecimal digit of either case. */
  function HexValue(c: char): (r: Option<nat>)
    ensures r.Some? ==> r.value < 16
  {
    if '0' <= c <= '9' then Some(c as int - '0' as int)
    else if 'a' <= c <= 'f' then Some(c as int - 'a' as int + 10)
    else if 'A' <= c <= 'F' then Some(c as int - 'A' as int + 10)
    else None
  }

  lemma HexRoundTrip(d: nat)
    requires d < 16
    ensures HexValue(HexDigit(d)) == Some(d)
  {
  }

  // ---------------------------------------------------------------- strings

  /** How `JSON.stringify` writes one character inside a string literal. */
  function EscapeChar(c: char): (r: string)
    ensures |r| >= 1
  {
    if c == '"' then "\\\""
    else if c == '\\' then "\\\\"
    else if c == '\n' then "\\n"
    else if c == '\r' then "\\r"
    else if c == '\t' then "\\t"
    else if c as int == 8 then "\\b"
    else if c as int == 12 then "\\f"
    else if (c as int) < 0x20 then "\\u00" + [HexDigit(c as int / 16), HexDigit(c as int % 16)]
    else [c]
  }

  /** The characters of a string literal between its quotes. */
  function EscapeString(s: string): string {
    if s == [] then "" else EscapeChar(s[0]) + EscapeString(s[1..])
  }

  /** The character an escape sequence (after its backslash) stands for, and the text after it. */
  function Unescape(s: string): (r: Option<(char, string)>)
    ensures r.Some? ==> |r.value.1| < |s|
  {
    if s == [] then None
    else if s[0] == '"' || s[0] == '\\' || s[0] == '/' then Some((s[0], s[1..]))
    else if s[0] == 'n' then Some(('\n', s[1..]))
    else if s[0] == 'r' then Some(('\r', s[1..]))
    else if s[0] == 't' then Some(('\t', s[1..]))
    else if s[0] == 'b' then Some((8 as char, s[1..]))
    else if s[0] == 'f' then Some((12 as char, s[1..]))
    else if s[0] == 'u' && |s| >= 5 then
      var h := [HexValue(s[1]), HexValue(s[2]), HexValue(s[3]), HexValue(s[4])];
      if h[0].None? || h[1].None? || h[2].None? || h[3].None? then None
      else
        var code := ((h[0].value * 16 + h[1].value) * 16 + h[2].value) * 16 + h[3].value;
        // a lone UTF-16 surrogate is not a character of its own
        if 0xD800 <= code < 0xE000 then None else Some((code as char, s[5..]))
    else None
  }

  /** The characters of a string literal up to its closing quote, and the text after that quote. */
  function ParseChars(s: string): (r: Option<(string, string)>)
    ensures r.Some? ==> |r.value.1| < |s|
    decreases |s|
  {
    if s == [] then None
    else if s[0] == '"' then Some(("", s[1..]))
    else if s[0] == '\\' then
      match Unescape(s[1..])
      case None => None
      case Some((c, rest)) =>
        match ParseChars(rest)
        case None => None
        case Some((cs, after)) => Some(([c] + cs, after))
    else if (s[0] as int) < 0x20 then None
    else
      match ParseChars(s[1..])
      case None => None
      case Some((cs, after)) => Some(([s[0]] + cs, after))
  }

  /** One escaped character is read back as itself. */
  lemma ParseEscapedChar(c: char, rest: string)
    ensures ParseChars(EscapeChar(c) + rest) ==
      match ParseChars(rest)
      case None => None
      case Some((cs, after)) => Some(([c] + cs, after))
  {
    var s := EscapeChar(c) + rest;
    if (c as int) < 0x20 && c != '\n' && c != '\r' && c != '\t' && c as int != 8 && c as int != 12 {
      var hi, lo := c as int / 16, c as int % 16;
      HexRoundTrip(hi);
      HexRoundTrip(lo);
      assert s[1..] == ['u', '0', '0', HexDigit(hi), HexDigit(lo)] + rest;
      assert Unescape(s[1..]) == Some((c, rest));
    } else if c == '"' || c == '\\' || c == '\n' || c == '\r' || c == '\t' || c as int == 8 || c as int == 12 {
      assert s[1..] == EscapeChar(c)[1..] + rest;
      assert Unescape(s[1..]) == Some((c, rest));
    } else {
      assert s[1..] == rest;
    }
  }

  /** The parser reads an escaped string back up to the closing quote. */
  lemma {:induction false} ParseEscaped(s: string, rest: string)
    ensures ParseChars(EscapeString(s) + "\"" + rest) == Some((s, rest))
  {
    if s == [] {
      assert EscapeString(s) + "\"" + rest == ['"'] + rest;
    } else {
      ParseEscaped(s[1..], rest);
      assert EscapeString(s) + "\"" + rest == EscapeChar(s[0]) + (EscapeString(s[1..]) + "\"" + rest);
      ParseEscapedChar(s[0], EscapeString(s[1..]) + "\"" + rest);
      assert [s[0]] + s[1..] == s;
    }
  }

  // ---------------------------------------------------------------- navigation lists

  const LabelKey := "{\"label\":\""
  const UrlKey := ",\"url\":\""

  /** `{"label":…,"url":…}`. */
  function EncodeItem(item: NavItem): string {
    LabelKey + EscapeString(item.text) + "\"" + UrlKey + EscapeString(item.url) + "\"" + "}"
  }

  function EncodeItems(items: seq<NavItem>): (json: string)
    ensures json == "" <==> items == []
  {
    if items == [] then ""
    else if |items| == 1 then EncodeItem(items[0])
    else EncodeItem(items[0]) + "," + EncodeItems(items[1..])
  }

  /** `JSON.stringify(navigation)`. */
  function Encode(items: seq<NavItem>): (json: string)
    ensures |json| >= 2 && json[0] == '['
  {
    "[" + EncodeItems(items) + "]"
  }

  /** The text after `token` when `s` starts with it. */
  function Expect(s: string, token: string): (r: Option<string>)
    ensures r.Some? ==> |r.value| == |s| - |token|
  {
    if |token| <= |s| && s[..|token|] == token then Some(s[|token|..]) else None
  }

  lemma ExpectToken(token: string, rest: string)
    ensures Expect(token + rest, token) == Some(rest)
  {
    assert (token + rest)[..|token|] == token;
    assert (token + rest)[|token|..] == rest;
  }

  /** One `{"label":…,"url":…}` object at the start of `s`, and the text after it. */
  function ParseItem(s: string): (r: Option<(NavItem, string)>)
    ensures r.Some? ==> |r.value.1| < |s|
  {
    match Expect(s, LabelKey)
    case None => None
    case Some(r0) =>
      match ParseChars(r0)
      case None => None
      case Some((name, r1)) =>
        match Expect(r1, UrlKey)
        case None => None
        case Some(r2) =>
          match ParseChars(r2)
          case None => None
          case Some((url, r3)) =>
            match Expect(r3, "}")
            case None => None
            case Some(r4) => Some((NavItem(name, url), r4))
  }

  /** Objects separated by "," up to the closing "]", which must end the text. */
  function ParseItems(s: string): (r: Option<seq<NavItem>>)
    decreases |s|
  {
    match ParseItem(s)
    case None => None
    case Some((item, rest)) =>
      if rest == "]" then Some([item])
      else if rest != [] && rest[0] == ',' then
        match ParseItems(rest[1..])
        case None => None
        case Some(items) => Some([item] + items)
      else None
  }

  /** `JSON.parse` restricted to navigation lists: None for any other text. */
  function Decode(json: string): (r: Option<seq<NavItem>>) {
    if json == "[]" then Some([])
    else if json != [] && json[0] == '[' then ParseItems(json[1..])
    else None
  }

  /** An encoded object followed by `rest`, regrouped around the parser's steps. */
  lemma EncodeItemSplit(item: NavItem, rest: string)
    ensures EncodeItem(item) + rest == LabelKey +
      (EscapeString(item.text) + "\"" + (UrlKey + (EscapeString(item.url) + "\"" + ("}" + rest))))
  {
  }

  lemma ParseEncodedItem(item: NavItem, rest: string)
    ensures ParseItem(EncodeItem(item) + rest) == Some((item, rest))
  {
    var r3 := "}" + rest;
    var r2 := EscapeString(item.url) + "\"" + r3;
    var r1 := UrlKey + r2;
    var r0 := EscapeString(item.text) + "\"" + r1;
    assert Expect(EncodeItem(item) + rest, LabelKey) == Some(r0) by {
      EncodeItemSplit(item, rest);
      ExpectToken(LabelKey, r0);
    }
    assert ParseChars(r0) == Some((item.text, r1)) by { ParseEscaped(item.text, r1); }
    assert Expect(r1, UrlKey) == Some(r2) by { ExpectToken(UrlKey, r2); }
    assert ParseChars(r2) == Some((item.url, r3)) by { ParseEscaped(item.url, r3); }
    assert Expect(r3, "}") == Some(rest) by { ExpectToken("}", rest); }
  }

  /** The items parser after one object: the list ends at "]". */
  lemma ParseItemsLast(s: string, item: NavItem)
    requires ParseItem(s) == Some((item, "]"))
    ensures ParseItems(s) == Some([item])
  {
  }

  /** The items parser after one object and ",": the rest of the list follows. */
  lemma ParseItemsMore(s: string, item: NavItem, tail: string, items: seq<NavItem>)
    requires ParseItem(s) == Some((item, "," + tail))
    requires ParseItems(tail) == Some(items)
    ensures ParseItems(s) == Some([item] + items)
  {
    var rest := "," + tail;
    assert rest != "]" && rest[0] == ',' && rest[1..] == tail;
  }

  /** A one-item list reads back. */
  lemma ParseEncodedSingle(item: NavItem)
    ensures ParseItems(EncodeItems([item]) + "]") == Some([item])
  {
    var s := EncodeItems([item]) + "]";
    assert s == EncodeItem(item) + "]";
    ParseEncodedItem(item, "]");
    ParseItemsLast(s, item);
  }

  /** A list of two or more items is its first object, a comma and the rest. */
  lemma EncodeItemsCons(items: seq<NavItem>)
    requires |items| > 1
    ensures EncodeItems(items) == EncodeItem(items[0]) + "," + EncodeItems(items[1..])
  {
  }

  lemma Regroup(x: string, y: string)
    ensures x + "," + y + "]" == x + ("," + (y + "]"))
  {
  }

  /** A longer list reads back when its tail does. */
  lemma ParseEncodedCons(items: seq<NavItem>)
    requires |items| > 1
    requires ParseItems(EncodeItems(items[1..]) + "]") == Some(items[1..])
    ensures ParseItems(EncodeItems(items) + "]") == Some(items)
  {
    var tail := EncodeItems(items[1..]) + "]";
    var x := EncodeItem(items[0]) + ("," + tail);
    assert EncodeItems(items) + "]" == x by {
      EncodeItemsCons(items);
      Regroup(EncodeItem(items[0]), EncodeItems(items[1..]));
    }
    assert ParseItems(x) == Some([items[0]] + items[1..]) by {
      ParseEncodedItem(items[0], "," + tail);
      ParseItemsMore(x, items[0], tail, items[1..]);
    }
    HeadTail(items);
  }

  lemma HeadTail(items: seq<NavItem>)
    requires items != []
    ensures [items[0]] + items[1..] == items
  {
  }

  lemma {:induction false} ParseEncodedItems(items: seq<NavItem>)
    requires items != []
    ensures ParseItems(EncodeItems(items) + "]") == Some(items)
  {
    if |items| == 1 {
      ParseEncodedSingle(items[0]);
      assert [items[0]] == items;
    } else {
      ParseEncodedItems(items[1..]);
      ParseEncodedCons(items);
    }
  }

  lemma EncodeInner(items: seq<NavItem>)
    requires items != []
    ensures |Encode(items)| > 2 && Encode(items)[1..] == EncodeItems(items) + "]"
  {
    var inner := EncodeItems(items);
    assert Encode(items) == ['['] + (inner + "]");
  }

  /** Parsing what `JSON.stringify` wrote gives back the navigation list. */
  lemma DecodeEncode(items: seq<NavItem>)
    ensures Decode(Encode(items)) == Some(items)
  {
    if items != [] {
      ParseEncodedItems(items);
      assert Encode(items)[1..] == EncodeItems(items) + "]" && Encode(items) != "[]" by {
        EncodeInner(items);
      }
    }
  }
}

=== FILE: page_actions.dfy ===
/**
 * app/admin/pages/actions.ts: create, update, delete and duplicate rows of the `pages` table.
 * Failures are returned as `{ success: false, error }`; the audit entry is written only after a
 * successful write. Each action is a specification function on `Tables` and a method on the
 * `Backend` that performs the same calls in the same order.
 */
module PageActions {
  import opened Common
  import opened Store
  import Text
  import AuditLogger

  /** The row createPage inserts; the columns it does not name keep their database defaults. */
  function NewPage(form: PageForm, now: Timestamp): (p: Page)
    ensures p.title == form.title && p.slug == form.slug && p.status == form.status
    ensures p.metaTitle == Some(form.metaTitle) && p.metaDescription == Some(form.metaDescription)
    ensures p.seoScore == 0 && p.content == EmptyObject && p.publishedAt.None?
  {
    Page(form.title, form.slug, form.status, EmptyObject, Some(form.metaTitle), Some(form.metaDescription),
         None, 0, None, now)
  }

  /** `createPage`. */
  function CreatePageSpec(t: Tables, form: PageForm, newId: Id, now: Timestamp, insert: Outcome, log: Outcome): (e: Effect)
    requires newId !in t.pages
    ensures insert.Fail? ==> e == Effect(t, Returned(insert.message))
    ensures insert.Ok? ==>
      && e.response == Success
      && e.after.pages.Keys == t.pages.Keys + {newId}
      && (forall k :: k in t.pages ==> e.after.pages[k] == t.pages[k])
      && e.after.pages[newId].title == form.title
      && e.after.pages[newId].slug == form.slug
      && e.after.pages[newId].status == form.status
      && e.after.pages[newId].metaTitle == Some(form.metaTitle)
      && e.after.pages[newId].metaDescription == Some(form.metaDescription)
      && e.after.pages[newId].seoScore == 0
      && e.after.pages[newId].content == EmptyObject
      && e.after.pages[newId].publishedAt.None?
      && e.after.audit == t.audit + AuditLogger.Recorded(t.session, "create", "pages", Some(newId), Some(Label(form.title)), log)
    ensures e.after.(pages := t.pages, audit := t.audit) == t
  {
    if insert.Fail? then Effect(t, Returned(insert.message))
    else
      var u := t.(pages := t.pages[newId := NewPage(form, now)]);
      Effect(AuditLogger.Logged(u, "create", "pages", Some(newId), Some(Label(form.title)), log), Success)
  }

  method CreatePage(db: Backend, form: PageForm, newId: Id, now: Timestamp, insert: Outcome, log: Outcome)
    returns (r: Response)
    requires newId !in db.pages
    modifies db
    ensures Effect(db.Tables(), r) == CreatePageSpec(old(db.Tables()), form, newId, now, insert, log)
  {
    if insert.Fail? {
      return Returned(insert.message);
    }
    db.pages := db.pages[newId := NewPage(form, now)];
    AuditLogger.LogAuditAction(db, "create", "pages", Some(newId), Some(Label(form.title)), log);
    r := Success;
  }

  /** The row after updatePage: the five form columns and `updated_at` are written, nothing else. */
  function EditedPage(p: Page, form: PageForm, now: Timestamp): (q: Page)
    ensures q.title == form.title && q.slug == form.slug && q.status == form.status
    ensures q.metaTitle == Some(form.metaTitle) && q.metaDescription == Some(form.metaDescription)
    ensures q.updatedAt == now
    ensures q.content == p.content && q.seoScore == p.seoScore && q.ogImage == p.ogImage
    ensures q.publishedAt == p.publishedAt
  {
    p.(title := form.title, slug := form.slug, status := form.status, metaTitle := Some(form.metaTitle),
       metaDescription := Some(form.metaDescription), updatedAt := now)
  }

  /** `updatePage`: an id that matches no row is not an error; nothing is written then. */
  function UpdatePageSpec(t: Tables, id: Id, form: PageForm, now: Timestamp, update: Outcome, log: Outcome): (e: Effect)
    ensures update.Fail? ==> e == Effect(t, Returned(update.message))
    ensures update.Ok? ==>
      && e.response == Success
      && e.after.pages.Keys == t.pages.Keys
      && (forall k :: k in t.pages && k != id ==> e.after.pages[k] == t.pages[k])
      && (id in t.pages ==> e.after.pages[id] == EditedPage(t.pages[id], form, now))
      && e.after.audit == t.audit + AuditLogger.Recorded(t.session, "update", "pages", Some(id), Some(Label(form.title)), log)
    ensures e.after.(pages := t.pages, audit := t.audit) == t
  {
    if update.Fail? then Effect(t, Returned(update.message))
    else
      var pages := if id in t.pages then t.pages[id := EditedPage(t.pages[id], form, now)] else t.pages;
      Effect(AuditLogger.Logged(t.(pages := pages), "update", "pages", Some(id), Some(Label(form.title)), log), Success)
  }

  method UpdatePage(db: Backend, id: Id, form: PageForm, now: Timestamp, update: Outcome, log: Outcome)
    returns (r: Response)
    modifies db
    ensures Effect(db.Tables(), r) == UpdatePageSpec(old(db.Tables()), id, form, now, update, log)
  {
    if update.Fail? {
      return Returned(update.message);
    }
    if id in db.pages {
      db.pages := db.pages[id := EditedPage(db.pages[id], form, now)];
    }
    AuditLogger.LogAuditAction(db, "update", "pages", Some(id), Some(Label(form.title)), log);
    r := Success;
  }

  /** The audit label of deletePage: the title the pre-read found, else "Page". */
  function DeleteLabel(found: Option<Page>): (name: string)
    ensures found.None? || found.value.title == "" ==> name == "Page"
    ensures found.Some? && found.value.title != "" ==> name == found.value.title
  {
    if found.Some? then Text.Or(found.value.title, "Page") else "Page"
  }

  /** `deletePage`: the row goes even when the title pre-read failed. */
  function DeletePageSpec(t: Tables, id: Id, read: Outcome, delete: Outcome, log: Outcome): (e: Effect)
    ensures delete.Fail? ==> e == Effect(t, Returned(delete.message))
    ensures delete.Ok? ==>
      && e.response == Success
      && e.after.pages == t.pages - {id}
      && e.after.audit == t.audit + AuditLogger.Recorded(t.session, "delete", "pages", Some(id),
                                                         Some(Label(DeleteLabel(ReadRow(t.pages, id, read)))), log)
    ensures e.after.(pages := t.pages, audit := t.audit) == t
  {
    var page := ReadRow(t.pages, id, read);
    if delete.Fail? then Effect(t, Returned(delete.message))
    else
      Effect(AuditLogger.Logged(t.(pages := t.pages - {id}), "delete", "pages", Some(id), Some(Label(DeleteLabel(page))), log), Success)
  }

  method DeletePage(db: Backend, id: Id, read: Outcome, delete: Outcome, log: Outcome) returns (r: Response)
    modifies db
    ensures Effect(db.Tables(), r) == DeletePageSpec(old(db.Tables()), id, read, delete, log)
  {
    var page := ReadRow(db.pages, id, read);
    if delete.Fail? {
      return Returned(delete.message);
    }
    db.pages := db.pages - {id};
    AuditLogger.LogAuditAction(db, "delete", "pages", Some(id), Some(Label(DeleteLabel(page))), log);
    r := Success;
  }

  /** The row duplicatePage inserts for source row `p`. */
  function PageCopy(p: Page, now: Timestamp): (c: Page)
    ensures c.title == p.title + " (Copy)" && c.slug == p.slug + "-copy" && c.status == "draft"
    ensures c.metaTitle == p.metaTitle && c.metaDescription == p.metaDescription
    ensures c.content == p.content && c.seoScore == p.seoScore
  {
    Page(p.title + " (Copy)", p.slug + "-copy", "draft", p.content, p.metaTitle, p.metaDescription, None,
         p.seoScore, None, now)
  }

  /** `duplicatePage`. */
  function DuplicatePageSpec(t: Tables, id: Id, newId: Id, now: Timestamp, fetch: Outcome, insert: Outcome,
                             log: Outcome): (e: Effect)
    requires newId !in t.pages
    ensures ReadRow(t.pages, id, fetch).None? ==> e == Effect(t, Returned("Page not found"))
    ensures ReadRow(t.pages, id, fetch).Some? && insert.Fail? ==> e == Effect(t, Returned(insert.message))
    ensures ReadRow(t.pages, id, fetch).Some? && insert.Ok? ==>
      && e.response == Success
      && e.after.pages == t.pages[newId := PageCopy(t.pages[id], now)]
      && e.after.audit == t.audit + AuditLogger.Recorded(t.session, "create", "pages", Some(newId),
                                                         Some(Label("Duplicated: " + e.after.pages[newId].title)), log)
    ensures e.after.(pages := t.pages, audit := t.audit) == t
  {
    var page := ReadRow(t.pages, id, fetch);
    if page.None? then Effect(t, Returned("Page not found"))
    else if insert.Fail? then Effect(t, Returned(insert.message))
    else
      var copy := PageCopy(page.value, now);
      Effect(AuditLogger.Logged(t.(pages := t.pages[newId := copy]), "create", "pages", Some(newId),
                                Some(Label("Duplicated: " + copy.title)), log), Success)
  }

  method DuplicatePage(db: Backend, id: Id, newId: Id, now: Timestamp, fetch: Outcome, insert: Outcome, log: Outcome)
    returns (r: Response)
    requires newId !in db.pages
    modifies db
    ensures Effect(db.Tables(), r) == DuplicatePageSpec(old(db.Tables()), id, newId, now, fetch, insert, log)
  {
    var page := ReadRow(db.pages, id, fetch);
    if page.None? {
      return Returned("Page not found");
    }
    if insert.Fail? {
      return Returned(insert.message);
    }
    var copy := PageCopy(page.value, now);
    db.pages := db.pages[newId := copy];
    AuditLogger.LogAuditAction(db, "create", "pages", Some(newId), Some(Label("Duplicated: " + copy.title)), log);
    r := Success;
  }

  /**
   * There is no uniqueness check on slugs: duplicating the same page twice leaves two new rows
   * with the same slug, and the source row is unchanged.
   */
  lemma DuplicateTwiceSameSlug(t: Tables, id: Id, id1: Id, id2: Id, now1: Timestamp, now2: Timestamp, log1: Outcome, log2: Outcome)
    requires id in t.pages && id1 !in t.pages && id2 !in t.pages && id1 != id2
    ensures
      var e1 := DuplicatePageSpec(t, id, id1, now1, Ok, Ok, log1);
      var e2 := DuplicatePageSpec(e1.after, id, id2, now2, Ok, Ok, log2);
      && e2.after.pages[id1].slug == e2.after.pages[id2].slug == t.pages[id].slug + "-copy"
      && e2.after.pages[id] == t.pages[id]
  {
    var e1 := DuplicatePageSpec(t, id, id1, now1, Ok, Ok, log1);
    assert e1.after.pages[id] == t.pages[id];
  }
}

=== FILE: page_form_dialog.dfy ===
/**
 * components/admin/page-form-dialog.tsx: the page dialog's form state, its defaults, and the title
 * handler that keeps the slug in step with the title while a page is being created.
 */
module PageFormDialog {
  import opened Common
  import opened Store
  import Text
  import Slug

  /**
   * The form state the dialog opens with: the page's fields, each empty one replaced by its default
   * (`page?.x || default`); a new page starts empty, as a draft.
   */
  function InitialForm(page: Option<Page>): (f: PageForm)
    ensures page.None? ==> f == PageForm("", "", "draft", "", "")
    ensures page.Some? ==>
      && f.title == page.value.title && f.slug == page.value.slug
      && f.status == Text.Or(page.value.status, "draft")
      && f.metaTitle == Text.OrElse(page.value.metaTitle, "")
      && f.metaDescription == Text.OrElse(page.value.metaDescription, "")
  {
    match page
    case None => PageForm("", "", "draft", "", "")
    case Some(p) =>
      PageForm(Text.Or(p.title, ""), Text.Or(p.slug, ""), Text.Or(p.status, "draft"),
               Text.OrElse(p.metaTitle, ""), Text.OrElse(p.metaDescription, ""))
  }

  /**
   * `handleTitleChange`: the title is replaced; while creating (`editing` false) the slug is
   * regenerated from it, while editing an existing page the slug is left as it was.
   */
  function HandleTitleChange(editing: bool, prev: PageForm, title: string): (f: PageForm)
    ensures f.title == title
    ensures !editing ==> f.slug == Slug.Slugify(title) && Slug.IsCleanSlug(f.slug)
    ensures editing ==> f.slug == prev.slug
    ensures f.(title := prev.title, slug := prev.slug) == prev
  {
    prev.(title := title, slug := if editing then prev.slug else Slug.Slugify(title))
  }

  /**
   * While creating, the slug depends only on the latest title: typing `a` and then `b` leaves the
   * same form as typing `b` alone.
   */
  lemma LatestTitleWins(editing: bool, f: PageForm, a: string, b: string)
    ensures HandleTitleChange(editing, HandleTitleChange(editing, f, a), b) == HandleTitleChange(editing, f, b)
  {
  }

  /**
   * Whatever titles are typed while editing, the slug the page opened with is kept: the slug of
   * an existing page is changed only by typing into the slug field.
   */
  lemma {:induction false} EditingKeepsSlug(f: PageForm, titles: seq<string>)
    ensures TypeTitles(true, f, titles).slug == f.slug
    decreases titles
  {
    if titles != [] {
      EditingKeepsSlug(HandleTitleChange(true, f, titles[0]), titles[1..]);
    }
  }

  /** The form after the title field has been set to each of `titles` in turn. */
  function TypeTitles(editing: bool, f: PageForm, titles: seq<string>): PageForm
    decreases titles
  {
    if titles == [] then f else TypeTitles(editing, HandleTitleChange(editing, f, titles[0]), titles[1..])
  }

  /** While creating, after at least one keystroke the slug is the slug of the final title. */
  lemma {:induction false} CreatingTracksTitle(f: PageForm, titles: seq<string>)
    requires titles != []
    ensures TypeTitles(false, f, titles).slug == Slug.Slugify(titles[|titles| - 1])
    ensures TypeTitles(false, f, titles).title == titles[|titles| - 1]
    decreases titles
  {
    if |titles| > 1 {
      CreatingTracksTitle(HandleTitleChange(false, f, titles[0]), titles[1..]);
    }
  }
}

=== FILE: proxy.dfy ===
/**
 * proxy.ts: the route guard run before admin requests. The decision over the path and the session
 * is pure; the cookie callback `setAll` writes the cookies the auth client hands it into the
 * request's cookie jar and into a fresh response's jar.
 */
module Proxy {
  import opened Common
  import Text

  /** What the guard answers: let the request through, or redirect it to another path. */
  datatype Route = Pass | RedirectTo(path: string)

  /** The auth client's `getUser()` call: it threw, or it answered with or without a user. */
  datatype UserLookup = Threw | Answered(signedIn: bool)

  /** The paths the guard protects: those starting with "/admin", except the sign-in and sign-up pages. */
  predicate Guarded(path: string) {
    Text.StartsWith(path, "/admin") && path != "/admin" && path != "/admin/signup"
  }

  /**
   * `proxy`: without the backend's URL and key every request passes; an exception passes too;
   * a guarded path with no user goes to "/admin"; "/admin" with a user goes to the dashboard.
   */
  function Decide(configured: bool, path: string, user: UserLookup): (r: Route)
    ensures !configured || user.Threw? ==> r == Pass
    ensures configured && user.Answered? && Guarded(path) && !user.signedIn ==> r == RedirectTo("/admin")
    ensures configured && user == Answered(true) && path == "/admin" ==> r == RedirectTo("/admin/dashboard")
    ensures r.RedirectTo? <==>
      configured && user.Answered? && ((Guarded(path) && !user.signedIn) || (path == "/admin" && user.signedIn))
  {
    if !configured then Pass
    else match user
      case Threw => Pass
      case Answered(signedIn) =>
        if Guarded(path) && !signedIn then RedirectTo("/admin")
        else if path == "/admin" && signedIn then RedirectTo("/admin/dashboard")
        else Pass
  }

  /** The guard never loops: the target of a redirect passes for the same session. */
  lemma RedirectTargetPasses(configured: bool, path: string, user: UserLookup)
    requires Decide(configured, path, user).RedirectTo?
    ensures Decide(configured, Decide(configured, path, user).path, user) == Pass
  {
  }

  /** The sign-up page, and every path outside "/admin", always pass. */
  lemma UnguardedPathsPass(configured: bool, path: string, user: UserLookup)
    requires path == "/admin/signup" || !Text.StartsWith(path, "/admin")
    ensures Decide(configured, path, user) == Pass
  {
  }

  /** The prefix test also guards paths that merely start with "/admin", such as "/administrator". */
  lemma PrefixAlsoGuardsAdministrator()
    ensures Decide(true, "/administrator", Answered(false)) == RedirectTo("/admin")
  {
    assert "/administrator"[..6] == "/admin";
  }

  // ---------------------------------------------------------------- cookies

  /** A cookie as a jar holds it; the request's jar stores no options. */
  datatype Cookie = Cookie(value: string, options: Option<string>)

  /** One `{ name, value, options }` entry handed to `setAll`. */
  datatype CookieToSet = CookieToSet(name: string, value: string, options: string)

  /** The jar after setting `entries` in order, with or without their options. */
  function Applied(jar: map<string, Cookie>, entries: seq<CookieToSet>, withOptions: bool): (r: map<string, Cookie>)
    ensures r.Keys == jar.Keys + set e | e in entries :: e.name
  {
    if entries == [] then jar
    else
      var e := entries[|entries| - 1];
      var before := Applied(jar, entries[..|entries| - 1], withOptions);
      assert forall x :: x in entries ==> x in entries[..|entries| - 1] || x == e;
      before[e.name := Cookie(e.value, if withOptions then Some(e.options) else None)]
  }

  /** The last entry with a name decides that cookie; earlier ones are overwritten. */
  lemma {:induction false} LastEntryWins(jar: map<string, Cookie>, entries: seq<CookieToSet>, withOptions: bool, i: nat)
    requires i < |entries|
    requires forall j :: i < j < |entries| ==> entries[j].name != entries[i].name
    ensures Applied(jar, entries, withOptions)[entries[i].name].value == entries[i].value
  {
    if i < |entries| - 1 {
      LastEntryWins(jar, entries[..|entries| - 1], withOptions, i);
    }
  }

  /** A cookie jar that `set` mutates. */
  class CookieJar {
    var cookies: map<string, Cookie>

    constructor ()
      ensures cookies == map[]
    {
      cookies := map[];
    }

    /** `cookies.set(name, value[, options])`. */
    method Set(name: string, value: string, options: Option<string>)
      modifies this
      ensures cookies == old(cookies)[name := Cookie(value, options)]
    {
      cookies := cookies[name := Cookie(value, options)];
    }
  }

  /** Sets each entry on `jar` in order, with or without its options. */
  method SetEach(jar: CookieJar, entries: seq<CookieToSet>, withOptions: bool)
    modifies jar
    ensures jar.cookies == Applied(old(jar.cookies), entries, withOptions)
  {
    var i := 0;
    while i < |entries|
      invariant 0 <= i <= |entries|
      invariant jar.cookies == Applied(old(jar.cookies), entries[..i], withOptions)
    {
      assert entries[..i + 1][..i] == entries[..i];
      jar.Set(entries[i].name, entries[i].value, if withOptions then Some(entries[i].options) else None);
      i := i + 1;
    }
    assert entries[..|entries|] == entries;
  }

  /**
   * `setAll`: each entry is set on the request's jar (without options), then a fresh response is
   * made and each entry is set on its jar with its options.
   */
  method SetAll(request: CookieJar, entries: seq<CookieToSet>) returns (response: CookieJar)
    modifies request
    ensures fresh(response)
    ensures request.cookies == Applied(old(request.cookies), entries, false)
    ensures response.cookies == Applied(map[], entries, true)
  {
    SetEach(request, entries, false);
    response := new CookieJar();
    SetEach(response, entries, true);
  }
}

=== FILE: redirect_actions.dfy ===
/**
 * app/admin/redirects/actions.ts: create, update, delete and toggle rows of the `redirects` table.
 * A backend error is thrown before the audit call. Nothing checks the paths: a redirect to itself
 * or a cycle of redirects is accepted.
 */
module RedirectActions {
  import opened Common
  import opened Store
  import AuditLogger

  /** The row createRedirect inserts: the submitted fields and a zero hit count. */
  function NewRedirect(form: RedirectForm): (r: Redirect)
    ensures r.sourcePath == form.source && r.destinationPath == form.destination
    ensures r.redirectType == form.redirectType && r.isActive == form.active
    ensures r.hitCount == 0
  {
    Redirect(form.source, form.destination, form.redirectType, 0, form.active)
  }

  /** `createRedirect`: the audit entry has a null entity id and the input record as its changes. */
  function CreateRedirectSpec(t: Tables, form: RedirectForm, newId: Id, insert: Outcome, log: Outcome): (e: Effect)
    requires newId !in t.redirects
    ensures insert.Fail? ==> e == Effect(t, Thrown(insert.message))
    ensures insert.Ok? ==>
      && e.response == Success
      && e.after.redirects == t.redirects[newId := NewRedirect(form)]
      && e.after.audit == t.audit + AuditLogger.Recorded(t.session, "create", "redirect", None, Some(RedirectFields(form)), log)
    ensures e.after.(redirects := t.redirects, audit := t.audit) == t
  {
    if insert.Fail? then Effect(t, Thrown(insert.message))
    else
      Effect(AuditLogger.Logged(t.(redirects := t.redirects[newId := NewRedirect(form)]), "create", "redirect", None,
                                Some(RedirectFields(form)), log), Success)
  }

  method CreateRedirect(db: Backend, form: RedirectForm, newId: Id, insert: Outcome, log: Outcome) returns (r: Response)
    requires newId !in db.redirects
    modifies db
    ensures Effect(db.Tables(), r) == CreateRedirectSpec(old(db.Tables()), form, newId, insert, log)
  {
    if insert.Fail? {
      return Thrown(insert.message);
    }
    db.redirects := db.redirects[newId := NewRedirect(form)];
    AuditLogger.LogAuditAction(db, "create", "redirect", None, Some(RedirectFields(form)), log);
    r := Success;
  }

  /** Any source and destination are accepted, the same path for both included. */
  lemma SelfRedirectAccepted(t: Tables, path: string, kind: string, active: bool, newId: Id, log: Outcome)
    requires newId !in t.redirects
    ensures
      var e := CreateRedirectSpec(t, RedirectForm(path, path, kind, active), newId, Ok, log);
      && e.response == Success
      && e.after.redirects[newId].sourcePath == e.after.redirects[newId].destinationPath == path
  {
  }

  /** The row after updateRedirect: the four submitted columns; `hit_count` is kept. */
  function EditedRedirect(r: Redirect, form: RedirectForm): (q: Redirect)
    ensures q.sourcePath == form.source && q.destinationPath == form.destination
    ensures q.redirectType == form.redirectType && q.isActive == form.active
    ensures q.hitCount == r.hitCount
  {
    r.(sourcePath := form.source, destinationPath := form.destination, redirectType := form.redirectType,
       isActive := form.active)
  }

  /** `updateRedirect`. */
  function UpdateRedirectSpec(t: Tables, id: Id, form: RedirectForm, update: Outcome, log: Outcome): (e: Effect)
    ensures update.Fail? ==> e == Effect(t, Thrown(update.message))
    ensures update.Ok? ==>
      && e.response == Success
      && e.after.redirects.Keys == t.redirects.Keys
      && (forall k :: k in t.redirects && k != id ==> e.after.redirects[k] == t.redirects[k])
      && (id in t.redirects ==> e.after.redirects[id] == EditedRedirect(t.redirects[id], form))
      && e.after.audit == t.audit + AuditLogger.Recorded(t.session, "update", "redirect", Some(id), Some(RedirectFields(form)), log)
    ensures e.after.(redirects := t.redirects, audit := t.audit) == t
  {
    if update.Fail? then Effect(t, Thrown(update.message))
    else
      var rows := if id in t.redirects then t.redirects[id := EditedRedirect(t.redirects[id], form)] else t.redirects;
      Effect(AuditLogger.Logged(t.(redirects := rows), "update", "redirect", Some(id), Some(RedirectFields(form)), log), Success)
  }

  method UpdateRedirect(db: Backend, id: Id, form: RedirectForm, update: Outcome, log: Outcome) returns (r: Response)
    modifies db
    ensures Effect(db.Tables(), r) == UpdateRedirectSpec(old(db.Tables()), id, form, update, log)
  {
    if update.Fail? {
      return Thrown(update.message);
    }
    if id in db.redirects {
      db.redirects := db.redirects[id := EditedRedirect(db.redirects[id], form)];
    }
    AuditLogger.LogAuditAction(db, "update", "redirect", Some(id), Some(RedirectFields(form)), log);
    r := Success;
  }

  /** No update changes a redirect's hit count, whatever the outcome. */
  lemma UpdateKeepsHitCounts(t: Tables, id: Id, form: RedirectForm, update: Outcome, log: Outcome)
    ensures
      var after := UpdateRedirectSpec(t, id, form, update, log).after.redirects;
      forall k :: k in t.redirects ==> k in after && after[k].hitCount == t.redirects[k].hitCount
  {
  }

  /** `deleteRedirect`: the audit entry carries no changes. */
  function DeleteRedirectSpec(t: Tables, id: Id, delete: Outcome, log: Outcome): (e: Effect)
    ensures delete.Fail? ==> e == Effect(t, Thrown(delete.message))
    ensures delete.Ok? ==>
      && e.response == Success
      && e.after.redirects == t.redirects - {id}
      && e.after.audit == t.audit + AuditLogger.Recorded(t.session, "delete", "redirect", Some(id), None, log)
    ensures e.after.(redirects := t.redirects, audit := t.audit) == t
  {
    if delete.Fail? then Effect(t, Thrown(delete.message))
    else Effect(AuditLogger.Logged(t.(redirects := t.redirects - {id}), "delete", "redirect", Some(id), None, log), Success)
  }

  method DeleteRedirect(db: Backend, id: Id, delete: Outcome, log: Outcome) returns (r: Response)
    modifies db
    ensures Effect(db.Tables(), r) == DeleteRedirectSpec(old(db.Tables()), id, delete, log)
  {
    if delete.Fail? {
      return Thrown(delete.message);
    }
    db.redirects := db.redirects - {id};
    AuditLogger.LogAuditAction(db, "delete", "redirect", Some(id), None, log);
    r := Success;
  }

  /**
   * `!redirect?.is_active`: the negation of the flag the pre-read found; a read that found nothing
   * yields `!undefined`, which is true.
   */
  function ToggledFlag(found: Option<Redirect>): (active: bool)
    ensures found.Some? ==> active == !found.value.isActive
    ensures found.None? ==> active
  {
    !(found.Some? && found.value.isActive)
  }

  /**
   * `toggleRedirect`: read the flag, write its negation. The action passed to the audit recorder is
   * "toggle", which is not one of the declared audit actions.
   */
  function ToggleRedirectSpec(t: Tables, id: Id, read: Outcome, update: Outcome, log: Outcome): (e: Effect)
    ensures update.Fail? ==> e == Effect(t, Thrown(update.message))
    ensures update.Ok? ==>
      && e.response == Success
      && e.after.redirects.Keys == t.redirects.Keys
      && (forall k :: k in t.redirects && k != id ==> e.after.redirects[k] == t.redirects[k])
      && (id in t.redirects ==>
            e.after.redirects[id] == t.redirects[id].(isActive := ToggledFlag(ReadRow(t.redirects, id, read))))
      && e.after.audit == t.audit + AuditLogger.Recorded(t.session, "toggle", "redirect", Some(id),
                                                         Some(ActiveFlag(ToggledFlag(ReadRow(t.redirects, id, read)))), log)
    ensures e.after.(redirects := t.redirects, audit := t.audit) == t
  {
    var active := ToggledFlag(ReadRow(t.redirects, id, read));
    if update.Fail? then Effect(t, Thrown(update.message))
    else
      var rows := if id in t.redirects then t.redirects[id := t.redirects[id].(isActive := active)] else t.redirects;
      Effect(AuditLogger.Logged(t.(redirects := rows), "toggle", "redirect", Some(id), Some(ActiveFlag(active)), log), Success)
  }

  method ToggleRedirect(db: Backend, id: Id, read: Outcome, update: Outcome, log: Outcome) returns (r: Response)
    modifies db
    ensures Effect(db.Tables(), r) == ToggleRedirectSpec(old(db.Tables()), id, read, update, log)
  {
    var found := ReadRow(db.redirects, id, read);
    var active := ToggledFlag(found);
    if update.Fail? {
      return Thrown(update.message);
    }
    if id in db.redirects {
      db.redirects := db.redirects[id := db.redirects[id].(isActive := active)];
    }
    AuditLogger.LogAuditAction(db, "toggle", "redirect", Some(id), Some(ActiveFlag(active)), log);
    r := Success;
  }

  /** With every call succeeding, a toggle flips the flag and keeps the rest of the row. */
  lemma ToggleFlips(t: Tables, id: Id, log: Outcome)
    requires id in t.redirects
    ensures
      var r := ToggleRedirectSpec(t, id, Ok, Ok, log).after.redirects[id];
      r.isActive == !t.redirects[id].isActive && r.(isActive := t.redirects[id].isActive) == t.redirects[id]
  {
  }

  /** Toggling twice with every read and write succeeding restores the whole redirects table. */
  lemma {:induction false} ToggleTwiceRestores(t: Tables, id: Id, log1: Outcome, log2: Outcome)
    ensures
      var e1 := ToggleRedirectSpec(t, id, Ok, Ok, log1);
      ToggleRedirectSpec(e1.after, id, Ok, Ok, log2).after.redirects == t.redirects
  {
    var e1 := ToggleRedirectSpec(t, id, Ok, Ok, log1);
    var e2 := ToggleRedirectSpec(e1.after, id, Ok, Ok, log2);
    if id in t.redirects {
      ToggleFlips(t, id, log1);
      ToggleFlips(e1.after, id, log2);
      assert e2.after.redirects[id] == t.redirects[id];
    }
    assert e2.after.redirects.Keys == t.redirects.Keys;
  }

  /** When the pre-read fails but the write succeeds, the redirect ends up active, whatever it was. */
  lemma ToggleAfterFailedReadActivates(t: Tables, id: Id, msg: string, log: Outcome)
    requires id in t.redirects
    ensures ToggleRedirectSpec(t, id, Fail(msg), Ok, log).after.redirects[id].isActive
  {
  }
}

=== FILE: redirects_page.dfy ===
/**
 * app/admin/redirects/page.tsx: the three figures shown above the redirects list. A failed fetch
 * leaves the rows null, and every figure is then 0.
 */
module RedirectsPage {
  import opened Common
  import opened Store

  /** The `stats` handed to the redirects client. */
  datatype Stats = Stats(total: nat, permanent: nat, temporary: nat)

  predicate Permanent(r: Redirect) {
    r.redirectType == "301"
  }

  predicate Temporary(r: Redirect) {
    r.redirectType == "302"
  }

  /**
   * `redirects?.length || 0` and the lengths of the "301" and "302" filters: all 0 for null rows;
   * otherwise the number of rows and the number of rows of each type, which never add up to more
   * than the total.
   */
  function RedirectStats(redirects: Option<seq<Redirect>>): (s: Stats)
    ensures redirects.None? ==> s == Stats(0, 0, 0)
    ensures redirects.Some? ==>
      && s.total == |redirects.value|
      && s.permanent == Count(redirects.value, Permanent)
      && s.temporary == Count(redirects.value, Temporary)
    ensures s.permanent + s.temporary <= s.total
  {
    match redirects
    case None => Stats(0, 0, 0)
    case Some(rows) =>
      FilterLength(rows, Permanent);
      FilterLength(rows, Temporary);
      TypesDisjoint(rows);
      Stats(|rows|, |Filter(rows, Permanent)|, |Filter(rows, Temporary)|)
  }

  /** No row is both permanent and temporary, so the two counts share no row. */
  lemma {:induction false} TypesDisjoint(rows: seq<Redirect>)
    ensures Count(rows, Permanent) + Count(rows, Temporary) <= |rows|
  {
    if rows != [] {
      TypesDisjoint(rows[1..]);
    }
  }

  /**
   * The permanent and temporary figures account for every row exactly when every row is a 301 or
   * a 302: a 307 or 308 redirect is counted in the total and in neither of the other two.
   */
  lemma {:induction false} StatsCoverAllIff(rows: seq<Redirect>)
    ensures var s := RedirectStats(Some(rows));
      s.permanent + s.temporary == s.total <==> forall r :: r in rows ==> Permanent(r) || Temporary(r)
  {
    if rows != [] {
      StatsCoverAllIff(rows[1..]);
      TypesDisjoint(rows[1..]);
      assert forall r :: r in rows <==> r == rows[0] || r in rows[1..];
    }
  }
}

=== FILE: seo_actions.dfy ===
/**
 * app/admin/seo/actions.ts: save the site-wide SEO settings as a keyed record of the
 * `site_settings` table, and write a page's SEO fields. A backend error is thrown before the audit
 * call.
 */
module SeoActions {
  import opened Common
  import opened Store
  import AuditLogger
  import SettingsActions
  import SettingsClient

  /** The key of the SEO settings record. */
  const SeoKey := "seo_settings"

  /**
   * `saveSEOSettings`: `.upsert({ key, value, updated_at })` on `site_settings`, naming no conflict
   * column. An upsert then matches on the primary key, and the payload carries no `id`, so a
   * successful call adds a record under the id the database assigns (`newId`) and never overwrites
   * an earlier one. A failed call (a missing column, a uniqueness violation) throws before the audit.
   */
  function SaveSeoSettingsSpec(t: Tables, data: SeoSettings, now: Timestamp, newId: Id, upsert: Outcome, log: Outcome)
    : (e: Effect)
    ensures upsert.Fail? ==> e == Effect(t, Thrown(upsert.message))
    ensures upsert.Ok? ==>
      && e.response == Success
      && e.after.siteSettings == t.siteSettings + [KeyedRecord(newId, SeoKey, data, now)]
      && e.after.audit == t.audit + AuditLogger.Recorded(t.session, "update", "settings", Some(SeoKey),
                                                         Some(SettingsValue(data)), log)
    ensures e.after.(siteSettings := t.siteSettings, audit := t.audit) == t
  {
    if upsert.Fail? then Effect(t, Thrown(upsert.message))
    else
      Effect(AuditLogger.Logged(t.(siteSettings := t.siteSettings + [KeyedRecord(newId, SeoKey, data, now)]), "update",
                                "settings", Some(SeoKey), Some(SettingsValue(data)), log), Success)
  }

  method SaveSeoSettings(db: Backend, data: SeoSettings, now: Timestamp, newId: Id, upsert: Outcome, log: Outcome)
    returns (r: Response)
    modifies db
    ensures Effect(db.Tables(), r) == SaveSeoSettingsSpec(old(db.Tables()), data, now, newId, upsert, log)
  {
    if upsert.Fail? {
      return Thrown(upsert.message);
    }
    db.siteSettings := db.siteSettings + [KeyedRecord(newId, SeoKey, data, now)];
    AuditLogger.LogAuditAction(db, "update", "settings", Some(SeoKey), Some(SettingsValue(data)), log);
    r := Success;
  }

  /** Whether a row is a record keyed "seo_settings". */
  predicate IsSeoRecord(row: SettingsRow) {
    row.KeyedRecord? && row.key == SeoKey
  }

  /** The number of records keyed "seo_settings" among the rows. */
  function SeoRecordCount(rows: seq<SettingsRow>): (n: nat)
    ensures n <= |rows|
    ensures n == 0 <==> forall i :: 0 <= i < |rows| ==> !IsSeoRecord(rows[i])
  {
    if rows == [] then 0
    else
      var init := rows[..|rows| - 1];
      var n := SeoRecordCount(init) + if IsSeoRecord(rows[|rows| - 1]) then 1 else 0;
      assert forall i :: 0 <= i < |init| ==> init[i] == rows[i];
      n
  }

  /**
   * The upsert never overwrites: two successful saves keep every earlier row and add two
   * "seo_settings" records, the later one holding the second data.
   */
  lemma SaveTwiceAddsTwoRecords(t: Tables, first: SeoSettings, second: SeoSettings, now1: Timestamp, now2: Timestamp,
                                id1: Id, id2: Id, log1: Outcome, log2: Outcome)
    ensures
      var e1 := SaveSeoSettingsSpec(t, first, now1, id1, Ok, log1);
      var rows := SaveSeoSettingsSpec(e1.after, second, now2, id2, Ok, log2).after.siteSettings;
      && |rows| == |t.siteSettings| + 2
      && rows[..|t.siteSettings|] == t.siteSettings
      && SeoRecordCount(rows) == SeoRecordCount(t.siteSettings) + 2
      && rows[|rows| - 1] == KeyedRecord(id2, SeoKey, second, now2)
  {
    var mid := t.siteSettings + [KeyedRecord(id1, SeoKey, first, now1)];
    var rows := mid + [KeyedRecord(id2, SeoKey, second, now2)];
    assert rows[..|rows| - 1] == mid;
    assert mid[..|mid| - 1] == t.siteSettings;
  }

  /**
   * The record shares the table the site settings are read from. Once the settings row exists, a
   * successful SEO save leaves two rows: getSettings' `.single()` then gives null, so the settings
   * screen opens with its defaults, and the next updateSettings finds no row and appends a second
   * settings row instead of updating the first.
   */
  lemma SaveHidesSettingsRow(t: Tables, data: SeoSettings, now: Timestamp, newId: Id, log: Outcome,
                             call: Outcome, form: SettingsActions.FormData, settingsId: Id, lookup: Outcome)
    requires |t.siteSettings| == 1 && t.siteSettings[0].SettingsRow?
    ensures
      var after := SaveSeoSettingsSpec(t, data, now, newId, Ok, log).after.siteSettings;
      && SettingsActions.SingleRow(after, call).None?
      && SettingsClient.ScreenFor(SettingsActions.SingleRow(after, call)) == SettingsClient.Defaults
      && SettingsActions.UpdateSettingsSpec(t.(siteSettings := after), form, settingsId, lookup, Ok).after.siteSettings
         == after + [SettingsRow(settingsId, SettingsActions.DecodeSettings(form))]
  {
  }

  /**
   * Saved into an empty table, the SEO record is the one row: getSettings returns it in place of
   * site settings, the settings screen opens with its defaults, and the next updateSettings writes
   * the settings onto that record's id.
   */
  lemma SaveIntoEmptyTableReadAsSettings(t: Tables, data: SeoSettings, now: Timestamp, newId: Id, log: Outcome,
                                         form: SettingsActions.FormData, settingsId: Id)
    requires t.siteSettings == []
    ensures
      var after := SaveSeoSettingsSpec(t, data, now, newId, Ok, log).after.siteSettings;
      && SettingsActions.SingleRow(after, Ok) == Some(KeyedRecord(newId, SeoKey, data, now))
      && SettingsClient.ScreenFor(SettingsActions.SingleRow(after, Ok)) == SettingsClient.Defaults
      && SettingsActions.UpdateSettingsSpec(t.(siteSettings := after), form, settingsId, Ok, Ok).after.siteSettings
         == [SettingsRow(newId, SettingsActions.DecodeSettings(form))]
  {
  }

  /**
   * The page after updatePageSEO: the three SEO columns that were given, and `updated_at`;
   * `seo_score` is not recomputed.
   */
  function EditedPageSeo(p: Page, data: PageSeo, now: Timestamp): (q: Page)
    ensures q.metaTitle == Patch(data.metaTitle, p.metaTitle)
    ensures q.metaDescription == Patch(data.metaDescription, p.metaDescription)
    ensures q.ogImage == Patch(data.ogImage, p.ogImage)
    ensures q.updatedAt == now
    ensures q.(metaTitle := p.metaTitle, metaDescription := p.metaDescription, ogImage := p.ogImage,
               updatedAt := p.updatedAt) == p
  {
    p.(metaTitle := Patch(data.metaTitle, p.metaTitle), metaDescription := Patch(data.metaDescription, p.metaDescription),
       ogImage := Patch(data.ogImage, p.ogImage), updatedAt := now)
  }

  /** `updatePageSEO`. */
  function UpdatePageSeoSpec(t: Tables, pageId: Id, data: PageSeo, now: Timestamp, update: Outcome, log: Outcome): (e: Effect)
    ensures update.Fail? ==> e == Effect(t, Thrown(update.message))
    ensures update.Ok? ==>
      && e.response == Success
      && e.after.pages.Keys == t.pages.Keys
      && (forall k :: k in t.pages && k != pageId ==> e.after.pages[k] == t.pages[k])
      && (pageId in t.pages ==> e.after.pages[pageId] == EditedPageSeo(t.pages[pageId], data, now))
      && e.after.audit == t.audit + AuditLogger.Recorded(t.session, "update", "page", Some(pageId), Some(SeoFields(data)), log)
    ensures e.after.(pages := t.pages, audit := t.audit) == t
  {
    if update.Fail? then Effect(t, Thrown(update.message))
    else
      var pages := if pageId in t.pages then t.pages[pageId := EditedPageSeo(t.pages[pageId], data, now)] else t.pages;
      Effect(AuditLogger.Logged(t.(pages := pages), "update", "page", Some(pageId), Some(SeoFields(data)), log), Success)
  }

  method UpdatePageSeo(db: Backend, pageId: Id, data: PageSeo, now: Timestamp, update: Outcome, log: Outcome)
    returns (r: Response)
    modifies db
    ensures Effect(db.Tables(), r) == UpdatePageSeoSpec(old(db.Tables()), pageId, data, now, update, log)
  {
    if update.Fail? {
      return Thrown(update.message);
    }
    if pageId in db.pages {
      db.pages := db.pages[pageId := EditedPageSeo(db.pages[pageId], data, now)];
    }
    AuditLogger.LogAuditAction(db, "update", "page", Some(pageId), Some(SeoFields(data)), log);
    r := Success;
  }

  /** Whatever is submitted, a page's stored SEO score is the same afterwards. */
  lemma UpdatePageSeoKeepsScore(t: Tables, pageId: Id, data: PageSeo, now: Timestamp, update: Outcome, log: Outcome)
    requires pageId in t.pages
    ensures UpdatePageSeoSpec(t, pageId, data, now, update, log).after.pages[pageId].seoScore == t.pages[pageId].seoScore
  {
  }
}

=== FILE: seo_center.dfy ===
/**
 * components/admin/seo-center-client.tsx: the SEO score of a page, and the dashboard figures
 * built on it (the average score, the number of pages with issues, and the first four issues).
 */
module SeoCenter {
  import opened Common
  import opened Store
  import Text

  /** A page row as the SEO center lists it. */
  datatype Listed = Listed(id: Id, page: Page)

  /** `!x`: a null or empty text. */
  predicate Blank(o: Option<string>) {
    o.None? || o.value == ""
  }

  /** `!page.meta_title || page.meta_title.length < 30`. */
  predicate TitleShort(p: Page) {
    Blank(p.metaTitle) || Text.Utf16Length(p.metaTitle.value) < 30
  }

  /** `!page.meta_description || page.meta_description.length < 120`. */
  predicate DescriptionShort(p: Page) {
    Blank(p.metaDescription) || Text.Utf16Length(p.metaDescription.value) < 120
  }

  predicate SlugMissing(p: Page) {
    p.slug == ""
  }

  predicate Unpublished(p: Page) {
    p.status != "published"
  }

  /** All four checks pass. */
  predicate Complete(p: Page) {
    !TitleShort(p) && !DescriptionShort(p) && !SlugMissing(p) && !Unpublished(p)
  }

  /** The score before `Math.max(0, …)`: 100 less each failing check's weight. */
  function Unclamped(p: Page): (score: int)
    ensures 40 <= score <= 100
  {
    var s0 := 100;
    var s1 := if TitleShort(p) then s0 - 20 else s0;
    var s2 := if DescriptionShort(p) then s1 - 20 else s1;
    var s3 := if SlugMissing(p) then s2 - 10 else s2;
    var s4 := if Unpublished(p) then s3 - 10 else s3;
    s4
  }

  /**
   * `calculateSEOScore`. The four penalties total only 60, so the clamp at 0 never applies and the
   * score is at least 40; it is 100 exactly when every check passes.
   */
  function Score(p: Page): (score: int)
    ensures score == Unclamped(p)
    ensures 40 <= score <= 100
    ensures score % 10 == 0
    ensures score == 100 <==> Complete(p)
  {
    var s := Unclamped(p);
    if s < 0 then 0 else s
  }

  /** A good enough meta title removes exactly the title's 20 points, whatever else holds. */
  lemma TitleWeight(p: Page, title: string)
    requires title != "" && Text.Utf16Length(title) >= 30
    ensures Score(p.(metaTitle := Some(title))) == Score(p) + (if TitleShort(p) then 20 else 0)
  {
  }

  /** A good enough meta description removes exactly the description's 20 points. */
  lemma DescriptionWeight(p: Page, description: string)
    requires description != "" && Text.Utf16Length(description) >= 120
    ensures Score(p.(metaDescription := Some(description))) == Score(p) + (if DescriptionShort(p) then 20 else 0)
  {
  }

  /** A slug removes exactly the slug's 10 points. */
  lemma SlugWeight(p: Page, slug: string)
    requires slug != ""
    ensures Score(p.(slug := slug)) == Score(p) + (if SlugMissing(p) then 10 else 0)
  {
  }

  /** Publishing removes exactly the status's 10 points. */
  lemma PublishWeight(p: Page)
    ensures Score(p.(status := "published")) == Score(p) + (if Unpublished(p) then 10 else 0)
  {
  }

  /**
   * `q` is at least as far along as `p`: meta fields no shorter, a slug if `p` has one, published
   * if `p` is.
   */
  predicate AtLeastAsComplete(p: Page, q: Page) {
    && (!Blank(p.metaTitle) ==> !Blank(q.metaTitle) && Text.Utf16Length(p.metaTitle.value) <= Text.Utf16Length(q.metaTitle.value))
    && (!Blank(p.metaDescription) ==>
          !Blank(q.metaDescription) && Text.Utf16Length(p.metaDescription.value) <= Text.Utf16Length(q.metaDescription.value))
    && (p.slug != "" ==> q.slug != "")
    && (p.status == "published" ==> q.status == "published")
  }

  /** The score is monotone: lengthening the meta fields, adding a slug or publishing never lowers it. */
  lemma ScoreMonotone(p: Page, q: Page)
    requires AtLeastAsComplete(p, q)
    ensures Score(p) <= Score(q)
  {
  }

  // ---------------------------------------------------------------- dashboard figures

  /** `pages.reduce((sum, p) => sum + calculateSEOScore(p), 0)`. */
  function SumScores(pages: seq<Listed>): (sum: int)
    ensures 40 * |pages| <= sum <= 100 * |pages|
  {
    if pages == [] then 0 else SumScores(pages[..|pages| - 1]) + Score(pages[|pages| - 1].page)
  }

  /** `Math.round(sum / n)` for positive `n` is `floor((2 * sum + n) / (2 * n))`: it lies within half of the mean. */
  lemma RoundedMean(sum: int, n: int)
    requires n > 0 && 40 * n <= sum <= 100 * n
    ensures var avg := (2 * sum + n) / (2 * n);
      && 40 <= avg <= 100
      && 2 * avg * n - n <= 2 * sum < 2 * avg * n + n
  {
    var avg, rem := (2 * sum + n) / (2 * n), (2 * sum + n) % (2 * n);
    assert 2 * sum + n == 2 * n * avg + rem && 0 <= rem < 2 * n;
    assert 2 * avg * n == 2 * n * avg;
    assert 2 * n * (2 * avg - 79) > 0;
    assert 2 * n * (201 - 2 * avg) >= 0;
  }

  /**
   * `avgScore`: 0 for no pages, else `Math.round(sum / n)`, which is `floor(sum / n + 1/2)`:
   * the nearest integer to the mean, halves rounded up.
   */
  function AvgScore(pages: seq<Listed>): (avg: int)
    ensures pages == [] ==> avg == 0
    ensures pages != [] ==>
      var n, sum := |pages|, SumScores(pages);
      && 40 <= avg <= 100
      && 2 * avg * n - n <= 2 * sum < 2 * avg * n + n
  {
    if pages == [] then 0
    else
      var n, sum := |pages|, SumScores(pages);
      RoundedMean(sum, n);
      (2 * sum + n) / (2 * n)
  }

  /** `!p.meta_title || !p.meta_description || calculateSEOScore(p) < 80`. */
  predicate HasIssue(r: Listed) {
    Blank(r.page.metaTitle) || Blank(r.page.metaDescription) || Score(r.page) < 80
  }

  predicate IsPublished(r: Listed) {
    !Unpublished(r.page)
  }

  /** `publishedPages`: the number of pages whose status is exactly "published". */
  function PublishedCount(pages: seq<Listed>): (n: nat)
    ensures n == Count(pages, IsPublished) && n <= |pages|
  {
    FilterLength(pages, IsPublished);
    |Filter(pages, IsPublished)|
  }

  /** `issuesCount`: the number of pages with an issue. */
  function IssuesCount(pages: seq<Listed>): (n: nat)
    ensures n == Count(pages, HasIssue) && n <= |pages|
  {
    FilterLength(pages, HasIssue);
    |Filter(pages, HasIssue)|
  }

  /** A complete page has no issue; one that only misses the title's length, the slug or publishing has none either. */
  lemma IssueThreshold(r: Listed)
    requires !Blank(r.page.metaTitle) && !Blank(r.page.metaDescription)
    ensures HasIssue(r) <==> Score(r.page) <= 70
  {
  }

  /** One entry of the SEO issues list. */
  datatype Issue = Issue(page: string, issue: string, priority: string, impact: string, pageId: Id)

  /**
   * The issue shown for a page: a missing meta title comes first, then a missing meta description,
   * otherwise a general one; the priority is "high" exactly for the two missing fields.
   */
  function IssueOf(r: Listed): (i: Issue)
    ensures i.page == r.page.title && i.pageId == r.id
    ensures Blank(r.page.metaTitle) ==> i.issue == "Missing meta title"
    ensures !Blank(r.page.metaTitle) && Blank(r.page.metaDescription) ==> i.issue == "Missing meta description"
    ensures !Blank(r.page.metaTitle) && !Blank(r.page.metaDescription) ==> i.issue == "SEO optimization needed"
    ensures i.priority == "high" <==> Blank(r.page.metaTitle) || Blank(r.page.metaDescription)
    ensures i.priority == "high" || i.priority == "medium"
  {
    var missing := Blank(r.page.metaTitle) || Blank(r.page.metaDescription);
    Issue(r.page.title,
          if Blank(r.page.metaTitle) then "Missing meta title"
          else if Blank(r.page.metaDescription) then "Missing meta description"
          else "SEO optimization needed",
          if missing then "high" else "medium",
          if missing then "High - reduces visibility" else "Medium - minor improvements needed",
          r.id)
  }

  function IssuesOf(rows: seq<Listed>): (issues: seq<Issue>)
    ensures |issues| == |rows|
    ensures forall i :: 0 <= i < |rows| ==> issues[i] == IssueOf(rows[i])
  {
    seq(|rows|, i requires 0 <= i < |rows| => IssueOf(rows[i]))
  }

  /** `seoIssues`: the issues of the first four pages that have one, in page order. */
  function SeoIssues(pages: seq<Listed>): (issues: seq<Issue>)
    ensures |issues| <= 4 && |issues| == if IssuesCount(pages) < 4 then IssuesCount(pages) else 4
    ensures forall i :: 0 <= i < |issues| ==> issues[i] == IssueOf(Filter(pages, HasIssue)[i])
  {
    IssuesOf(Take(Filter(pages, HasIssue), 4))
  }

  /**
   * The pages behind the listed issues are pages with an issue, taken in order: a prefix of the
   * pages counted by issuesCount, which keep the dashboard's order.
   */
  lemma SeoIssuesFromIssuePages(pages: seq<Listed>)
    ensures var shown := Take(Filter(pages, HasIssue), 4);
      && SeoIssues(pages) == IssuesOf(shown)
      && IsSubsequence(Filter(pages, HasIssue), pages)
      && forall r :: r in shown ==> r in pages && HasIssue(r)
  {
    FilterSpec(pages, HasIssue);
  }

  /** A listed issue has the high priority exactly when it names a missing field. */
  lemma HighPriorityIffMissingField(r: Listed)
    ensures IssueOf(r).priority == "high" <==> IssueOf(r).issue != "SEO optimization needed"
  {
  }
}

=== FILE: service_actions.dfy ===
/**
 * app/admin/services/actions.ts: delete, duplicate, create and update rows of the `services`
 * table. Every failure throws an `Error` with a fixed message before the audit call.
 */
module ServiceActions {
  import opened Common
  import opened Store
  import Text
  import AuditLogger

  /** The audit label of deleteService: the title the pre-read found, else "Service". */
  function DeleteLabel(found: Option<Service>): (name: string)
    ensures found.None? || found.value.fields.title == "" ==> name == "Service"
    ensures found.Some? && found.value.fields.title != "" ==> name == found.value.fields.title
  {
    if found.Some? then Text.Or(found.value.fields.title, "Service") else "Service"
  }

  /** `deleteService`. */
  function DeleteServiceSpec(t: Tables, id: Id, read: Outcome, delete: Outcome, log: Outcome): (e: Effect)
    ensures delete.Fail? ==> e == Effect(t, Thrown("Failed to delete service"))
    ensures delete.Ok? ==>
      && e.response == Success
      && e.after.services == t.services - {id}
      && e.after.audit == t.audit + AuditLogger.Recorded(t.session, "delete", "services", Some(id),
                                                         Some(Label(DeleteLabel(ReadRow(t.services, id, read)))), log)
    ensures e.after.(services := t.services, audit := t.audit) == t
  {
    var service := ReadRow(t.services, id, read);
    if delete.Fail? then Effect(t, Thrown("Failed to delete service"))
    else
      Effect(AuditLogger.Logged(t.(services := t.services - {id}), "delete", "services", Some(id),
                                Some(Label(DeleteLabel(service))), log), Success)
  }

  method DeleteService(db: Backend, id: Id, read: Outcome, delete: Outcome, log: Outcome) returns (r: Response)
    modifies db
    ensures Effect(db.Tables(), r) == DeleteServiceSpec(old(db.Tables()), id, read, delete, log)
  {
    var service := ReadRow(db.services, id, read);
    if delete.Fail? {
      return Thrown("Failed to delete service");
    }
    db.services := db.services - {id};
    AuditLogger.LogAuditAction(db, "delete", "services", Some(id), Some(Label(DeleteLabel(service))), log);
    r := Success;
  }

  /**
   * The row duplicateService inserts: every column of the original except `id`, `created_at` and
   * `updated_at` (which the database fills in anew), with title, slug and status overridden.
   */
  function ServiceCopy(s: Service, now: Timestamp): (c: Service)
    ensures c.fields == s.fields.(title := s.fields.title + " (Copy)", slug := s.fields.slug + "-copy", status := "draft")
    ensures c.seoScore == s.seoScore
    ensures c.createdAt == now && c.updatedAt == now
  {
    var f := s.fields;
    Service(ServiceForm(f.title + " (Copy)", f.slug + "-copy", f.description, f.content, f.icon, "draft",
                        f.seoTitle, f.seoDescription),
            s.seoScore, now, now)
  }

  /** `duplicateService`. */
  function DuplicateServiceSpec(t: Tables, id: Id, newId: Id, now: Timestamp, fetch: Outcome, insert: Outcome,
                                log: Outcome): (e: Effect)
    requires newId !in t.services
    ensures ReadRow(t.services, id, fetch).None? ==> e == Effect(t, Thrown("Failed to fetch service"))
    ensures ReadRow(t.services, id, fetch).Some? && insert.Fail? ==> e == Effect(t, Thrown("Failed to duplicate service"))
    ensures ReadRow(t.services, id, fetch).Some? && insert.Ok? ==>
      && e.response == Success
      && e.after.services == t.services[newId := ServiceCopy(t.services[id], now)]
      && e.after.audit == t.audit + AuditLogger.Recorded(t.session, "create", "services", Some(newId),
                                                         Some(Label("Duplicated: " + e.after.services[newId].fields.title)), log)
    ensures e.after.(services := t.services, audit := t.audit) == t
  {
    var original := ReadRow(t.services, id, fetch);
    if original.None? then Effect(t, Thrown("Failed to fetch service"))
    else if insert.Fail? then Effect(t, Thrown("Failed to duplicate service"))
    else
      var copy := ServiceCopy(original.value, now);
      Effect(AuditLogger.Logged(t.(services := t.services[newId := copy]), "create", "services", Some(newId),
                                Some(Label("Duplicated: " + copy.fields.title)), log), Success)
  }

  method DuplicateService(db: Backend, id: Id, newId: Id, now: Timestamp, fetch: Outcome, insert: Outcome, log: Outcome)
    returns (r: Response)
    requires newId !in db.services
    modifies db
    ensures Effect(db.Tables(), r) == DuplicateServiceSpec(old(db.Tables()), id, newId, now, fetch, insert, log)
  {
    var original := ReadRow(db.services, id, fetch);
    if original.None? {
      return Thrown("Failed to fetch service");
    }
    if insert.Fail? {
      return Thrown("Failed to duplicate service");
    }
    var copy := ServiceCopy(original.value, now);
    db.services := db.services[newId := copy];
    AuditLogger.LogAuditAction(db, "create", "services", Some(newId), Some(Label("Duplicated: " + copy.fields.title)), log);
    r := Success;
  }

  /** `createService`: the submitted fields, with `seo_score` 0. */
  function CreateServiceSpec(t: Tables, data: ServiceForm, newId: Id, now: Timestamp, insert: Outcome, log: Outcome): (e: Effect)
    requires newId !in t.services
    ensures insert.Fail? ==> e == Effect(t, Thrown("Failed to create service"))
    ensures insert.Ok? ==>
      && e.response == Success
      && e.after.services.Keys == t.services.Keys + {newId}
      && (forall k :: k in t.services ==> e.after.services[k] == t.services[k])
      && e.after.services[newId].fields == data
      && e.after.services[newId].seoScore == 0
      && e.after.audit == t.audit + AuditLogger.Recorded(t.session, "create", "services", Some(newId), Some(Label(data.title)), log)
    ensures e.after.(services := t.services, audit := t.audit) == t
  {
    if insert.Fail? then Effect(t, Thrown("Failed to create service"))
    else
      Effect(AuditLogger.Logged(t.(services := t.services[newId := Service(data, 0, now, now)]), "create", "services",
                                Some(newId), Some(Label(data.title)), log), Success)
  }

  method CreateService(db: Backend, data: ServiceForm, newId: Id, now: Timestamp, insert: Outcome, log: Outcome)
    returns (r: Response)
    requires newId !in db.services
    modifies db
    ensures Effect(db.Tables(), r) == CreateServiceSpec(old(db.Tables()), data, newId, now, insert, log)
  {
    if insert.Fail? {
      return Thrown("Failed to create service");
    }
    db.services := db.services[newId := Service(data, 0, now, now)];
    AuditLogger.LogAuditAction(db, "create", "services", Some(newId), Some(Label(data.title)), log);
    r := Success;
  }

  /**
   * The row after updateService: `{ ...data, updated_at }`. The optional fields that are
   * `undefined` are not sent, so those columns keep their values; `seo_score` is never written.
   */
  function EditedService(s: Service, data: ServiceForm, now: Timestamp): (r: Service)
    ensures r.fields.title == data.title && r.fields.slug == data.slug && r.fields.status == data.status
    ensures r.fields.description == data.description && r.fields.content == data.content
    ensures r.fields.icon == (if data.icon.Some? then data.icon else s.fields.icon)
    ensures r.fields.seoTitle == (if data.seoTitle.Some? then data.seoTitle else s.fields.seoTitle)
    ensures r.fields.seoDescription == (if data.seoDescription.Some? then data.seoDescription else s.fields.seoDescription)
    ensures r.seoScore == s.seoScore && r.createdAt == s.createdAt && r.updatedAt == now
  {
    var f := data.(icon := Patch(data.icon, s.fields.icon), seoTitle := Patch(data.seoTitle, s.fields.seoTitle),
                   seoDescription := Patch(data.seoDescription, s.fields.seoDescription));
    s.(fields := f, updatedAt := now)
  }

  /** `updateService`. */
  function UpdateServiceSpec(t: Tables, id: Id, data: ServiceForm, now: Timestamp, update: Outcome, log: Outcome): (e: Effect)
    ensures update.Fail? ==> e == Effect(t, Thrown("Failed to update service"))
    ensures update.Ok? ==>
      && e.response == Success
      && e.after.services.Keys == t.services.Keys
      && (forall k :: k in t.services && k != id ==> e.after.services[k] == t.services[k])
      && (id in t.services ==> e.after.services[id] == EditedService(t.services[id], data, now))
      && e.after.audit == t.audit + AuditLogger.Recorded(t.session, "update", "services", Some(id), Some(Label(data.title)), log)
    ensures e.after.(services := t.services, audit := t.audit) == t
  {
    if update.Fail? then Effect(t, Thrown("Failed to update service"))
    else
      var services := if id in t.services then t.services[id := EditedService(t.services[id], data, now)] else t.services;
      Effect(AuditLogger.Logged(t.(services := services), "update", "services", Some(id), Some(Label(data.title)), log), Success)
  }

  method UpdateService(db: Backend, id: Id, data: ServiceForm, now: Timestamp, update: Outcome, log: Outcome)
    returns (r: Response)
    modifies db
    ensures Effect(db.Tables(), r) == UpdateServiceSpec(old(db.Tables()), id, data, now, update, log)
  {
    if update.Fail? {
      return Thrown("Failed to update service");
    }
    if id in db.services {
      db.services := db.services[id := EditedService(db.services[id], data, now)];
    }
    AuditLogger.LogAuditAction(db, "update", "services", Some(id), Some(Label(data.title)), log);
    r := Success;
  }
}

=== FILE: service_form_dialog.dfy ===
/**
 * components/admin/service-form-dialog.tsx: the service dialog's form state, which is what it
 * submits to createService / updateService, its defaults, and the slug regenerated when the title
 * field loses focus.
 */
module ServiceFormDialog {
  import opened Common
  import opened Store
  import Text
  import Slug

  /**
   * The form state the dialog opens with: each empty field of the service replaced by its default
   * (`service?.x || default`); a new service is a draft with the "Wrench" icon. Every field of the
   * state is text, so the optional columns are always present.
   */
  function InitialForm(service: Option<ServiceForm>): (f: ServiceForm)
    ensures service.None? ==> f == ServiceForm("", "", "", "", Some("Wrench"), "draft", Some(""), Some(""))
    ensures service.Some? ==>
      && f.icon == Some(Text.OrElse(service.value.icon, "Wrench"))
      && f.status == Text.Or(service.value.status, "draft")
    ensures service.Some? ==>
      var s := service.value;
      && f.title == s.title && f.slug == s.slug && f.description == s.description && f.content == s.content
      && f.seoTitle == Some(Text.OrElse(s.seoTitle, "")) && f.seoDescription == Some(Text.OrElse(s.seoDescription, ""))
    ensures f.icon.Some? && f.seoTitle.Some? && f.seoDescription.Some?
  {
    match service
    case None => ServiceForm("", "", "", "", Some("Wrench"), "draft", Some(""), Some(""))
    case Some(s) =>
      ServiceForm(Text.Or(s.title, ""), Text.Or(s.slug, ""), Text.Or(s.description, ""), Text.Or(s.content, ""),
                  Some(Text.OrElse(s.icon, "Wrench")), Text.Or(s.status, "draft"),
                  Some(Text.OrElse(s.seoTitle, "")), Some(Text.OrElse(s.seoDescription, "")))
  }

  /** A service whose fields are all filled in. */
  predicate Filled(s: ServiceForm) {
    && s.status != ""
    && s.icon.Some? && s.icon.value != ""
    && s.seoTitle.Some? && s.seoDescription.Some?
  }

  /**
   * Opening a service and saving it unchanged submits the service itself, once its status and icon
   * are set and its SEO fields are present; an empty status or icon is replaced by the default.
   */
  lemma ReopenSubmitsSameService(s: ServiceForm)
    ensures Filled(s) <==> InitialForm(Some(s)) == s
  {
  }

  /**
   * `generateSlug`, run when the title field loses focus, for a new service and an existing one
   * alike: the slug becomes the title's slug and nothing else changes.
   */
  function GenerateSlug(f: ServiceForm): (g: ServiceForm)
    ensures g.slug == Slug.Slugify(f.title) && Slug.IsCleanSlug(g.slug)
    ensures g.(slug := f.slug) == f
  {
    f.(slug := Slug.Slugify(f.title))
  }

  /** A title that is already a clean slug becomes the slug as it is. */
  lemma SlugTitleKept(f: ServiceForm)
    requires Slug.IsCleanSlug(f.title)
    ensures GenerateSlug(f).slug == f.title
  {
    Slug.SlugifyFixesCleanSlug(f.title);
  }
}

=== FILE: settings_actions.dfy ===
/**
 * app/admin/settings/actions.ts: read the site settings row, and write the settings form into it.
 * The form decoding is pure; the write updates the one existing row or inserts a new one. No audit
 * entry is written for settings.
 */
module SettingsActions {
  import opened Common
  import opened Store
  import NavJson

  /** The names of the fields updateSettings reads from the submitted form. */
  datatype Field =
    | SiteName | SiteTagline | ContactEmail | PrimaryColor | SecondaryColor | AccentColor | HeadingFont | BodyFont
    | Navigation | FooterText | ShowSocialLinks | BannerEnabled | BannerText | SeoTitle | SeoDescription | SeoOgImage
    | EnableSitemap | RobotsTxt | NewLeadNotifications | WeeklyReports | SeoAlerts

  /** The name each field is sent under. */
  function FieldName(f: Field): string {
    match f
    case SiteName => "site_name"
    case SiteTagline => "site_tagline"
    case ContactEmail => "contact_email"
    case PrimaryColor => "primary_color"
    case SecondaryColor => "secondary_color"
    case AccentColor => "accent_color"
    case HeadingFont => "heading_font"
    case BodyFont => "body_font"
    case Navigation => "navigation"
    case FooterText => "footer_text"
    case ShowSocialLinks => "show_social_links"
    case BannerEnabled => "announcement_banner_enabled"
    case BannerText => "announcement_banner_text"
    case SeoTitle => "seo_title"
    case SeoDescription => "seo_description"
    case SeoOgImage => "seo_og_image"
    case EnableSitemap => "enable_sitemap"
    case RobotsTxt => "robots_txt"
    case NewLeadNotifications => "new_lead_notifications"
    case WeeklyReports => "weekly_reports"
    case SeoAlerts => "seo_alerts"
  }

  /**
   * The submitted form data as updateSettings reads it: for each field, the first value appended
   * under its name (the one `formData.get` returns), or None when nothing was appended under it.
   */
  datatype FormData = FormData(
    siteName: Option<string>,
    siteTagline: Option<string>,
    contactEmail: Option<string>,
    primaryColor: Option<string>,
    secondaryColor: Option<string>,
    accentColor: Option<string>,
    headingFont: Option<string>,
    bodyFont: Option<string>,
    navigation: Option<string>,
    footerText: Option<string>,
    showSocialLinks: Option<string>,
    bannerEnabled: Option<string>,
    bannerText: Option<string>,
    seoTitle: Option<string>,
    seoDescription: Option<string>,
    seoOgImage: Option<string>,
    enableSitemap: Option<string>,
    robotsTxt: Option<string>,
    newLeadNotifications: Option<string>,
    weeklyReports: Option<string>,
    seoAlerts: Option<string>)

  /** A form with nothing appended. */
  const EmptyForm := FormData(None, None, None, None, None, None, None, None, None, None, None, None, None, None, None, None, None, None, None, None, None)

  /** `formData.get(FieldName(name))`. */
  function Get(form: FormData, name: Field): Option<string> {
    match name
    case SiteName => form.siteName
    case SiteTagline => form.siteTagline
    case ContactEmail => form.contactEmail
    case PrimaryColor => form.primaryColor
    case SecondaryColor => form.secondaryColor
    case AccentColor => form.accentColor
    case HeadingFont => form.headingFont
    case BodyFont => form.bodyFont
    case Navigation => form.navigation
    case FooterText => form.footerText
    case ShowSocialLinks => form.showSocialLinks
    case BannerEnabled => form.bannerEnabled
    case BannerText => form.bannerText
    case SeoTitle => form.seoTitle
    case SeoDescription => form.seoDescription
    case SeoOgImage => form.seoOgImage
    case EnableSitemap => form.enableSitemap
    case RobotsTxt => form.robotsTxt
    case NewLeadNotifications => form.newLeadNotifications
    case WeeklyReports => form.weeklyReports
    case SeoAlerts => form.seoAlerts
  }

  /** The form with `value` stored as the field's value. */
  function Put(form: FormData, name: Field, value: string): FormData {
    match name
    case SiteName => form.(siteName := Some(value))
    case SiteTagline => form.(siteTagline := Some(value))
    case ContactEmail => form.(contactEmail := Some(value))
    case PrimaryColor => form.(primaryColor := Some(value))
    case SecondaryColor => form.(secondaryColor := Some(value))
    case AccentColor => form.(accentColor := Some(value))
    case HeadingFont => form.(headingFont := Some(value))
    case BodyFont => form.(bodyFont := Some(value))
    case Navigation => form.(navigation := Some(value))
    case FooterText => form.(footerText := Some(value))
    case ShowSocialLinks => form.(showSocialLinks := Some(value))
    case BannerEnabled => form.(bannerEnabled := Some(value))
    case BannerText => form.(bannerText := Some(value))
    case SeoTitle => form.(seoTitle := Some(value))
    case SeoDescription => form.(seoDescription := Some(value))
    case SeoOgImage => form.(seoOgImage := Some(value))
    case EnableSitemap => form.(enableSitemap := Some(value))
    case RobotsTxt => form.(robotsTxt := Some(value))
    case NewLeadNotifications => form.(newLeadNotifications := Some(value))
    case WeeklyReports => form.(weeklyReports := Some(value))
    case SeoAlerts => form.(seoAlerts := Some(value))
  }

  /**
   * `formData.append(name, value)` seen through `get`: the first value appended under a name is
   * the one `get` returns, so a later one leaves the form as it was.
   */
  function Append(form: FormData, name: Field, value: string): FormData {
    if Get(form, name).Some? then form else Put(form, name, value)
  }

  /** `get` after `append`: the first value under the name wins, and no other name is affected. */
  lemma AppendFirstWins(form: FormData, name: Field, value: string)
    ensures Get(form, name).None? ==> Get(Append(form, name, value), name) == Some(value)
    ensures Get(form, name).Some? ==> Append(form, name, value) == form
    ensures forall f :: f != name ==> Get(Append(form, name, value), f) == Get(form, f)
  {
  }

  /** `formData.get(name) === "true"`. */
  predicate IsTrue(field: Option<string>) {
    field == Some("true")
  }

  /**
   * The `navigation` field: a missing or empty field gives [], and so does a text that does not
   * parse (the exception is caught).
   */
  function DecodeNavigation(field: Option<string>): (items: seq<NavItem>)
    ensures field.None? || field.value == "" ==> items == []
    ensures field.Some? && NavJson.Decode(field.value).Some? ==> items == NavJson.Decode(field.value).value
    ensures field.Some? && NavJson.Decode(field.value).None? ==> items == []
  {
    if field.None? || field.value == "" then []
    else match NavJson.Decode(field.value)
      case Some(items) => items
      case None => []
  }

  /** The `settings` record updateSettings writes: text fields as submitted, booleans from "true". */
  function DecodeSettings(form: FormData): SiteSettings
  {
    SiteSettings(
      form.siteName,
      form.siteTagline,
      form.contactEmail,
      form.primaryColor,
      form.secondaryColor,
      form.accentColor,
      form.headingFont,
      form.bodyFont,
      DecodeNavigation(form.navigation),
      form.footerText,
      IsTrue(form.showSocialLinks),
      IsTrue(form.bannerEnabled),
      form.bannerText,
      form.seoTitle,
      form.seoDescription,
      form.seoOgImage,
      IsTrue(form.enableSitemap),
      form.robotsTxt,
      IsTrue(form.newLeadNotifications),
      IsTrue(form.weeklyReports),
      IsTrue(form.seoAlerts))
  }

  /** Any value other than the exact text "true" (such as "on", "TRUE" or "1") reads as false. */
  lemma OnlyTrueIsTrue(form: FormData, value: string)
    requires value != "true"
    ensures !DecodeSettings(form.(showSocialLinks := Some(value))).showSocialLinks
  {
  }

  /**
   * `.select("*").single()` on the whole table. The row comes back only when the call succeeds
   * and the table holds exactly one row; no row, several rows (both reported as code PGRST116) and
   * any other error all give null.
   */
  function SingleRow(rows: seq<SettingsRow>, call: Outcome): (r: Option<SettingsRow>)
    ensures r.Some? <==> call.Ok? && |rows| == 1
    ensures r.Some? ==> r == Some(rows[0]) && r.value in rows
  {
    if call.Ok? && |rows| == 1 then Some(rows[0]) else None
  }

  /** `getSettings`: whatever `.single()` returns, whichever kind of row it is. */
  method GetSettings(db: Backend, call: Outcome) returns (r: Option<SettingsRow>)
    ensures r == SingleRow(db.siteSettings, call)
    ensures r.Some? <==> call.Ok? && |db.siteSettings| == 1
  {
    if call.Fail? || |db.siteSettings| != 1 {
      return None;
    }
    r := Some(db.siteSettings[0]);
  }

  /**
   * `.select("id").maybeSingle()` found a row: the call succeeded and the table holds exactly one
   * row (several rows are an error, which yields no row).
   */
  predicate HasRow(rows: seq<SettingsRow>, lookup: Outcome) {
    lookup.Ok? && |rows| == 1
  }

  /** `updateSettings`: update the single row in place, or else insert a row. */
  function UpdateSettingsSpec(t: Tables, form: FormData, newId: Id, lookup: Outcome, write: Outcome): (e: Effect)
    ensures write.Fail? ==> e == Effect(t, Returned(write.message))
    ensures write.Ok? && HasRow(t.siteSettings, lookup) ==>
      e == Effect(t.(siteSettings := [SettingsRow(t.siteSettings[0].id, DecodeSettings(form))]), Success)
    ensures write.Ok? && !HasRow(t.siteSettings, lookup) ==>
      e == Effect(t.(siteSettings := t.siteSettings + [SettingsRow(newId, DecodeSettings(form))]), Success)
    ensures e.after.audit == t.audit
  {
    var settings := DecodeSettings(form);
    if HasRow(t.siteSettings, lookup) then
      if write.Fail? then Effect(t, Returned(write.message))
      else Effect(t.(siteSettings := [SettingsRow(t.siteSettings[0].id, settings)]), Success)
    else
      if write.Fail? then Effect(t, Returned(write.message))
      else Effect(t.(siteSettings := t.siteSettings + [SettingsRow(newId, settings)]), Success)
  }

  method UpdateSettings(db: Backend, form: FormData, newId: Id, lookup: Outcome, write: Outcome) returns (r: Response)
    modifies db
    ensures Effect(db.Tables(), r) == UpdateSettingsSpec(old(db.Tables()), form, newId, lookup, write)
  {
    var settings := DecodeSettings(form);
    if lookup.Ok? && |db.siteSettings| == 1 {
      // update the existing row
      if write.Fail? {
        return Returned(write.message);
      }
      db.siteSettings := [SettingsRow(db.siteSettings[0].id, settings)];
    } else {
      // insert new settings
      if write.Fail? {
        return Returned(write.message);
      }
      db.siteSettings := db.siteSettings + [SettingsRow(newId, settings)];
    }
    r := Success;
  }

  /**
   * From an empty table or a single row, a successful save leaves exactly one row, holding the
   * submitted settings.
   */
  lemma SaveLeavesOneRow(t: Tables, form: FormData, newId: Id)
    requires |t.siteSettings| <= 1
    ensures
      var after := UpdateSettingsSpec(t, form, newId, Ok, Ok).after.siteSettings;
      |after| == 1 && after[0].fields == DecodeSettings(form)
  {
  }

  /**
   * The single-row shape is not restored once lost: with two rows the lookup reports an error and
   * a save inserts a third row.
   */
  lemma SaveWithTwoRowsAddsAThird(t: Tables, form: FormData, newId: Id)
    requires |t.siteSettings| == 2
    ensures |UpdateSettingsSpec(t, form, newId, Ok, Ok).after.siteSettings| == 3
  {
  }

  /** A failed lookup on a single row also inserts a second row. */
  lemma FailedLookupAddsRow(t: Tables, form: FormData, newId: Id, msg: string)
    requires |t.siteSettings| == 1
    ensures |UpdateSettingsSpec(t, form, newId, Fail(msg), Ok).after.siteSettings| == 2
  {
  }
}

=== FILE: settings_client.dfy ===
/**
 * components/admin/settings-client.tsx: the settings screen's state, its defaults, the editing of
 * the navigation list, and `handleSave`, which writes the state into a form for updateSettings.
 */
module SettingsClient {
  import opened Common
  import opened Store
  import Text
  import NavJson
  import SettingsActions

  /** The screen's state: one value per input; text inputs hold text, switches booleans. */
  datatype State = State(
    siteName: string,
    tagline: string,
    contactEmail: string,
    primaryColor: string,
    secondaryColor: string,
    accentColor: string,
    headingFont: string,
    bodyFont: string,
    navigation: seq<NavItem>,
    footerText: string,
    showSocialLinks: bool,
    bannerEnabled: bool,
    bannerText: string,
    seoTitle: string,
    seoDescription: string,
    seoOgImage: string,
    enableSitemap: bool,
    robotsTxt: string,
    newLeadNotifications: bool,
    weeklyReports: bool,
    seoAlerts: bool)

  /** The navigation shown when no settings are stored. */
  const DefaultNavigation: seq<NavItem> := [
    NavItem("Home", "/"),
    NavItem("About", "/about"),
    NavItem("Services", "/services"),
    NavItem("Case Studies", "/case-studies"),
    NavItem("Blog", "/blog"),
    NavItem("Contact", "/contact")]

  /** The state shown when no settings are stored. */
  const Defaults := State(
    "Copernicus",
    "Digital Transformation Experts",
    "hello@copernicus.com",
    "#f05a22",
    "#1e1e1e",
    "#ffffff",
    "geist",
    "geist",
    DefaultNavigation,
    "© 2026 Copernicus. All rights reserved.",
    true,
    false,
    "",
    "Copernicus - Digital Transformation",
    "We help businesses transform digitally with web development, SEO, and brand strategy.",
    "https://copernicus.com/og-image.jpg",
    true,
    "User-agent: *\nAllow: /\nSitemap: https://copernicus.com/sitemap.xml",
    true,
    true,
    true)

  /**
   * The initial state from the stored settings. Text fields use `||`, so a stored empty text is
   * replaced by its default; switches use `??`, so a stored false is kept; the navigation list is
   * an array, and an array is truthy even when empty, so a stored list is kept as it is.
   */
  function InitialState(stored: Option<SiteSettings>): (s: State)
    ensures stored.None? ==> s == Defaults && |s.navigation| == 6
    ensures stored.Some? ==>
      && s.navigation == stored.value.navigation
      && s.showSocialLinks == stored.value.showSocialLinks && s.bannerEnabled == stored.value.bannerEnabled
      && s.enableSitemap == stored.value.enableSitemap && s.newLeadNotifications == stored.value.newLeadNotifications
      && s.weeklyReports == stored.value.weeklyReports && s.seoAlerts == stored.value.seoAlerts
    ensures stored.Some? ==>
      var v := stored.value;
      && s.siteName == Text.OrElse(v.siteName, Defaults.siteName)
      && s.tagline == Text.OrElse(v.siteTagline, Defaults.tagline)
      && s.contactEmail == Text.OrElse(v.contactEmail, Defaults.contactEmail)
      && s.primaryColor == Text.OrElse(v.primaryColor, Defaults.primaryColor)
      && s.secondaryColor == Text.OrElse(v.secondaryColor, Defaults.secondaryColor)
      && s.accentColor == Text.OrElse(v.accentColor, Defaults.accentColor)
      && s.headingFont == Text.OrElse(v.headingFont, Defaults.headingFont)
      && s.bodyFont == Text.OrElse(v.bodyFont, Defaults.bodyFont)
    ensures stored.Some? ==>
      var v := stored.value;
      && s.footerText == Text.OrElse(v.footerText, Defaults.footerText)
      && s.bannerText == Text.OrElse(v.bannerText, Defaults.bannerText)
      && s.seoTitle == Text.OrElse(v.seoTitle, Defaults.seoTitle)
      && s.seoDescription == Text.OrElse(v.seoDescription, Defaults.seoDescription)
      && s.seoOgImage == Text.OrElse(v.seoOgImage, Defaults.seoOgImage)
      && s.robotsTxt == Text.OrElse(v.robotsTxt, Defaults.robotsTxt)
  {
    match stored
    case None => Defaults
    case Some(v) =>
      State(
        Text.OrElse(v.siteName, Defaults.siteName),
        Text.OrElse(v.siteTagline, Defaults.tagline),
        Text.OrElse(v.contactEmail, Defaults.contactEmail),
        Text.OrElse(v.primaryColor, Defaults.primaryColor),
        Text.OrElse(v.secondaryColor, Defaults.secondaryColor),
        Text.OrElse(v.accentColor, Defaults.accentColor),
        Text.OrElse(v.headingFont, Defaults.headingFont),
        Text.OrElse(v.bodyFont, Defaults.bodyFont),
        v.navigation,
        Text.OrElse(v.footerText, Defaults.footerText),
        v.showSocialLinks,
        v.bannerEnabled,
        Text.OrElse(v.bannerText, Defaults.bannerText),
        Text.OrElse(v.seoTitle, Defaults.seoTitle),
        Text.OrElse(v.seoDescription, Defaults.seoDescription),
        Text.OrElse(v.seoOgImage, Defaults.seoOgImage),
        v.enableSitemap,
        Text.OrElse(v.robotsTxt, Defaults.robotsTxt),
        v.newLeadNotifications,
        v.weeklyReports,
        v.seoAlerts)
  }

  /**
   * The settings page hands getSettings' row to the screen. A keyed record holds none of the
   * settings columns, so each `initialSettings?.x || default` and `?? default` falls back, and the
   * screen opens as when nothing is stored.
   */
  function ScreenFor(row: Option<SettingsRow>): (s: State)
    ensures row.Some? && row.value.SettingsRow? ==> s == InitialState(Some(row.value.fields))
    ensures row.None? || row.value.KeyedRecord? ==> s == Defaults
  {
    if row.Some? && row.value.SettingsRow? then InitialState(Some(row.value.fields)) else InitialState(None)
  }

  /** A stored false switch is kept, while a stored empty text field shows its default. */
  lemma StoredFalseKeptEmptyTextReplaced(v: SiteSettings)
    requires !v.showSocialLinks && v.siteName == Some("")
    ensures !InitialState(Some(v)).showSocialLinks
    ensures InitialState(Some(v)).siteName == "Copernicus"
  {
  }

  // ---------------------------------------------------------------- navigation list

  /** `addNavItem`: an empty entry at the end. */
  function AddNavItem(navigation: seq<NavItem>): (r: seq<NavItem>)
    ensures |r| == |navigation| + 1
    ensures r[..|navigation|] == navigation && r[|navigation|] == NavItem("", "")
  {
    navigation + [NavItem("", "")]
  }

  /** `navigation.filter((_, i) => i !== index)`, walking the list from position `at`. */
  function DropIndex(navigation: seq<NavItem>, index: int, at: int): (r: seq<NavItem>)
    decreases |navigation|
  {
    if navigation == [] then []
    else (if at != index then [navigation[0]] else []) + DropIndex(navigation[1..], index, at + 1)
  }

  /** Walking from `at`, the entry at position `index` is the only one dropped. */
  lemma {:induction false} DropIndexSpec(navigation: seq<NavItem>, index: int, at: int)
    ensures at <= index < at + |navigation| ==>
      DropIndex(navigation, index, at) == navigation[..index - at] + navigation[index - at + 1..]
    ensures !(at <= index < at + |navigation|) ==> DropIndex(navigation, index, at) == navigation
    decreases |navigation|
  {
    if navigation != [] {
      var head, tail := navigation[0], navigation[1..];
      var rest := DropIndex(tail, index, at + 1);
      assert DropIndex(navigation, index, at) == (if at != index then [head] else []) + rest;
      DropIndexSpec(tail, index, at + 1);
      if at == index {
        assert rest == tail;
        assert navigation[..0] + navigation[1..] == tail;
      } else if at < index < at + |navigation| {
        var k := index - at;
        assert rest == tail[..k - 1] + tail[k..];
        assert navigation[..k] == [head] + tail[..k - 1];
        assert navigation[k + 1..] == tail[k..];
        assert [head] + (tail[..k - 1] + tail[k..]) == ([head] + tail[..k - 1]) + tail[k..];
      } else {
        assert rest == tail;
        assert [head] + tail == navigation;
      }
    }
  }

  /**
   * `removeNavItem(index)`: exactly the entry at `index` goes, the others keep their order; an
   * index outside the list removes nothing.
   */
  function RemoveNavItem(navigation: seq<NavItem>, index: int): (r: seq<NavItem>)
    ensures 0 <= index < |navigation| ==> r == navigation[..index] + navigation[index + 1..] && |r| == |navigation| - 1
    ensures !(0 <= index < |navigation|) ==> r == navigation
  {
    DropIndexSpec(navigation, index, 0);
    DropIndex(navigation, index, 0)
  }

  /** Adding an entry and removing it again gives the list back. */
  lemma RemoveAddedItem(navigation: seq<NavItem>)
    ensures RemoveNavItem(AddNavItem(navigation), |navigation|) == navigation
  {
    var added := AddNavItem(navigation);
    assert added[..|navigation|] == navigation;
  }

  datatype NavField = LabelField | UrlField

  /** An entry with one field replaced. */
  function SetField(item: NavItem, field: NavField, value: string): (r: NavItem)
    ensures field == LabelField ==> r.text == value && r.url == item.url
    ensures field == UrlField ==> r.url == value && r.text == item.text
  {
    match field
    case LabelField => item.(text := value)
    case UrlField => item.(url := value)
  }

  /**
   * `updateNavItem(index, field, value)`: a copy of the list whose entry at `index` has `field`
   * set. The screen only calls it with the index of a displayed entry.
   */
  method UpdateNavItem(navigation: seq<NavItem>, index: nat, field: NavField, value: string) returns (r: seq<NavItem>)
    requires index < |navigation|
    ensures |r| == |navigation|
    ensures forall j :: 0 <= j < |r| && j != index ==> r[j] == navigation[j]
    ensures r[index] == SetField(navigation[index], field, value)
  {
    var updated := new NavItem[|navigation|](j requires 0 <= j < |navigation| => navigation[j]);
    updated[index] := SetField(updated[index], field, value);
    r := updated[..];
  }

  // ---------------------------------------------------------------- saving

  /** `b.toString()`. */
  function BoolText(b: bool): (t: string)
    ensures t == "true" <==> b
  {
    if b then "true" else "false"
  }

  /** The settings record the screen's state stands for, as updateSettings should store it. */
  function Saved(s: State): (r: SiteSettings)
    ensures r.navigation == s.navigation && r.siteName == Some(s.siteName)
  {
    SiteSettings(Some(s.siteName), Some(s.tagline), Some(s.contactEmail), Some(s.primaryColor),
                 Some(s.secondaryColor), Some(s.accentColor), Some(s.headingFont), Some(s.bodyFont), s.navigation,
                 Some(s.footerText), s.showSocialLinks, s.bannerEnabled, Some(s.bannerText), Some(s.seoTitle),
                 Some(s.seoDescription), Some(s.seoOgImage), s.enableSitemap, Some(s.robotsTxt),
                 s.newLeadNotifications, s.weeklyReports, s.seoAlerts)
  }

  /** The form handleSave submits: every field filled, switches as "true" or "false". */
  function Submitted(s: State): SettingsActions.FormData {
    SettingsActions.FormData(Some(s.siteName), Some(s.tagline), Some(s.contactEmail), Some(s.primaryColor),
      Some(s.secondaryColor), Some(s.accentColor), Some(s.headingFont), Some(s.bodyFont),
      Some(NavJson.Encode(s.navigation)), Some(s.footerText), Some(BoolText(s.showSocialLinks)),
      Some(BoolText(s.bannerEnabled)), Some(s.bannerText), Some(s.seoTitle), Some(s.seoDescription),
      Some(s.seoOgImage), Some(BoolText(s.enableSitemap)), Some(s.robotsTxt),
      Some(BoolText(s.newLeadNotifications)), Some(BoolText(s.weeklyReports)), Some(BoolText(s.seoAlerts)))
  }

  /** updateSettings decodes the submitted form back into exactly the state's settings. */
  lemma DecodeSubmitted(s: State)
    ensures SettingsActions.DecodeSettings(Submitted(s)) == Saved(s)
  {
    SubmittedNavigation(s);
  }

  /** The navigation field of the submitted form parses back into the list. */
  lemma SubmittedNavigation(s: State)
    ensures SettingsActions.DecodeNavigation(Submitted(s).navigation) == s.navigation
  {
    NavJson.DecodeEncode(s.navigation);
  }

  /** The first eight appends of handleSave: site name, tagline, contact e-mail, colours and fonts. */
  method AppendGeneral(form: SettingsActions.FormData, s: State) returns (r: SettingsActions.FormData)
    requires form.siteName.None? && form.siteTagline.None? && form.contactEmail.None? &&
      form.primaryColor.None? && form.secondaryColor.None? && form.accentColor.None? &&
      form.headingFont.None? && form.bodyFont.None?
    ensures r == form.(siteName := Some(s.siteName), siteTagline := Some(s.tagline),
      contactEmail := Some(s.contactEmail), primaryColor := Some(s.primaryColor),
      secondaryColor := Some(s.secondaryColor), accentColor := Some(s.accentColor),
      headingFont := Some(s.headingFont), bodyFont := Some(s.bodyFont))
  {
    r := form;
    r := SettingsActions.Append(r, SettingsActions.SiteName, s.siteName);
    r := SettingsActions.Append(r, SettingsActions.SiteTagline, s.tagline);
    r := SettingsActions.Append(r, SettingsActions.ContactEmail, s.contactEmail);
    r := SettingsActions.Append(r, SettingsActions.PrimaryColor, s.primaryColor);
    r := SettingsActions.Append(r, SettingsActions.SecondaryColor, s.secondaryColor);
    r := SettingsActions.Append(r, SettingsActions.AccentColor, s.accentColor);
    r := SettingsActions.Append(r, SettingsActions.HeadingFont, s.headingFont);
    r := SettingsActions.Append(r, SettingsActions.BodyFont, s.bodyFont);
  }

  /** The next five: the navigation as JSON, the footer text and switch, and the banner. */
  method AppendContent(form: SettingsActions.FormData, s: State) returns (r: SettingsActions.FormData)
    requires form.navigation.None? && form.footerText.None? && form.showSocialLinks.None? &&
      form.bannerEnabled.None? && form.bannerText.None?
    ensures r == form.(navigation := Some(NavJson.Encode(s.navigation)), footerText := Some(s.footerText),
      showSocialLinks := Some(BoolText(s.showSocialLinks)), bannerEnabled := Some(BoolText(s.bannerEnabled)),
      bannerText := Some(s.bannerText))
  {
    r := form;
    r := SettingsActions.Append(r, SettingsActions.Navigation, NavJson.Encode(s.navigation));
    r := SettingsActions.Append(r, SettingsActions.FooterText, s.footerText);
    r := SettingsActions.Append(r, SettingsActions.ShowSocialLinks, BoolText(s.showSocialLinks));
    r := SettingsActions.Append(r, SettingsActions.BannerEnabled, BoolText(s.bannerEnabled));
    r := SettingsActions.Append(r, SettingsActions.BannerText, s.bannerText);
  }

  /** The last eight: the SEO fields, the sitemap switch, robots.txt and the notification switches. */
  method AppendSeo(form: SettingsActions.FormData, s: State) returns (r: SettingsActions.FormData)
    requires form.seoTitle.None? && form.seoDescription.None? && form.seoOgImage.None? &&
      form.enableSitemap.None? && form.robotsTxt.None? && form.newLeadNotifications.None? &&
      form.weeklyReports.None? && form.seoAlerts.None?
    ensures r == form.(seoTitle := Some(s.seoTitle), seoDescription := Some(s.seoDescription),
      seoOgImage := Some(s.seoOgImage), enableSitemap := Some(BoolText(s.enableSitemap)),
      robotsTxt := Some(s.robotsTxt), newLeadNotifications := Some(BoolText(s.newLeadNotifications)),
      weeklyReports := Some(BoolText(s.weeklyReports)), seoAlerts := Some(BoolText(s.seoAlerts)))
  {
    r := form;
    r := SettingsActions.Append(r, SettingsActions.SeoTitle, s.seoTitle);
    r := SettingsActions.Append(r, SettingsActions.SeoDescription, s.seoDescription);
    r := SettingsActions.Append(r, SettingsActions.SeoOgImage, s.seoOgImage);
    r := SettingsActions.Append(r, SettingsActions.EnableSitemap, BoolText(s.enableSitemap));
    r := SettingsActions.Append(r, SettingsActions.RobotsTxt, s.robotsTxt);
    r := SettingsActions.Append(r, SettingsActions.NewLeadNotifications, BoolText(s.newLeadNotifications));
    r := SettingsActions.Append(r, SettingsActions.WeeklyReports, BoolText(s.weeklyReports));
    r := SettingsActions.Append(r, SettingsActions.SeoAlerts, BoolText(s.seoAlerts));
  }

  /**
   * `handleSave`: the state appended field by field into a fresh form, which updateSettings then
   * decodes back into exactly the state's settings.
   */
  method HandleSave(s: State) returns (form: SettingsActions.FormData)
    ensures form == Submitted(s)
    ensures SettingsActions.DecodeSettings(form) == Saved(s)
  {
    form := SettingsActions.EmptyForm;
    form := AppendGeneral(form, s);
    form := AppendContent(form, s);
    form := AppendSeo(form, s);
    DecodeSubmitted(s);
  }

  /** No text field of the state is empty. */
  predicate TextsFilled(s: State) {
    && s.siteName != "" && s.tagline != "" && s.contactEmail != "" && s.primaryColor != ""
    && s.secondaryColor != "" && s.accentColor != "" && s.headingFont != "" && s.bodyFont != ""
    && s.footerText != "" && s.bannerText != "" && s.seoTitle != "" && s.seoDescription != ""
    && s.seoOgImage != "" && s.robotsTxt != ""
  }

  /**
   * Saving and reloading shows the same screen, switches and navigation included, when no text
   * field was left empty (an emptied field comes back with its default).
   */
  lemma ReloadShowsSavedState(s: State)
    requires TextsFilled(s)
    ensures InitialState(Some(Saved(s))) == s
  {
  }
}

=== FILE: slug.dfy ===
/**
 * The slugifier shared, character for character, by the page, blog, case-study and service form
 * dialogs:
 *
 *   title.toLowerCase().replace(/[^a-z0-9]+/g, "-").replace(/(^-|-$)/g, "")
 *
 * modelled as three functions, one per step, and the properties a URL slug needs.
 */
module Slug {
  import Text

  /** The characters the first regular expression keeps: `[a-z0-9]`. */
  predicate IsSlugChar(c: char) {
    'a' <= c <= 'z' || '0' <= c <= '9'
  }

  /** The letters and digits of `s`, in order. */
  function Alnums(s: string): (r: string)
    ensures |r| <= |s|
  {
    if s == [] then [] else (if IsSlugChar(s[0]) then [s[0]] else []) + Alnums(s[1..])
  }

  ghost predicate InSlugAlphabet(s: string) {
    forall i :: 0 <= i < |s| ==> IsSlugChar(s[i]) || s[i] == '-'
  }

  ghost predicate NoDoubleHyphen(s: string) {
    forall i :: 0 <= i < |s| - 1 ==> s[i] != '-' || s[i + 1] != '-'
  }

  /** What `generateSlug` promises of its output. */
  ghost predicate IsCleanSlug(s: string) {
    && InSlugAlphabet(s)
    && NoDoubleHyphen(s)
    && (s != [] ==> s[0] != '-' && s[|s| - 1] != '-')
  }

  /** Drops the run of separator characters at the front of `s`. */
  function SkipSeparators(s: string): (r: string)
    ensures |r| <= |s|
    ensures r == [] || IsSlugChar(r[0])
    ensures Alnums(r) == Alnums(s)
  {
    if s == [] || IsSlugChar(s[0]) then s else SkipSeparators(s[1..])
  }

  /** `replace(/[^a-z0-9]+/g, "-")`: every maximal run of other characters becomes one hyphen. */
  function CollapseSeparators(s: string): (r: string)
    ensures InSlugAlphabet(r)
    ensures NoDoubleHyphen(r)
    ensures s != [] && IsSlugChar(s[0]) ==> r != [] && r[0] == s[0]
    ensures Text.Remove(r, '-') == Alnums(s)
    decreases |s|
  {
    if s == [] then []
    else if IsSlugChar(s[0]) then
      var rest := CollapseSeparators(s[1..]);
      assert Text.Remove([s[0]] + rest, '-') == [s[0]] + Text.Remove(rest, '-') by {
        assert ([s[0]] + rest)[1..] == rest;
      }
      [s[0]] + rest
    else
      var rest := CollapseSeparators(SkipSeparators(s[1..]));
      assert Text.Remove("-" + rest, '-') == Text.Remove(rest, '-') by {
        assert ("-" + rest)[1..] == rest;
      }
      "-" + rest
  }

  /** `replace(/(^-|-$)/g, "")`: one leading and one trailing hyphen are removed. */
  function TrimHyphens(s: string): string {
    var a := if s != [] && s[0] == '-' then s[1..] else s;
    if a != [] && a[|a| - 1] == '-' then a[..|a| - 1] else a
  }

  /** `generateSlug(title)`. */
  function Slugify(title: string): (slug: string)
    ensures IsCleanSlug(slug)
    ensures Text.Remove(slug, '-') == Alnums(Text.Lower(title))
  {
    var c := CollapseSeparators(Text.Lower(title));
    var slug := TrimHyphens(c);
    RemoveOfHyphenTrim(c);
    slug
  }

  /** Trimming edge hyphens loses no letter or digit. */
  lemma RemoveOfHyphenTrim(s: string)
    ensures Text.Remove(TrimHyphens(s), '-') == Text.Remove(s, '-')
  {
    var a := if s != [] && s[0] == '-' then s[1..] else s;
    if s != [] && s[0] == '-' {
      assert Text.Remove(s, '-') == Text.Remove(a, '-');
    }
    if a != [] && a[|a| - 1] == '-' {
      RemoveLastHyphen(a);
    }
  }

  lemma {:induction false} RemoveLastHyphen(a: string)
    requires a != [] && a[|a| - 1] == '-'
    ensures Text.Remove(a[..|a| - 1], '-') == Text.Remove(a, '-')
  {
    var b := a[..|a| - 1];
    if |a| > 1 {
      assert b[1..] == a[1..][..|a[1..]| - 1];
      RemoveLastHyphen(a[1..]);
      assert b[0] == a[0];
      assert Text.Remove(b, '-') == (if a[0] == '-' then [] else [a[0]]) + Text.Remove(a[1..], '-');
    } else {
      assert b == [] && a[1..] == [];
    }
  }

  /** Lower-casing leaves a slug unchanged. */
  lemma LowerOfSlugAlphabet(s: string)
    requires InSlugAlphabet(s)
    ensures Text.Lower(s) == s
  {
  }

  /** A clean slug (apart from possibly a leading hyphen) is a fixed point of the first step. */
  lemma {:induction false} CollapseFixesSlug(s: string)
    requires InSlugAlphabet(s) && NoDoubleHyphen(s)
    requires s != [] ==> s[|s| - 1] != '-'
    ensures CollapseSeparators(s) == s
  {
    if s != [] {
      CollapseFixesSlug(s[1..]);
      if !IsSlugChar(s[0]) {
        assert |s| > 1 && IsSlugChar(s[1]);
        assert SkipSeparators(s[1..]) == s[1..];
      }
      assert [s[0]] + s[1..] == s;
    }
  }

  /** A clean slug is its own slug. */
  lemma SlugifyFixesCleanSlug(s: string)
    requires IsCleanSlug(s)
    ensures Slugify(s) == s
  {
    LowerOfSlugAlphabet(s);
    CollapseFixesSlug(s);
    assert TrimHyphens(s) == s;
  }

  /** `generateSlug` is idempotent: slugifying a slug returns it unchanged. */
  lemma SlugifyIdempotent(title: string)
    ensures Slugify(Slugify(title)) == Slugify(title)
  {
    SlugifyFixesCleanSlug(Slugify(title));
  }

  /** A title without letters or digits gives the empty slug. */
  lemma {:induction false} SlugifyWithoutAlnums(title: string)
    requires Alnums(Text.Lower(title)) == []
    ensures Slugify(title) == ""
  {
    var s := Slugify(title);
    if s != [] {
      OnlyHyphensLeft(s);
    }
  }

  /** A slug-alphabet string with no letters or digits is all hyphens. */
  lemma {:induction false} OnlyHyphensLeft(s: string)
    requires s != [] && InSlugAlphabet(s) && Text.Remove(s, '-') == []
    ensures s[0] == '-'
  {
  }
}

=== FILE: store.dfy ===
/**
 * The hosted backend the admin server actions talk to, replaced by in-memory tables: one map
 * from row id to row per table, the set of object keys in the "media" storage bucket, and the
 * append-only `audit_logs` table. The row types follow lib/types/database.ts, restricted to the
 * columns the actions read or write; the input records are the arguments the actions receive.
 *
 * Every backend call may fail: each action takes one `Outcome` per call it makes. Timestamps,
 * random suffixes and the ids the database generates for new rows are parameters too.
 */
module Store {
  import opened Common

  type Id = string

  /** An ISO-8601 timestamp, the value of `new Date().toISOString()` at the time of the call. */
  type Timestamp = string

  /** The result of one backend call: it succeeded, or it reported an error with this message. */
  datatype Outcome = Ok | Fail(message: string)

  /** What the caller of a server action observes. */
  datatype Response =
    | Success                    // `{ success: true }`, or a normal return
    | SuccessWithUrl(url: string) // `{ success: true, url }`
    | Returned(error: string)    // `{ success: false, error }` or `{ error }`
    | Thrown(error: string)      // an exception propagates to the caller

  /** An update-object field: `undefined` leaves the column as it was. */
  function Patch<T>(update: Option<T>, current: Option<T>): (r: Option<T>)
    ensures update.Some? ==> r == update
    ensures update.None? ==> r == current
  {
    if update.Some? then update else current
  }

  // ---------------------------------------------------------------- rows

  /** One element of a JSON `content` array: `{ type, content }`. */
  datatype Block = Block(kind: string, text: string)

  /** The JSON in a page's `content` column: `{}` for a new page, or an array of blocks. */
  datatype PageContent = EmptyObject | Blocks(blocks: seq<Block>)

  datatype Page = Page(
    title: string,
    slug: string,
    status: string,
    content: PageContent,
    metaTitle: Option<string>,
    metaDescription: Option<string>,
    ogImage: Option<string>,
    seoScore: int,
    publishedAt: Option<Timestamp>,
    updatedAt: Timestamp)

  /** The columns a service form submits (the argument of createService / updateService). */
  datatype ServiceForm = ServiceForm(
    title: string,
    slug: string,
    description: string,
    content: string,
    icon: Option<string>,
    status: string,
    seoTitle: Option<string>,
    seoDescription: Option<string>)

  datatype Service = Service(
    fields: ServiceForm,
    seoScore: int,
    createdAt: Timestamp,
    updatedAt: Timestamp)

  /** The `results` JSON of a case study: `{ text, testimonial }`. */
  datatype Results = Results(text: string, testimonial: Option<string>)

  datatype CaseStudy = CaseStudy(
    title: string,
    slug: string,
    client: string,
    industry: string,
    content: seq<Block>,
    results: Results,
    featuredImage: Option<string>,
    status: string,
    metaTitle: Option<string>,
    metaDescription: Option<string>,
    seoScore: int,
    featured: bool,
    views: nat,
    publishedAt: Option<Timestamp>,
    updatedAt: Timestamp)

  datatype BlogPost = BlogPost(
    title: string,
    slug: string,
    excerpt: string,
    content: seq<Block>,
    author: string,
    category: string,
    tags: seq<string>,
    featuredImage: Option<string>,
    status: string,
    metaTitle: Option<string>,
    metaDescription: Option<string>,
    seoScore: int,
    featured: bool,
    views: nat,
    readTime: nat,
    publishedAt: Option<Timestamp>,
    updatedAt: Timestamp)

  /** One entry of a lead's `notes` JSON array. */
  datatype Note = Note(text: string, date: Timestamp)

  datatype Lead = Lead(
    name: string,
    email: string,
    phone: Option<string>,
    company: Option<string>,
    message: Option<string>,
    service: Option<string>,
    notes: Option<seq<Note>>,
    status: string,
    createdAt: Timestamp,
    updatedAt: Timestamp)

  datatype MediaItem = MediaItem(
    filename: string,
    originalFilename: string,
    filePath: string,
    fileType: string,
    fileSize: nat,
    mimeType: string,
    altText: string,
    folder: Option<string>,
    url: string)

  datatype Redirect = Redirect(
    sourcePath: string,
    destinationPath: string,
    redirectType: string,
    hitCount: nat,
    isActive: bool)

  datatype Profile = Profile(email: string, fullName: Option<string>, role: string)

  /** A navigation entry `{ label, url }` (`label` is a Dafny keyword, hence `text`). */
  datatype NavItem = NavItem(text: string, url: string)

  /** The singleton `site_settings` row as updateSettings writes it; text columns may be null. */
  datatype SiteSettings = SiteSettings(
    siteName: Option<string>,
    siteTagline: Option<string>,
    contactEmail: Option<string>,
    primaryColor: Option<string>,
    secondaryColor: Option<string>,
    accentColor: Option<string>,
    headingFont: Option<string>,
    bodyFont: Option<string>,
    navigation: seq<NavItem>,
    footerText: Option<string>,
    showSocialLinks: bool,
    bannerEnabled: bool,
    bannerText: Option<string>,
    seoTitle: Option<string>,
    seoDescription: Option<string>,
    seoOgImage: Option<string>,
    enableSitemap: bool,
    robotsTxt: Option<string>,
    newLeadNotifications: bool,
    weeklyReports: bool,
    seoAlerts: bool)

  /**
   * A row of `site_settings`: the row holding the site-wide settings, or a `{ key, value,
   * updated_at }` record that saveSEOSettings writes into the same table.
   */
  datatype SettingsRow =
    | SettingsRow(id: Id, fields: SiteSettings)
    | KeyedRecord(id: Id, key: string, value: SeoSettings, updatedAt: Timestamp)

  /** The argument of saveSEOSettings. */
  datatype SeoSettings = SeoSettings(
    titleTemplate: string,
    separator: string,
    defaultDescription: string,
    allowIndexing: bool,
    allowFollow: bool,
    ogImage: Option<string>)

  // ---------------------------------------------------------------- action inputs

  /** The five FormData fields the page dialog submits. */
  datatype PageForm = PageForm(
    title: string,
    slug: string,
    status: string,
    metaTitle: string,
    metaDescription: string)

  datatype CaseStudyForm = CaseStudyForm(
    title: string,
    slug: string,
    clientName: string,
    industry: string,
    challenge: string,
    solution: string,
    results: string,
    testimonial: Option<string>,
    featuredImage: Option<string>,
    status: string,
    seoTitle: Option<string>,
    seoDescription: Option<string>)

  datatype BlogForm = BlogForm(
    title: string,
    slug: string,
    excerpt: string,
    content: string,
    author: string,
    category: string,
    tags: seq<string>,
    featuredImage: Option<string>,
    status: string,
    seoTitle: Option<string>,
    seoDescription: Option<string>)

  /** The argument of createRedirect / updateRedirect. */
  datatype RedirectForm = RedirectForm(source: string, destination: string, redirectType: string, active: bool)

  /** The argument of updatePageSEO; every field is optional. */
  datatype PageSeo = PageSeo(metaTitle: Option<string>, metaDescription: Option<string>, ogImage: Option<string>)

  /** A `File` from an upload form. */
  datatype File = File(name: string, fileType: string, size: nat)

  // ---------------------------------------------------------------- audit log

  /** The JSON in an audit entry's `changes` column. */
  datatype Changes =
    | NoFields                            // `{}`
    | Label(text: string)                 // a string
    | RedirectFields(form: RedirectForm)  // the redirect input record
    | ActiveFlag(isActive: bool)          // `{ is_active }`
    | SettingsValue(settings: SeoSettings) // `{ settings }`
    | SeoFields(seo: PageSeo)             // `{ seo }`

  datatype AuditEntry = AuditEntry(
    userId: Id,
    action: string,
    entityType: string,
    entityId: Option<string>,
    changes: Changes,
    ipAddress: Option<string>,
    userAgent: Option<string>)

  // ---------------------------------------------------------------- the whole backend

  /**
   * A snapshot of every table, the storage bucket, and the signed-in user of the session. The
   * settings table is read without a key (`.single()`, `.maybeSingle()`), so its rows are kept in order.
   */
  datatype Tables = Snapshot(
    session: Option<Id>,
    pages: map<Id, Page>,
    services: map<Id, Service>,
    caseStudies: map<Id, CaseStudy>,
    blogPosts: map<Id, BlogPost>,
    leads: map<Id, Lead>,
    media: map<Id, MediaItem>,
    redirects: map<Id, Redirect>,
    profiles: map<Id, Profile>,
    siteSettings: seq<SettingsRow>,
    blobs: set<string>,
    audit: seq<AuditEntry>)

  /** The state after a server action and what its caller observed. */
  datatype Effect = Effect(after: Tables, response: Response)

  /** `.select(...).eq("id", id).single()`: the row when the call succeeds and finds it, else null. */
  function ReadRow<R>(rows: map<Id, R>, id: Id, call: Outcome): (r: Option<R>)
    ensures r.Some? <==> call.Ok? && id in rows
    ensures r.Some? ==> r.value == rows[id]
  {
    if call.Ok? && id in rows then Some(rows[id]) else None
  }

  /** The backend as the actions mutate it. */
  class Backend {
    var session: Option<Id>
    var pages: map<Id, Page>
    var services: map<Id, Service>
    var caseStudies: map<Id, CaseStudy>
    var blogPosts: map<Id, BlogPost>
    var leads: map<Id, Lead>
    var media: map<Id, MediaItem>
    var redirects: map<Id, Redirect>
    var profiles: map<Id, Profile>
    var siteSettings: seq<SettingsRow>
    var blobs: set<string>
    var audit: seq<AuditEntry>

    constructor (t: Tables)
      ensures Tables() == t
    {
      session, pages, services, caseStudies, blogPosts := t.session, t.pages, t.services, t.caseStudies, t.blogPosts;
      leads, media, redirects, profiles := t.leads, t.media, t.redirects, t.profiles;
      siteSettings, blobs, audit := t.siteSettings, t.blobs, t.audit;
    }

    /** The current contents of every table. */
    function Tables(): Tables
      reads this
    {
      Snapshot(session, pages, services, caseStudies, blogPosts, leads, media, redirects, profiles,
             siteSettings, blobs, audit)
    }
  }
}

=== FILE: text.dfy ===
/**
 * The JavaScript string operations the admin code uses, on `string` (= `seq<char>`).
 * Case mapping is ASCII-only; whitespace is the set `String.prototype.trim` removes.
 */
module Text {
  import opened Common

  /** `s || d` for a string: the empty string is falsy. */
  function Or(s: string, d: string): string {
    if s == "" then d else s
  }

  /** `o || d` for a nullable string. */
  function OrElse(o: Option<string>, d: string): string {
    if o.None? || o.value == "" then d else o.value
  }

  /** `!o` for a nullable string: null and "" are both falsy. */
  predicate IsBlank(o: Option<string>) {
    o.None? || o.value == ""
  }

  // ---------------------------------------------------------------- case

  function LowerChar(c: char): char {
    if 'A' <= c <= 'Z' then (c as int - 'A' as int + 'a' as int) as char else c
  }

  function UpperChar(c: char): char {
    if 'a' <= c <= 'z' then (c as int - 'a' as int + 'A' as int) as char else c
  }

  /** `toLowerCase` (ASCII letters only). */
  function Lower(s: string): (r: string)
    ensures |r| == |s|
    ensures forall i :: 0 <= i < |s| ==> r[i] == LowerChar(s[i])
  {
    seq(|s|, i requires 0 <= i < |s| => LowerChar(s[i]))
  }

  /** `toUpperCase` (ASCII letters only). */
  function Upper(s: string): (r: string)
    ensures |r| == |s|
    ensures forall i :: 0 <= i < |s| ==> r[i] == UpperChar(s[i])
  {
    seq(|s|, i requires 0 <= i < |s| => UpperChar(s[i]))
  }

  // ---------------------------------------------------------------- trim

  /** The characters `trim` removes: WhiteSpace and LineTerminator of ECMA-262 (section 12.2 and 12.3). */
  predicate IsWhitespace(c: char) {
    || c == '\t' || c == '\n' || c == '\U{000B}' || c == '\U{000C}' || c == '\r' || c == ' '
    || c == '\U{00A0}' || c == '\U{1680}' || ('\U{2000}' <= c <= '\U{200A}')
    || c == '\U{2028}' || c == '\U{2029}' || c == '\U{202F}' || c == '\U{205F}'
    || c == '\U{3000}' || c == '\U{FEFF}'
  }

  ghost predicate AllWhitespace(s: string) {
    forall i :: 0 <= i < |s| ==> IsWhitespace(s[i])
  }

  predicate IsTrimmed(s: string) {
    s == [] || (!IsWhitespace(s[0]) && !IsWhitespace(s[|s| - 1]))
  }

  /** `trimStart`: the suffix left after dropping leading whitespace. */
  function TrimStart(s: string): (r: string)
    ensures |r| <= |s|
    ensures r == [] || !IsWhitespace(r[0])
  {
    if s != [] && IsWhitespace(s[0]) then TrimStart(s[1..]) else s
  }

  /** `trimEnd`: the prefix left after dropping trailing whitespace. */
  function TrimEnd(s: string): (r: string)
    ensures |r| <= |s| && r == s[..|r|]
    ensures r == [] || !IsWhitespace(r[|r| - 1])
  {
    if s != [] && IsWhitespace(s[|s| - 1]) then TrimEnd(s[..|s| - 1]) else s
  }

  /** `trim`. */
  function Trim(s: string): (r: string)
    ensures IsTrimmed(r)
  {
    var a := TrimStart(s);
    var r := TrimEnd(a);
    assert r != [] ==> r[0] == a[0];
    r
  }

  /** `trimStart` drops exactly a run of whitespace from the front. */
  lemma {:induction false} TrimStartDrops(s: string)
    ensures var r := TrimStart(s); r == s[|s| - |r|..] && AllWhitespace(s[..|s| - |r|])
  {
    if s != [] && IsWhitespace(s[0]) {
      TrimStartDrops(s[1..]);
      var r := TrimStart(s);
      assert s[..|s| - |r|] == [s[0]] + s[1..][..|s| - 1 - |r|];
    }
  }

  /** `trimEnd` drops exactly a run of whitespace from the back. */
  lemma {:induction false} TrimEndDrops(s: string)
    ensures AllWhitespace(s[|TrimEnd(s)|..])
  {
    if s != [] && IsWhitespace(s[|s| - 1]) {
      TrimEndDrops(s[..|s| - 1]);
      var r := TrimEnd(s);
      assert s[|r|..] == s[..|s| - 1][|r|..] + [s[|s| - 1]];
    }
  }

  /** Trimming removes exactly the whitespace: the result is empty iff the input is all whitespace. */
  lemma TrimEmptyIffWhitespace(s: string)
    ensures Trim(s) == [] <==> AllWhitespace(s)
  {
    var a := TrimStart(s);
    TrimStartDrops(s);
    TrimEndDrops(a);
    assert s == s[..|s| - |a|] + a;
    assert a != [] ==> a[0] == s[|s| - |a|];
    assert a[0..] == a;
  }

  /** A trimmed string is its own trim. */
  lemma TrimFixesTrimmed(s: string)
    requires IsTrimmed(s)
    ensures Trim(s) == s
  {
  }

  /** Leading whitespace in front of a trimmed string is all that `trim` removes. */
  lemma {:induction false} TrimAfterWhitespace(w: string, t: string)
    requires AllWhitespace(w) && IsTrimmed(t)
    ensures Trim(w + t) == t
  {
    if w == [] {
      assert w + t == t;
    } else {
      assert (w + t)[1..] == w[1..] + t;
      TrimAfterWhitespace(w[1..], t);
    }
  }

  // ---------------------------------------------------------------- split / join

  /** `s.split(sep)` for a one-character separator: always at least one piece, none holding `sep`. */
  function Split(s: string, sep: char): (parts: seq<string>)
    ensures |parts| >= 1
    ensures forall i :: 0 <= i < |parts| ==> sep !in parts[i]
  {
    if s == [] then [""]
    else
      var rest := Split(s[1..], sep);
      if s[0] == sep then [""] + rest
      else [[s[0]] + rest[0]] + rest[1..]
  }

  /** `parts.join(sep)`. */
  function Join(parts: seq<string>, sep: string): string {
    if |parts| == 0 then ""
    else if |parts| == 1 then parts[0]
    else parts[0] + sep + Join(parts[1..], sep)
  }

  /** The number of times `c` occurs in `s`. */
  function Occurrences(s: string, c: char): (n: nat)
    ensures n <= |s|
  {
    if s == [] then 0 else (if s[0] == c then 1 else 0) + Occurrences(s[1..], c)
  }

  /** There is one more piece than there are separators. */
  lemma {:induction false} SplitLength(s: string, sep: char)
    ensures |Split(s, sep)| == Occurrences(s, sep) + 1
  {
    if s != [] {
      SplitLength(s[1..], sep);
    }
  }

  /** A string without the separator is one piece. */
  lemma {:induction false} SplitWithoutSeparator(s: string, sep: char)
    requires sep !in s
    ensures Split(s, sep) == [s]
  {
    if s != [] {
      SplitWithoutSeparator(s[1..], sep);
      assert [s[0]] + s[1..] == s;
    }
  }

  /** Splitting at a separator concatenates the pieces of both sides. */
  lemma {:induction false} SplitAtSeparator(a: string, sep: char, b: string)
    ensures Split(a + [sep] + b, sep) == Split(a, sep) + Split(b, sep)
  {
    if a == [] {
      assert a + [sep] + b == [sep] + b;
      assert ([sep] + b)[1..] == b;
    } else {
      assert (a + [sep] + b)[1..] == a[1..] + [sep] + b;
      SplitAtSeparator(a[1..], sep, b);
    }
  }

  /** Joining the pieces with the separator gives back the string. */
  lemma {:induction false} JoinSplit(s: string, sep: char)
    ensures Join(Split(s, sep), [sep]) == s
  {
    if s != [] {
      JoinSplit(s[1..], sep);
      var rest := Split(s[1..], sep);
      if s[0] == sep {
        assert ([""] + rest)[1..] == rest;
      } else {
        var parts := [[s[0]] + rest[0]] + rest[1..];
        if |rest| > 1 {
          assert parts[1..] == rest[1..];
          assert Join(rest, [sep]) == rest[0] + [sep] + Join(rest[1..], [sep]);
        }
      }
    }
  }

  /** Splitting what was joined gives back the pieces, when no piece holds the separator. */
  lemma {:induction false} SplitJoin(parts: seq<string>, sep: char)
    requires |parts| >= 1
    requires forall i :: 0 <= i < |parts| ==> sep !in parts[i]
    ensures Split(Join(parts, [sep]), sep) == parts
  {
    if |parts| == 1 {
      SplitWithoutSeparator(parts[0], sep);
    } else {
      SplitJoin(parts[1..], sep);
      SplitWithoutSeparator(parts[0], sep);
      SplitAtSeparator(parts[0], sep, Join(parts[1..], [sep]));
      assert [parts[0]] + parts[1..] == parts;
    }
  }

  // ---------------------------------------------------------------- length

  /**
   * `s.length`: JavaScript counts UTF-16 code units, so a character outside the Basic
   * Multilingual Plane counts twice.
   */
  function Utf16Length(s: string): (n: nat)
    ensures |s| <= n <= 2 * |s|
  {
    if s == [] then 0 else (if s[0] as int >= 0x10000 then 2 else 1) + Utf16Length(s[1..])
  }

  // ---------------------------------------------------------------- search

  /** `s.startsWith(p)`. */
  predicate StartsWith(s: string, p: string) {
    |p| <= |s| && s[..|p|] == p
  }

  /** `s.includes(sub)`. */
  predicate Contains(s: string, sub: string)
    decreases |s|
  {
    StartsWith(s, sub) || (s != [] && Contains(s[1..], sub))
  }

  /** Every string contains the empty string. */
  lemma ContainsEmpty(s: string)
    ensures Contains(s, "")
  {
    assert StartsWith(s, "");
  }

  /** The first piece of a split is `s` up to its first `c`, or all of `s` when there is none. */
  lemma {:induction false} SplitHead(s: string, c: char)
    ensures var h := Split(s, c)[0];
      && (c in s ==> |h| < |s| && s[..|h|] == h && s[|h|] == c)
      && (c !in s ==> h == s)
  {
    if s != [] {
      SplitHead(s[1..], c);
      if s[0] != c {
        assert c in s <==> c in s[1..];
        if c !in s {
          assert s == [s[0]] + s[1..];
        }
      }
    }
  }

  /** `s.split(c)[0]`: the text before the first `c`, or all of `s`. */
  function BeforeFirst(s: string, c: char): (r: string)
    ensures c !in r
    ensures c in s ==> |r| < |s| && s[..|r|] == r && s[|r|] == c
    ensures c !in s ==> r == s
  {
    SplitHead(s, c);
    Split(s, c)[0]
  }

  /** `s.split(c).pop()`: the text after the last `c`, or all of `s`. */
  function AfterLast(s: string, c: char): (r: string)
    ensures c !in r
  {
    var parts := Split(s, c);
    parts[|parts| - 1]
  }

  /** The text after the last `c` of `a + [c] + b` is `b` when `b` holds no `c`. */
  lemma {:induction false} AfterLastOfSuffix(a: string, c: char, b: string)
    requires c !in b
    ensures AfterLast(a + [c] + b, c) == b
  {
    SplitAtSeparator(a, c, b);
    SplitWithoutSeparator(b, c);
  }

  /** `s.replace(c, r)` with a string pattern: only the first occurrence is replaced. */
  function ReplaceFirst(s: string, c: char, r: string): string {
    if s == [] then s
    else if s[0] == c then r + s[1..]
    else [s[0]] + ReplaceFirst(s[1..], c, r)
  }

  /** `s` with every `c` deleted. */
  function Remove(s: string, c: char): (r: string)
    ensures c !in r
    ensures |r| <= |s|
  {
    if s == [] then [] else (if s[0] == c then [] else [s[0]]) + Remove(s[1..], c)
  }

  // ---------------------------------------------------------------- numbers

  function Digit(d: nat): char
    requires d < 10
  {
    "0123456789"[d]
  }

  /** Decimal text of a natural number, as template literals print it. */
  function NatText(n: nat): (r: string)
    ensures |r| >= 1
    ensures forall i :: 0 <= i < |r| ==> '0' <= r[i] <= '9'
  {
    if n < 10 then [Digit(n)] else NatText(n / 10) + [Digit(n % 10)]
  }

  /** Decimal text of an integer. */
  function IntText(i: int): string {
    if i < 0 then "-" + NatText(-i) else NatText(i)
  }
}

=== FILE: user_actions.dfy ===
/**
 * app/admin/users/actions.ts: invite a user (insert a `profiles` row), change a user's role, delete
 * a profile. Errors are returned as `{ error }` before the audit call. The role string is stored
 * as given; nothing checks it against the four roles the admin area knows.
 */
module UserActions {
  import opened Common
  import opened Store
  import Text
  import AuditLogger

  /** The ids of the profiles with this email. */
  function WithEmail(profiles: map<Id, Profile>, email: string): (ids: set<Id>)
    ensures forall id :: id in ids <==> id in profiles && profiles[id].email == email
  {
    set id | id in profiles && profiles[id].email == email
  }

  /**
   * `.select("id").eq("email", email).single()` found a row: the lookup succeeded and exactly one
   * profile has the email (with two or more, `.single()` reports an error and yields no row).
   */
  predicate Exists(profiles: map<Id, Profile>, email: string, lookup: Outcome) {
    lookup.Ok? && |WithEmail(profiles, email)| == 1
  }

  /** No two profiles share an email. */
  predicate UniqueEmails(profiles: map<Id, Profile>) {
    forall i, j :: i in profiles && j in profiles && i != j ==> profiles[i].email != profiles[j].email
  }

  /** The profile inviteUser inserts: `full_name` is the email's text before the first "@". */
  function InvitedProfile(email: string, role: string): (p: Profile)
    ensures p.email == email && p.role == role
    ensures p.fullName.Some? && '@' !in p.fullName.value
    ensures Text.StartsWith(email, p.fullName.value)
    ensures '@' in email ==> |p.fullName.value| < |email| && email[|p.fullName.value|] == '@'
    ensures '@' !in email ==> p.fullName.value == email
  {
    var name := Text.BeforeFirst(email, '@');
    Text.JoinSplit(email, '@');
    assert Text.StartsWith(email, name) by {
      var parts := Text.Split(email, '@');
      if |parts| > 1 {
        assert Text.Join(parts, "@") == parts[0] + "@" + Text.Join(parts[1..], "@");
      }
    }
    Profile(email, Some(name), role)
  }

  /** `inviteUser`. */
  function InviteUserSpec(t: Tables, email: string, role: string, newId: Id, lookup: Outcome, insert: Outcome,
                          log: Outcome): (e: Effect)
    requires newId !in t.profiles
    ensures Exists(t.profiles, email, lookup) ==> e == Effect(t, Returned("User already exists"))
    ensures !Exists(t.profiles, email, lookup) && insert.Fail? ==> e == Effect(t, Returned(insert.message))
    ensures !Exists(t.profiles, email, lookup) && insert.Ok? ==>
      && e.response == Success
      && e.after.profiles == t.profiles[newId := InvitedProfile(email, role)]
      && e.after.audit == t.audit + AuditLogger.Recorded(t.session, "invite_user", "users", Some(newId), Some(Label(email)), log)
    ensures e.after.(profiles := t.profiles, audit := t.audit) == t
  {
    if Exists(t.profiles, email, lookup) then Effect(t, Returned("User already exists"))
    else if insert.Fail? then Effect(t, Returned(insert.message))
    else
      Effect(AuditLogger.Logged(t.(profiles := t.profiles[newId := InvitedProfile(email, role)]), "invite_user", "users",
                                Some(newId), Some(Label(email)), log), Success)
  }

  method InviteUser(db: Backend, email: string, role: string, newId: Id, lookup: Outcome, insert: Outcome, log: Outcome)
    returns (r: Response)
    requires newId !in db.profiles
    modifies db
    ensures Effect(db.Tables(), r) == InviteUserSpec(old(db.Tables()), email, role, newId, lookup, insert, log)
  {
    var matches := WithEmail(db.profiles, email);
    if lookup.Ok? && |matches| == 1 {
      return Returned("User already exists");
    }
    if insert.Fail? {
      return Returned(insert.message);
    }
    db.profiles := db.profiles[newId := InvitedProfile(email, role)];
    AuditLogger.LogAuditAction(db, "invite_user", "users", Some(newId), Some(Label(email)), log);
    r := Success;
  }

  /** With unique emails, a profile with the email exists exactly when the id set is a singleton. */
  lemma UniqueMatch(profiles: map<Id, Profile>, email: string, id: Id)
    requires UniqueEmails(profiles) && id in profiles && profiles[id].email == email
    ensures WithEmail(profiles, email) == {id}
  {
  }

  /**
   * When the existence lookup succeeds, inviting keeps emails unique: an email already present
   * is refused, any other is inserted.
   */
  lemma {:induction false} InviteKeepsEmailsUnique(t: Tables, email: string, role: string, newId: Id,
                                                   insert: Outcome, log: Outcome)
    requires newId !in t.profiles && UniqueEmails(t.profiles)
    ensures UniqueEmails(InviteUserSpec(t, email, role, newId, Ok, insert, log).after.profiles)
    ensures (exists id :: id in t.profiles && t.profiles[id].email == email) ==>
              InviteUserSpec(t, email, role, newId, Ok, insert, log).response == Returned("User already exists")
    ensures (forall id :: id in t.profiles ==> t.profiles[id].email != email) && insert.Ok? ==>
              InviteUserSpec(t, email, role, newId, Ok, insert, log).response == Success
  {
    if id :| id in t.profiles && t.profiles[id].email == email {
      UniqueMatch(t.profiles, email, id);
    } else {
      assert WithEmail(t.profiles, email) == {};
    }
  }

  /** A failed existence lookup lets an email that is already taken be inserted a second time. */
  lemma FailedLookupAllowsDuplicate(t: Tables, email: string, role: string, newId: Id, other: Id, msg: string,
                                    log: Outcome)
    requires newId !in t.profiles && other in t.profiles && t.profiles[other].email == email
    ensures
      var after := InviteUserSpec(t, email, role, newId, Fail(msg), Ok, log).after.profiles;
      && newId in after && other in after && after[newId].email == after[other].email
      && !UniqueEmails(after)
  {
  }

  /**
   * The audit text of updateUserRole: `${user?.email}: ${user?.role} → ${role}`, where a profile the
   * pre-read did not find prints as "undefined".
   */
  function RoleChangeText(found: Option<Profile>, role: string): (text: string)
    ensures found.None? ==> text == "undefined: undefined → " + role
    ensures found.Some? ==> text == found.value.email + ": " + found.value.role + " → " + role
  {
    var email := if found.Some? then found.value.email else "undefined";
    var earlier := if found.Some? then found.value.role else "undefined";
    email + ": " + earlier + " → " + role
  }

  /** `updateUserRole`: only `role` is written. */
  function UpdateUserRoleSpec(t: Tables, userId: Id, role: string, read: Outcome, update: Outcome, log: Outcome): (e: Effect)
    ensures update.Fail? ==> e == Effect(t, Returned(update.message))
    ensures update.Ok? ==>
      && e.response == Success
      && e.after.profiles.Keys == t.profiles.Keys
      && (forall k :: k in t.profiles && k != userId ==> e.after.profiles[k] == t.profiles[k])
      && (userId in t.profiles ==> e.after.profiles[userId] == t.profiles[userId].(role := role))
      && e.after.audit == t.audit + AuditLogger.Recorded(t.session, "change_role", "users", Some(userId),
                                                         Some(Label(RoleChangeText(ReadRow(t.profiles, userId, read), role))), log)
    ensures e.after.(profiles := t.profiles, audit := t.audit) == t
  {
    var found := ReadRow(t.profiles, userId, read);
    if update.Fail? then Effect(t, Returned(update.message))
    else
      var rows := if userId in t.profiles then t.profiles[userId := t.profiles[userId].(role := role)] else t.profiles;
      Effect(AuditLogger.Logged(t.(profiles := rows), "change_role", "users", Some(userId),
                                Some(Label(RoleChangeText(found, role))), log), Success)
  }

  method UpdateUserRole(db: Backend, userId: Id, role: string, read: Outcome, update: Outcome, log: Outcome)
    returns (r: Response)
    modifies db
    ensures Effect(db.Tables(), r) == UpdateUserRoleSpec(old(db.Tables()), userId, role, read, update, log)
  {
    var found := ReadRow(db.profiles, userId, read);
    if update.Fail? {
      return Returned(update.message);
    }
    if userId in db.profiles {
      db.profiles := db.profiles[userId := db.profiles[userId].(role := role)];
    }
    AuditLogger.LogAuditAction(db, "change_role", "users", Some(userId), Some(Label(RoleChangeText(found, role))), log);
    r := Success;
  }

  /** A role change never changes an email, so it keeps emails unique. */
  lemma RoleChangeKeepsEmailsUnique(t: Tables, userId: Id, role: string, read: Outcome, update: Outcome, log: Outcome)
    requires UniqueEmails(t.profiles)
    ensures UniqueEmails(UpdateUserRoleSpec(t, userId, role, read, update, log).after.profiles)
  {
  }

  /** The audit label of deleteUser: the email the pre-read found, else "User". */
  function DeleteLabel(found: Option<Profile>): (name: string)
    ensures found.None? || found.value.email == "" ==> name == "User"
    ensures found.Some? && found.value.email != "" ==> name == found.value.email
  {
    if found.Some? then Text.Or(found.value.email, "User") else "User"
  }

  /** `deleteUser`: the profile row only. */
  function DeleteUserSpec(t: Tables, userId: Id, read: Outcome, delete: Outcome, log: Outcome): (e: Effect)
    ensures delete.Fail? ==> e == Effect(t, Returned(delete.message))
    ensures delete.Ok? ==>
      && e.response == Success
      && e.after.profiles == t.profiles - {userId}
      && e.after.audit == t.audit + AuditLogger.Recorded(t.session, "delete", "users", Some(userId),
                                                         Some(Label(DeleteLabel(ReadRow(t.profiles, userId, read)))), log)
    ensures e.after.(profiles := t.profiles, audit := t.audit) == t
  {
    var found := ReadRow(t.profiles, userId, read);
    if delete.Fail? then Effect(t, Returned(delete.message))
    else
      Effect(AuditLogger.Logged(t.(profiles := t.profiles - {userId}), "delete", "users", Some(userId),
                                Some(Label(DeleteLabel(found))), log), Success)
  }

  method DeleteUser(db: Backend, userId: Id, read: Outcome, delete: Outcome, log: Outcome) returns (r: Response)
    modifies db
    ensures Effect(db.Tables(), r) == DeleteUserSpec(old(db.Tables()), userId, read, delete, log)
  {
    var found := ReadRow(db.profiles, userId, read);
    if delete.Fail? {
      return Returned(delete.message);
    }
    db.profiles := db.profiles - {userId};
    AuditLogger.LogAuditAction(db, "delete", "users", Some(userId), Some(Label(DeleteLabel(found))), log);
    r := Success;
  }
}

=== FILE: users_client.dfy ===
/**
 * components/admin/users-client.tsx: the users table. The search and role filter, the role
 * counts, the initials avatar, the display name and role label of each row, and the role
 * permissions overview (display data only: no server action consults it).
 */
module UsersClient {
  import opened Common
  import opened Store
  import Text

  /** A user row as the page receives it; `full_name` may be null. */
  datatype User = User(id: Id, fullName: Option<string>, email: string, role: string)

  // ---------------------------------------------------------------- filter

  /**
   * `user.full_name?.toLowerCase().includes(q) || user.email.toLowerCase().includes(q)`, with `q`
   * the lower-cased query: a null name falls through to the e-mail test.
   */
  predicate MatchesSearch(u: User, query: string) {
    || (u.fullName.Some? && Text.Contains(Text.Lower(u.fullName.value), Text.Lower(query)))
    || Text.Contains(Text.Lower(u.email), Text.Lower(query))
  }

  /** Both tests of the filter; the role "all" switches the role test off. */
  predicate Matches(u: User, query: string, role: string) {
    MatchesSearch(u, query) && (role == "all" || u.role == role)
  }

  /** `filteredUsers`: the users passing both tests, in list order. */
  function FilteredUsers(users: seq<User>, query: string, role: string): (r: seq<User>)
    ensures IsSubsequence(r, users)
    ensures forall u :: u in r <==> u in users && Matches(u, query, role)
  {
    FilterSpec(users, u => Matches(u, query, role));
    Filter(users, u => Matches(u, query, role))
  }

  /** With an empty search and the role select on "all", every user is listed, in order. */
  lemma NoFilterListsAll(users: seq<User>)
    ensures FilteredUsers(users, "", "all") == users
  {
    forall u | u in users
      ensures Matches(u, "", "all")
    {
      Text.ContainsEmpty(Text.Lower(u.email));
    }
    FilterAllPass(users, u => Matches(u, "", "all"));
  }

  /** The search ignores case: two queries that lower-case alike list the same users. */
  lemma SearchIgnoresCase(users: seq<User>, q1: string, q2: string, role: string)
    requires Text.Lower(q1) == Text.Lower(q2)
    ensures FilteredUsers(users, q1, role) == FilteredUsers(users, q2, role)
  {
    FilterCongruent(users, u => Matches(u, q1, role), u => Matches(u, q2, role));
  }

  // ---------------------------------------------------------------- role counts

  /** `roleCounts`. */
  datatype RoleCounts = RoleCounts(superAdmin: nat, admin: nat, editor: nat, viewer: nat)

  function HasRole(role: string): User -> bool {
    (u: User) => u.role == role
  }

  /** One of the four roles the page counts. */
  predicate Known(u: User) {
    u.role in {"super_admin", "admin", "editor", "viewer"}
  }

  function Total(c: RoleCounts): nat {
    c.superAdmin + c.admin + c.editor + c.viewer
  }

  /**
   * Each count is the number of users with exactly that role; a user with another role (or a
   * differently spelled one) is in no count, so the counts add up to at most the number of users.
   */
  function CountRoles(users: seq<User>): (c: RoleCounts)
    ensures c.superAdmin == Count(users, HasRole("super_admin"))
    ensures c.admin == Count(users, HasRole("admin"))
    ensures c.editor == Count(users, HasRole("editor"))
    ensures c.viewer == Count(users, HasRole("viewer"))
    ensures Total(c) <= |users|
  {
    FilterLength(users, HasRole("super_admin"));
    FilterLength(users, HasRole("admin"));
    FilterLength(users, HasRole("editor"));
    FilterLength(users, HasRole("viewer"));
    CountsCoverKnown(users);
    RoleCounts(|Filter(users, HasRole("super_admin"))|, |Filter(users, HasRole("admin"))|,
               |Filter(users, HasRole("editor"))|, |Filter(users, HasRole("viewer"))|)
  }

  /** The four counts together are the number of users with a known role. */
  lemma {:induction false} CountsCoverKnown(users: seq<User>)
    ensures Count(users, HasRole("super_admin")) + Count(users, HasRole("admin")) + Count(users, HasRole("editor"))
      + Count(users, HasRole("viewer")) == Count(users, Known)
  {
    if users != [] {
      CountsCoverKnown(users[1..]);
    }
  }

  /** The counts account for every user exactly when every user has one of the four roles. */
  lemma {:induction false} CountsAddUpIff(users: seq<User>)
    ensures Total(CountRoles(users)) == |users| <==> forall u :: u in users ==> Known(u)
  {
    CountsCoverKnown(users);
    CountAllIff(users, Known);
  }

  /** Every element passes a test exactly when the test counts all of them. */
  lemma {:induction false} CountAllIff(s: seq<User>, p: User -> bool)
    ensures Count(s, p) == |s| <==> forall x :: x in s ==> p(x)
  {
    if s != [] {
      CountAllIff(s[1..], p);
      assert forall x :: x in s <==> x == s[0] || x in s[1..];
    }
  }

  // ---------------------------------------------------------------- row text

  /** A word that has a first character; `n[0]` of an empty word is `undefined`, which joins as "". */
  predicate NonEmptyWord(w: string) {
    w != []
  }

  /**
   * `(n) => n[0]` joined with "": the first character of each non-empty word, in word order; an
   * empty word contributes nothing.
   */
  function Heads(words: seq<string>): (r: string)
    ensures |r| == |Filter(words, NonEmptyWord)|
    ensures forall i :: 0 <= i < |r| ==>
      Filter(words, NonEmptyWord)[i] != [] && r[i] == Filter(words, NonEmptyWord)[i][0]
  {
    if words == [] then ""
    else
      var rest := Heads(words[1..]);
      FilterSpec(words[1..], NonEmptyWord);
      if words[0] == [] then rest
      else
        var r := [words[0][0]] + rest;
        assert Filter(words, NonEmptyWord) == [words[0]] + Filter(words[1..], NonEmptyWord);
        r
  }

  /**
   * The avatar text: `(full_name || email).split(" ").map((n) => n[0]).join("").toUpperCase()`:
   * the upper-cased first character of each non-empty space-separated word, in order, so at most
   * one letter per word.
   */
  function Initials(u: User): (r: string)
    ensures var words := Filter(Text.Split(Text.OrElse(u.fullName, u.email), ' '), NonEmptyWord);
      && |r| == |words|
      && forall i :: 0 <= i < |r| ==> words[i] != [] && r[i] == Text.UpperChar(words[i][0])
    ensures var source := Text.OrElse(u.fullName, u.email);
      |r| <= Text.Occurrences(source, ' ') + 1
  {
    var source := Text.OrElse(u.fullName, u.email);
    Text.SplitLength(source, ' ');
    Text.Upper(Heads(Text.Split(source, ' ')))
  }

  /** A name of two words gives the upper-cased first letter of each. */
  lemma TwoWordInitials(u: User, first: string, last: string)
    requires first != "" && last != "" && ' ' !in first && ' ' !in last
    requires u.fullName == Some(first + " " + last)
    ensures Initials(u) == [Text.UpperChar(first[0]), Text.UpperChar(last[0])]
  {
    assert first + " " + last == first + [' '] + last;
    Text.SplitAtSeparator(first, ' ', last);
    Text.SplitWithoutSeparator(first, ' ');
    Text.SplitWithoutSeparator(last, ' ');
    assert Text.Split(first + " " + last, ' ') == [first, last];
    assert Heads([first, last]) == [first[0], last[0]] by {
      assert [first, last][1..] == [last];
    }
  }

  /** Without a name (null or empty), an e-mail without spaces gives one letter: its first, upper-cased. */
  lemma EmailInitial(u: User)
    requires u.fullName.None? || u.fullName.value == ""
    requires u.email != "" && ' ' !in u.email
    ensures Initials(u) == [Text.UpperChar(u.email[0])]
  {
    Text.SplitWithoutSeparator(u.email, ' ');
    assert Heads([u.email]) == [u.email[0]];
  }

  /** The name shown: `full_name || email.split("@")[0]`. */
  function DisplayName(u: User): (r: string)
    ensures u.fullName.Some? && u.fullName.value != "" ==> r == u.fullName.value
    ensures Text.IsBlank(u.fullName) ==> r == Text.BeforeFirst(u.email, '@')
  {
    Text.OrElse(u.fullName, Text.BeforeFirst(u.email, '@'))
  }

  /** Without a name, an address `local@domain` shows its local part. */
  lemma DisplayNameIsLocalPart(u: User, local: string, domain: string)
    requires u.fullName.None? || u.fullName.value == ""
    requires '@' !in local && u.email == local + "@" + domain
    ensures DisplayName(u) == local
  {
    assert u.email == local + ['@'] + domain;
    Text.SplitAtSeparator(local, '@', domain);
    Text.SplitWithoutSeparator(local, '@');
  }

  /** The badge text: `role.replace("_", " ")`, which replaces only the first underscore. */
  function RoleLabel(role: string): (r: string)
    ensures |r| == |role|
    ensures '_' !in role ==> r == role
  {
    ReplaceFirstKeeps(role);
    Text.ReplaceFirst(role, '_', " ")
  }

  /** Replacing a character by one character keeps the length; with no match nothing changes. */
  lemma {:induction false} ReplaceFirstKeeps(s: string)
    ensures |Text.ReplaceFirst(s, '_', " ")| == |s|
    ensures '_' !in s ==> Text.ReplaceFirst(s, '_', " ") == s
  {
    if s != [] && s[0] != '_' {
      ReplaceFirstKeeps(s[1..]);
      assert [s[0]] + s[1..] == s;
    }
  }

  /** Only the first underscore becomes a space: `a_b` with `a` free of underscores reads `a b`. */
  lemma {:induction false} RoleLabelFirstUnderscore(a: string, b: string)
    requires '_' !in a
    ensures RoleLabel(a + "_" + b) == a + " " + b
  {
    if a != [] {
      assert (a + "_" + b)[1..] == a[1..] + "_" + b;
      RoleLabelFirstUnderscore(a[1..], b);
      assert [a[0]] + (a[1..] + " " + b) == a + " " + b;
    }
  }

  /** "super_admin" is shown as "super admin". */
  lemma SuperAdminLabel()
    ensures RoleLabel("super_admin") == "super admin"
  {
    var a, b := "super", "admin";
    RoleLabelFirstUnderscore(a, b);
    assert a + "_" + b == "super_admin";
    assert a + " " + b == "super admin";
  }

  /** The other three roles are shown as they are. */
  lemma OtherRoleLabels()
    ensures RoleLabel("admin") == "admin" && RoleLabel("editor") == "editor" && RoleLabel("viewer") == "viewer"
  {
    var a, e, v := "admin", "editor", "viewer";
    assert '_' !in a && '_' !in e && '_' !in v;
  }

  // ---------------------------------------------------------------- permissions overview

  /** One row of the overview: a permission, and whether Super Admin, Admin, Editor, Viewer hold it. */
  datatype PermissionRow = PermissionRow(permission: string, roles: seq<bool>)

  const Matrix := [
    PermissionRow("View Dashboard", [true, true, true, true]),
    PermissionRow("Edit Pages", [true, true, true, false]),
    PermissionRow("Publish Pages", [true, true, false, false]),
    PermissionRow("Manage Users", [true, true, false, false]),
    PermissionRow("Manage Settings", [true, false, false, false]),
    PermissionRow("View Analytics", [true, true, true, true]),
    PermissionRow("Manage Media", [true, true, true, false]),
    PermissionRow("Manage SEO", [true, true, true, false])
  ]

  /**
   * The overview is a hierarchy: every row has a mark per role, Super Admin holds every
   * permission, and each role holds every permission of the roles listed after it.
   */
  lemma MatrixIsHierarchy()
    ensures forall i :: 0 <= i < |Matrix| ==> |Matrix[i].roles| == 4 && Matrix[i].roles[0]
    ensures forall i, j, k :: 0 <= i < |Matrix| && 0 <= j < k < 4 && Matrix[i].roles[k] ==> Matrix[i].roles[j]
  {
  }

  /** Only Super Admin manages settings, and Viewer holds exactly the two viewing permissions. */
  lemma MatrixRestrictions()
    ensures forall i :: 0 <= i < |Matrix| && Matrix[i].permission == "Manage Settings" ==>
      Matrix[i].roles == [true, false, false, false]
    ensures forall i :: 0 <= i < |Matrix| ==>
      (Matrix[i].roles[3] <==> Matrix[i].permission == "View Dashboard" || Matrix[i].permission == "View Analytics")
  {
  }
}
